=== FILE: README.md ===
# Cassava chatbot backend, modelled in Dafny

This project models the backend core of a Thai cassava-farming chatbot. The
backend answers farmers' questions over LINE and over a web API. It retrieves
knowledge-base snippets, optionally fetches live weather, asks a language model
for an answer, and keeps a ledger of every conversation. It also ingests
documents (PDF, Word, images) into the knowledge base and reports
analytics over the ledger.

The modules follow the backend's structure:

- `Wrappers`, `Text`, `Tally`, `Calendar`, `Csv`, `Http`: the JavaScript
  semantics the services rely on. This covers `String.prototype.trim`,
  `split`/`join`, `toLowerCase`, `parseInt(x) || d`, array filter/sort/skip/limit,
  `Date` fields and `toISOString`, CSV escaping, and HTTP statuses.
- `RagService`: sentence splitting and the overlapping chunker.
- `MistralService`: context preparation, the weather-keyword test, prompt
  building and the confidence score.
- `WeatherService`: the farming advice.
- `AgentService`: the question pipeline `processQuestion` and
  `processBatchQuestions`.
- `Mongoose`: the message of the `ValidationError` a failed `save` rejects with.
- `DocumentModel`, `DocumentService`: the document schema and ingestion.
  `DocumentStore` is a class whose methods update the stored documents in place.
- `ConversationLogModel`, `UserModel`, `LogService`: the ledger. `Ledger` is a
  class holding the saved conversations and users, kept consistent by every save.
  `LogService` also filters, searches and pages the saved conversations.
- `LogAnalytics`: source statistics, daily counts, averages and top questions.
- `AskRoute`, `WebhookRoute`, `UploadRoute`, `LogsRoute`: the Express routes,
  each modelled as a function from the request to a status and body.

Modelling conventions:

- Every external capability becomes a parameter holding its outcome. This covers
  embeddings, similarity search, the Mistral client, the weather API, PDF/Word/OCR
  readers, `Date.now` and the database clock.
- Optional request fields are `Option` values. A destructuring default applies
  only to `None`, as in JavaScript, where it applies only to `undefined`.
- The Mongoose schemas are strict. Keys that a schema does not declare are not
  stored. Enum, `required`, `min`, `max` and custom validators are modelled
  path by path (a required string rejects `""`), and a failed `save` reports
  the combined `ValidationError` message, "<Model> validation failed: " and one
  "path: message" entry per failing path.

### Notes on the code

- Source labels. The agent labels its answers RAG, External or Hybrid
  (`services/agentService.js:29-45`), or Error on its fallback path
  (`services/agentService.js:111`). The conversation schema
  (`models/ConversationLog.js:19`) accepts only RAG, External and Fallback. So an
  answer labelled Hybrid or Error fails validation when it is saved, and the ask
  route then answers 500 (`AskRoute.AskAnswersRagOrExternal`,
  `ConversationLogModel.HybridAndErrorAreRejected`).
- Retrieval. `processQuestion` calls `ragService.searchKnowledgeBase`
  (`services/agentService.js:18`), but `services/ragService.js:44` exports only
  `generateEmbedding` and `splitIntoChunks`. So the retrieval result is an input
  to the model, and a retrieval failure takes the fallback path
  (`AgentService.RetrievalFailureFallsBack`).
- Errors. The fallback path logs `question.length`
  (`services/agentService.js:105`). A missing question already throws on that
  expression at `services/agentService.js:13`, so it throws again in the
  fallback, and `processQuestion` itself rejects. The model says so.

## Model

| member | source | states |
|---|---|---|
| RagService.SentencePieces | project/backend/services/ragService.js:25 | the pieces of the split on runs of '.', '!' and '?' that survive the blank filter: none is blank after trimming and none holds a terminator |
| RagService.NonBlank | project/backend/services/ragService.js:25 | keeps only pieces whose trimmed text is non-empty, each taken from the input |
| RagService.Sentences | project/backend/services/ragService.js:25-29 | one trimmed sentence per surviving piece |
| RagService.SliceFrom | project/backend/services/ragService.js:33 | `slice(start)` returns a suffix of the list |
| RagService.OverlapWordsAreLastWords | project/backend/services/ragService.js:32-33 | the overlap is the last `floor(overlap/10)` space-separated words (all of them when fewer); a count of 0 keeps every word (`slice(-0)`); a negative count drops words from the front |
| RagService.StepShape | project/backend/services/ragService.js:30-37 | one loop turn: earlier chunks are kept; a chunk is added exactly when the buffer is non-empty and buffer+sentence exceeds chunkSize, and it is the trimmed buffer; the next buffer is overlap words + ' ' + sentence; otherwise the sentence is appended after one space (none for an empty buffer) |
| RagService.KeepLong | project/backend/services/ragService.js:41 | exactly the chunks longer than 50 characters are kept |
| RagService.SplitIntoChunks | project/backend/services/ragService.js:23-42 | the loop returns exactly `Chunks(text, chunkSize, overlap)`, and every chunk is longer than 50 characters, trimmed and free of terminators |
| RagService.PackSentences | project/backend/services/ragService.js:28-37 | the sentence loop closes and carries over exactly as the packing specification `Pack` does, sentence by sentence |
| RagService.PackClosedTrimmed | project/backend/services/ragService.js:31 | every chunk closed inside the loop is trimmed |
| RagService.ChunksAreLongAndTrimmed | project/backend/services/ragService.js:31-41 | every returned chunk is trimmed and longer than 50 characters |
| RagService.BlankTextHasNoChunks | project/backend/services/ragService.js:25-41 | text made only of white space and '.', '!', '?' has no sentences and gives no chunks |
| RagService.NonBlankOfBlank | project/backend/services/ragService.js:25 | pieces that are all blank are all dropped |
| RagService.PackHasNoTerminators | project/backend/services/ragService.js:28-37 | the buffer and every closed chunk are free of '.', '!' and '?' |
| RagService.StepHasNoTerminators | project/backend/services/ragService.js:30-37 | one loop turn adds no terminator |
| RagService.OverlapHasNoTerminators | project/backend/services/ragService.js:32-34 | the overlap words of a terminator-free buffer, re-joined, hold no terminator |
| RagService.ChunksAreClean | project/backend/services/ragService.js:23-42 | every returned chunk is long, trimmed and free of terminators |
| RagService.ChunksHaveNoTerminators | project/backend/services/ragService.js:25-41 | no returned chunk contains '.', '!' or '?' |
| RagService.PackKeepsSentences | project/backend/services/ragService.js:28-37 | every sentence seen so far lies whole in a closed chunk or in the buffer |
| RagService.SentenceNeverCut | project/backend/services/ragService.js:28-40 | every sentence, however long, lies whole inside some chunk before the length filter |
| RagService.ZeroOverlapCarriesWholeBuffer | project/backend/services/ragService.js:32-34 | with 0 <= overlap < 10 the next buffer after a close is the whole old buffer, a space and the sentence |
| MistralService.CountTierA | project/backend/services/mistralService.js:97 | the number of tier-A chunks is at most the number of chunks |
| MistralService.ConfidenceScore | project/backend/services/mistralService.js:88-106 | the score never exceeds 1.0 |
| MistralService.ConfidenceWithoutChunks | project/backend/services/mistralService.js:89-103 | no chunks gives exactly 0.3 without external data and 0.5 with it |
| MistralService.ExternalDataNeverLowers | project/backend/services/mistralService.js:101-105 | adding external data never lowers the score |
| MistralService.SumSimilarityBounds | project/backend/services/mistralService.js:93 | with similarities in [0, 1] their sum lies in [0, n] |
| MistralService.ConfidenceInRange | project/backend/services/mistralService.js:88-106 | with similarities in [0, 1] the score lies in [0.3, 1.0] |
| MistralService.NoLowerClamp | project/backend/services/mistralService.js:91-105 | there is no lower clamp: one chunk of similarity -1 and tier other than A gives -0.3 |
| MistralService.SomeKeywordInIff | project/backend/services/mistralService.js:112 | `some(includes)` holds iff one of the keywords occurs in the text |
| MistralService.NeedsExternalDataIff | project/backend/services/mistralService.js:108-113 | true iff one of the seven weather keywords occurs in the lower-cased question |
| MistralService.KeywordsHaveNoCapitals | project/backend/services/mistralService.js:109 | lower-casing leaves every keyword unchanged |
| MistralService.KeywordTriggersWeather | project/backend/services/mistralService.js:108-113 | any question containing a keyword needs external data |
| MistralService.NeedsExternalDataIgnoresCase | project/backend/services/mistralService.js:110 | lower-casing the question first changes nothing |
| MistralService.ContextEntries | project/backend/services/mistralService.js:121 | one entry `[<tier><i+1>] <text>` per chunk, in order |
| MistralService.PrepareContext | project/backend/services/mistralService.js:115-123 | the context is empty iff there are no chunks |
| MistralService.EntriesJoinNonEmpty | project/backend/services/mistralService.js:120-122 | joining entries whose first is non-empty gives a non-empty text |
| MistralService.PrepareContextSnoc | project/backend/services/mistralService.js:120-122 | one more chunk appends "\n\n" and its entry, numbered after the others |
| MistralService.ContextHoldsEveryText | project/backend/services/mistralService.js:120-122 | every chunk's text occurs in the context |
| MistralService.Prompt | project/backend/services/mistralService.js:37-45 | the prompt always starts with the question line |
| MistralService.PromptSections | project/backend/services/mistralService.js:37-45 | the knowledge section is present only for a non-empty context and the external section only for external data, in that order, after the question line |
| MistralService.GenerateResponse | project/backend/services/mistralService.js:27-86 | a reply gives its first choice's content and usage; any client failure becomes the single error 'Failed to generate AI response' |
| AgentService.DocRefs | project/backend/services/agentService.js:85-90 | one document reference per snippet, in order |
| AgentService.ExternalData | project/backend/services/agentService.js:36-60 | weather data is used iff it is wanted (nothing found, or the question needs external data) and the weather call succeeded; a failed call is swallowed |
| AgentService.ProcessQuestion | project/backend/services/agentService.js:7-118 | the call fails only for a missing question; an answer labelled 'Error' is the fixed apology with confidence 0 and error details; any other answer carries snippet details |
| AgentService.RetrievalFailureFallsBack | project/backend/services/agentService.js:97-116 | a retrieval that throws gives the fallback answer carrying that error message |
| AgentService.GenerationFailureFallsBack | project/backend/services/agentService.js:62-116 | a generation failure gives the fallback answer carrying 'Failed to generate AI response' |
| AgentService.WeatherOnlyWhenWanted | project/backend/services/agentService.js:36-39 | when weather is not wanted, its outcome cannot change the answer |
| AgentService.SourceLabels | project/backend/services/agentService.js:29-59 | 'Hybrid' iff found and weather used, 'External' iff not found and weather used, 'RAG' otherwise, also when nothing was found and weather failed |
| AgentService.ConfidenceIsRecomputed | project/backend/services/agentService.js:30-67 | a generated answer's confidence is the confidence score of the snippets and the weather use, not the retrieval's confidence |
| AgentService.DetailsMirrorSnippets | project/backend/services/agentService.js:84-93 | ragDocuments mirrors the snippets one to one; externalApi is 'OpenWeatherMap' iff weather was used; tier is the first snippet's tier, or none without snippets |
| AgentService.BatchEntryFor | project/backend/services/agentService.js:128-152 | the entry carries its question and index; it is the error entry (fixed text, source 'Error') iff the question is missing |
| AgentService.ProcessBatchQuestions | project/backend/services/agentService.js:120-162 | one entry per question, in order, each for its own question with batchIndex i |
| DocumentModel.ParseTier | project/backend/models/Document.js:16-20 | a tier string is accepted iff it is 'A', 'B' or 'C', and the accepted tier names that string |
| Mongoose.ValidationMessage | project/backend/services/logService.js:33-41 | a failed save's message starts with '<Model> validation failed: ' |
| Mongoose.MessageListsEachPath | project/backend/services/logService.js:33-41 | every failing path occurs in the message as 'path: message' |
| DocumentModel.ParseTierName | project/backend/models/Document.js:16-20 | every tier's name parses back to that tier |
| DocumentModel.ParseStatus | project/backend/models/Document.js:38-42 | a status string is accepted iff it is one of pending, processing, completed, failed |
| DocumentModel.ParseStatusName | project/backend/models/Document.js:38-42 | every status's name parses back to that status |
| DocumentModel.EmbeddingErrors | project/backend/models/Document.js:21-33 | no entry iff every embedding has 384 entries; each chunk k with another length is listed as `chunks.k.embedding` with 'Embedding must have 384 dimensions' |
| DocumentModel.TierErrors | project/backend/models/Document.js:16-20 | no entry iff the tier is A, B or C; otherwise the one `tier` entry with the enum message naming the value |
| DocumentModel.PathErrors | project/backend/models/Document.js:3-46 | no failing path iff filename, originalName and content are non-empty, the tier is A, B or C and every embedding has 384 entries |
| DocumentModel.RequiredDocumentPathsListed | project/backend/models/Document.js:4-15 | `filename`, `originalName` and `content` are each listed with the `required` message exactly when empty |
| DocumentModel.TierAndEmbeddingsListed | project/backend/models/Document.js:16-33 | the tier is listed with the `enum` message exactly when it is not 'A', 'B' or 'C'; every chunk whose embedding does not have 384 entries is listed under `chunks.<k>.embedding` |
| DocumentModel.Validate | project/backend/models/Document.js:3-46 | a document saves iff filename, originalName and content are non-empty and every chunk embedding has 384 entries; a saved document is unchanged; a refused one gets the 'Document validation failed: ' message listing its failing paths |
| DocumentModel.EmptyContentMessage | project/backend/models/Document.js:12-15 | a document failing only on empty content is refused with 'Document validation failed: content: Path `content` is required.' |
| DocumentService.OcrPdf | project/backend/services/documentService.js:81-117 | a worker that fails to start gives its error; otherwise the trimmed text of the pages 1..n, each recognised page followed by a newline, failing pages skipped |
| DocumentService.RecognisePages | project/backend/services/documentService.js:99-107 | the page loop builds exactly the recognised pages 1..n, each followed by a newline, a failing page adding nothing |
| DocumentService.PagesTextGrows | project/backend/services/documentService.js:99-108 | the OCR text of more pages extends the text of fewer pages |
| DocumentService.PageTextIsKept | project/backend/services/documentService.js:101-103 | a recognised page adds exactly its text and a newline after the earlier pages |
| DocumentService.AllPagesFailing | project/backend/services/documentService.js:105-107 | when every page fails the OCR text is empty and the call still succeeds |
| DocumentService.OneLinePerPage | project/backend/services/documentService.js:103 | with page texts free of newlines, the collected text holds one newline per recognised page |
| DocumentService.OcrPdfResult | project/backend/services/documentService.js:110-113 | the OCR result is trimmed, and fails iff the worker fails to start |
| DocumentService.PageCount | project/backend/services/documentService.js:37 | numpages, or 1 when it is 0: at least one page, and the page count when it is positive |
| DocumentService.ExtractPdf | project/backend/services/documentService.js:30-41 | the text extracted from a PDF is trimmed |
| DocumentService.ExtractText | project/backend/services/documentService.js:28-62 | extracted text is trimmed; a type that is not PDF, Word or image fails |
| DocumentService.UnsupportedTypesFail | project/backend/services/documentService.js:55-57 | any other type fails with 'Unsupported file type: ' and the type |
| DocumentService.WordUsesMammoth | project/backend/services/documentService.js:42-47 | both Word types give the trimmed raw text, or the reader's error |
| DocumentService.ImagesUseOcr | project/backend/services/documentService.js:48-54 | an image with OCR skipped gives the empty text; otherwise the trimmed OCR text or the OCR error |
| DocumentService.PdfTextBeforeOcr | project/backend/services/documentService.js:33-41 | a PDF with a non-blank text layer gives that text trimmed, whatever OCR would say |
| DocumentService.BlankPdfIsOcrd | project/backend/services/documentService.js:35-38 | a PDF with a blank text layer and OCR not skipped gives the OCR result over numpages pages, or 1 when it is 0 |
| DocumentService.ChunkRecords | project/backend/services/documentService.js:168-172 | one record per chunk, in order, with its text, an empty embedding and its index |
| DocumentService.ChunkRecordsTexts | project/backend/services/documentService.js:168-172 | the records' texts are exactly the chunks |
| DocumentService.ChunkRecordsFailValidation | project/backend/models/Document.js:25-30 | records with empty embeddings never pass the 384-dimension validator |
| DocumentService.TierOrDefault | project/backend/services/documentService.js:131 | a missing or empty tier means 'B'; any other tier is kept |
| DocumentService.NewDocument | project/backend/services/documentService.js:119-147 | a saved document keeps the stored file name, records the original name re-decoded from its byte string as UTF-8, holds the extracted non-empty text, the tier ('B' by default), no chunks and status processing; an extraction error fails with that error; otherwise it fails exactly when the file name, the re-decoded name or the text is empty or the tier is unknown, with the 'Document validation failed: ' message listing those paths |
| DocumentService.EmptyTextIsRefused | project/backend/services/documentService.js:49-54 | an image uploaded with OCR skipped is never saved, since its content is empty |
| DocumentService.UpdateById | project/backend/services/documentService.js:174-177 | only the document with that id is updated; the others and the length are kept |
| DocumentService.UpdateEvolves | project/backend/services/documentService.js:174-182 | the background update only moves a status to completed or failed, and keeps the ids unique and non-pending |
| DocumentService.DocumentStore.constructor | project/backend/services/documentService.js:11-16 | the store starts empty |
| DocumentService.DocumentStore.ProcessUploadedFile | project/backend/services/documentService.js:119-161 | the new document is appended iff it was created; the store keeps its invariant |
| DocumentService.DocumentStore.ProcessDocumentEmbeddings | project/backend/services/documentService.js:163-185 | a successful write stores the chunks of the content with status completed and returns their count; a failed write marks the document failed if that write succeeds; the store only evolves |
| DocumentService.DocumentStore.FindById | project/backend/routes/upload-doc.js:157 | the document with that id, or none iff no document has it |
| DocumentService.DocumentStore.Delete | project/backend/routes/upload-doc.js:157-158 | returns the document found by id, and the store loses exactly the documents with that id |
| DocumentService.FindIn | project/backend/routes/upload-doc.js:157 | a found document is in the list with that id; none iff no document has it |
| DocumentService.Without | project/backend/routes/upload-doc.js:157 | the result keeps exactly the documents with another id |
| DocumentService.WithoutUnknown | project/backend/routes/upload-doc.js:157 | removing an unknown id changes nothing |
| DocumentService.WithoutRemovesOne | project/backend/routes/upload-doc.js:157 | with unique ids, removing a present id removes one document and keeps ids unique |
| ConversationLogModel.ValidationError | project/backend/models/ConversationLog.js:3-49 | a record saves iff userId, question and answer are non-empty, source is one of RAG, External, Fallback, and confidence lies in [0, 1]; a refused one gets the 'ConversationLog validation failed: ' message listing its failing paths |
| ConversationLogModel.PathErrors | project/backend/models/ConversationLog.js:3-35 | no failing path iff the record is valid |
| ConversationLogModel.SourceErrors | project/backend/models/ConversationLog.js:17-21 | no entry iff the source is RAG, External or Fallback; the `required` message for an empty one, else the enum message naming it |
| ConversationLogModel.ConfidenceErrors | project/backend/models/ConversationLog.js:31-35 | no entry iff the confidence lies in [0, 1]; the `min` message below, the `max` message above |
| ConversationLogModel.RequiredPathsListed | project/backend/models/ConversationLog.js:4-16 | userId, question and answer are each listed with the `required` message exactly when empty |
| ConversationLogModel.SourceAndConfidenceListed | project/backend/models/ConversationLog.js:17-35 | source is listed as required exactly when empty and as outside the enum exactly when unknown; confidence exactly when below 0 or above 1 |
| ConversationLogModel.BadSourceMessage | project/backend/models/ConversationLog.js:17-21 | a record failing only on its source, such as a 'Hybrid' answer, is refused with 'ConversationLog validation failed: source: `Hybrid` is not a valid enum value for path `source`.' |
| ConversationLogModel.HybridAndErrorAreRejected | project/backend/models/ConversationLog.js:17-21 | a record labelled 'Hybrid' or 'Error' never passes validation |
| UserModel.NewUser | project/backend/models/User.js:3-34 | a new user has its id, no questions, language 'th', is active and has no last-active time |
| UserModel.Touch | project/backend/services/logService.js:47-54 | the count goes up by one and the last-active time is set; every other field is kept |
| UserModel.FirstTouchCountsOne | project/backend/services/logService.js:47-54 | an upsert that creates the user leaves it with one question |
| WeatherService.IrrigationAdvice | project/backend/services/weatherService.js:119-123 | 'water more' iff humidity is below 60, 'water less' iff above 80, nothing iff within [60, 80] |
| WeatherService.ProtectionAdvice | project/backend/services/weatherService.js:125-129 | shade iff temperature is above 35, cold protection iff below 18, nothing iff within [18, 35] |
| WeatherService.GeneralAdvice | project/backend/services/weatherService.js:131-135 | drainage advice iff the description mentions rain, growth advice iff it mentions sun but not rain, nothing otherwise |
| WeatherService.FarmingAdvice | project/backend/services/weatherService.js:109-138 | harvesting advice is always empty; each other field follows its own rule |
| WeatherService.AdviceFieldsAreIndependent | project/backend/services/weatherService.js:117-135 | each advice field depends only on its own input |
| WeatherService.RainBeforeSun | project/backend/services/weatherService.js:131-135 | a description mentioning both rain and sun gets the rain advice |
| LogService.StoredDetails | project/backend/models/ConversationLog.js:22-30 | an error answer's details are stored empty; otherwise each snippet reference keeps its documentId, chunkIndex and similarity, in order, with the same API name and tier presence |
| LogService.NewRecord | project/backend/services/logService.js:7-31 | the record keeps the request's fields; a missing sourceDetails, confidence or responseTime takes its default ({}, 0, 0), and the platform is 'LINE' unless the metadata gives one |
| LogService.UserOr | project/backend/services/logService.js:47-53 | the upsert starts from the stored user, or from a new user with that id |
| LogService.Save | project/backend/services/logService.js:5-43 | the save succeeds iff the record validates; a failure leaves the ledger unchanged and reports the validation error; a success appends exactly that record |
| LogService.SaveTouchesOneUser | project/backend/services/logService.js:45-58 | a save raises the asking user's count by one and stamps the time, creating the user if absent; a failed statistics write changes no user; other users are untouched |
| LogService.SaveKeepsConsistent | project/backend/services/logService.js:5-43 | saving keeps record ids unique and below the next id, every record valid, and users keyed by their own ids |
| LogService.QuestionsOf | project/backend/services/logService.js:50 | the number of records a user asked is at most the number of records |
| LogService.SaveKeepsStatsMatch | project/backend/services/logService.js:36-54 | while statistics writes succeed, every user's count equals the number of their saved records |
| LogService.AppendKeepsCounts | project/backend/services/logService.js:36-54 | appending a record and bumping its user keeps every user's count equal to their number of records |
| LogService.QuestionsOfAbsent | project/backend/services/logService.js:50 | a user with no record has asked nothing |
| LogService.SavedAnswerLabel | project/backend/services/logService.js:19-33 | only answers labelled 'RAG' or 'External' can be saved |
| LogService.SaveAnswerIff | project/backend/services/logService.js:5-43 | saving an answer succeeds exactly when the user, question and answer are non-empty, the label is 'RAG' or 'External' and the confidence lies in [0, 1], whatever the ledger, clock and metadata |
| LogService.EmptyLedger | project/backend/services/logService.js:4 | the empty ledger is consistent and its statistics match |
| LogService.Ledger.constructor | project/backend/services/logService.js:4 | the ledger starts empty |
| LogService.Ledger.SaveConversation | project/backend/services/logService.js:5-43 | the ledger's new state and the result are those of Save, and the ledger stays consistent |
| LogService.Newest | project/backend/services/logService.js:93-94 | exactly as many records as match, each matching, drawn from the ledger, newest first |
| LogService.CeilDivBounds | project/backend/services/logService.js:107 | the page count is the least number of pages of size limit covering the total |
| LogService.GetConversationLogs | project/backend/services/logService.js:60-114 | fails iff the skip (page - 1) * limit is negative; otherwise echoes page and limit, counts every match in total, lists at most limit records, and has a page count iff limit is not 0 |
| LogService.ListedLogs | project/backend/services/logService.js:72-97 | every listed record matches the filters, the page is newest first, and is drawn from the ledger |
| LogService.PageOfItem | project/backend/services/logService.js:90 | the k-th item is on page k / limit + 1, within the page count |
| LogService.MatchIsOnItsPage | project/backend/services/logService.js:90-107 | with a positive limit each match appears on its page, and that page is within the page count |
| LogService.PageIsSlice | project/backend/services/logService.js:90-97 | a page is the slice of the newest matches after the skip |
| LogService.NoFiltersMatchAll | project/backend/services/logService.js:72-88 | without filters every record matches and total is the number of records |
| LogAnalytics.TimeRangeDays | project/backend/services/logService.js:121-133 | '1d' means one day, '30d' thirty, and every other range seven |
| LogAnalytics.WindowStart | project/backend/services/logService.js:118-133 | the window starts the range's days before now |
| LogAnalytics.Window | project/backend/services/logService.js:144-146 | exactly the records created at or after the start, drawn from the ledger |
| LogAnalytics.LongerRangeSelectsMore | project/backend/services/logService.js:121-133 | a longer range counts at least as many conversations |
| LogAnalytics.CountsOf | project/backend/services/logService.js:151 | one row per given key, with its number of occurrences |
| LogAnalytics.GroupCounts | project/backend/services/logService.js:149-152 | one row per distinct key, each with its positive number of occurrences |
| LogAnalytics.GroupOf | project/backend/services/logService.js:157 | every key that occurs has its own row |
| LogAnalytics.SumCountsOf | project/backend/services/logService.js:151 | the rows' counts add up to the occurrences of their keys |
| LogAnalytics.GroupCountsSum | project/backend/services/logService.js:149-152 | the group counts add up to the number of grouped records |
| LogAnalytics.SourceBreakdown | project/backend/services/logService.js:199-202 | the reduce builds the breakdown map, a later row overwriting an earlier one with the same key |
| LogAnalytics.BreakdownHoldsGroups | project/backend/services/logService.js:199-202 | with distinct keys, the map holds exactly the groups' keys, each with its group's count |
| LogAnalytics.BreakdownSumsToTotal | project/backend/services/logService.js:144-202 | the breakdown's counts over the distinct sources add up to the number of conversations in the window |
| LogAnalytics.TopOf | project/backend/services/logService.js:155-160 | at most ten rows, ordered by descending count |
| LogAnalytics.TopOfCounted | project/backend/services/logService.js:155-160 | each listed question occurs as often as its count, at least once |
| LogAnalytics.TopOfDistinct | project/backend/services/logService.js:155-160 | no question is listed twice |
| LogAnalytics.TopOfIsTop | project/backend/services/logService.js:155-160 | a question left out means ten are listed, and it occurs no more often than the tenth |
| LogAnalytics.MeanBounds | project/backend/services/logService.js:165 | the average lies within any bounds of its values |
| LogAnalytics.Positives | project/backend/services/logService.js:164 | only values above zero are averaged |
| LogAnalytics.PositivesBounded | project/backend/services/logService.js:164 | the kept values keep their bound; none are kept iff no value is positive |
| LogAnalytics.MeanOfPositives | project/backend/services/logService.js:163-208 | the average is 0 iff no value is positive, and otherwise above 0 and within the values' bound |
| LogAnalytics.Confidences | project/backend/services/logService.js:165 | one confidence per record, in order |
| LogAnalytics.ResponseTimes | project/backend/services/logService.js:171 | one response time per record, in order |
| LogAnalytics.AverageConfidenceRange | project/backend/services/logService.js:162-207 | over saved records the average confidence is 0 iff every confidence is 0, and lies in [0, 1] |
| LogAnalytics.AverageResponseTimeRange | project/backend/services/logService.js:168-208 | the average response time is 0 iff no time is positive, and otherwise positive and within the longest time |
| LogAnalytics.DatesOf | project/backend/services/logService.js:179-183 | one calendar day per record, in order |
| LogAnalytics.DayGroupsOf | project/backend/services/logService.js:177-192 | each day's row counts that day's records, and among them the RAG and the External ones |
| LogAnalytics.DayGroups | project/backend/services/logService.js:193 | the days are sorted by year, month and day |
| LogAnalytics.DailyStats | project/backend/services/logService.js:209-214 | one entry per day group, its date written YYYY-MM-DD, with the total, RAG and External counts |
| LogAnalytics.SourceDatesWithinDates | project/backend/services/logService.js:185-190 | a day's RAG and External records are among that day's records |
| LogAnalytics.DailySourcesWithinTotal | project/backend/services/logService.js:184-190 | each day's RAG and External counts add up to at most its total |
| LogAnalytics.DailyTotalsSum | project/backend/services/logService.js:175-194 | the days' totals add up to the number of conversations in the window |
| LogAnalytics.DailyStatsAscending | project/backend/services/logService.js:193 | no day comes before an earlier entry's day |
| LogAnalytics.DailyDatesReadBack | project/backend/services/logService.js:210 | from 1970 on, every written date reads back as its day |
| LogAnalytics.DateOfEpochOn | project/backend/services/logService.js:180 | timestamps from the epoch on fall in 1970 or later |
| LogAnalytics.GetAnalytics | project/backend/services/logService.js:116-220 | the report is the window's total, breakdown, top questions, positive-only averages and daily statistics |
| LogsRoute.FiltersOf | project/backend/routes/logs.js:19-27 | the filters exist iff every given date can be read; falsy parameters are left out |
| LogsRoute.FiltersOfQuery | project/backend/services/logService.js:72-88 | a record passes iff it satisfies every given parameter, the dates inclusively, the search on question or answer |
| LogsRoute.ListLogs | project/backend/routes/logs.js:7-41 | a refusal is 500 'Failed to fetch logs'; the listing succeeds iff the dates are readable and the skip is not negative; it echoes page and limit as parseInt reads them (hexadecimal after `0x`), with the defaults 1 and 50, and counts every match |
| LogsRoute.ListedLogsMatchQuery | project/backend/routes/logs.js:7-32 | every listed log satisfies every given parameter, newest first, and is a stored log |
| LogsRoute.DefaultListing | project/backend/routes/logs.js:24-25 | without page and limit the listing is the fifty newest matching logs |
| LogsRoute.AnalyticsRoute | project/backend/routes/logs.js:44-63 | the time range defaults to '7d' and is echoed; the report counts, ranks and groups the window it names |
| LogsRoute.FindById | project/backend/routes/logs.js:71 | the stored record with that id, or none iff no record has it |
| LogsRoute.GetLog | project/backend/routes/logs.js:66-91 | a found log is a stored one with the requested id; 404 'Conversation log not found' iff the id is well-formed but unknown; 500 iff the id cannot be cast |
| LogsRoute.HeaderIsRecord | project/backend/routes/logs.js:114 | the header line is the record of the seven column names |
| LogsRoute.HeaderReadable | project/backend/routes/logs.js:114 | the column names hold no comma, line feed or quote |
| LogsRoute.LogCells | project/backend/routes/logs.js:115-121 | seven fields per log; only the question and the answer are quoted |
| LogsRoute.LogFields | project/backend/routes/logs.js:116-120 | the values in header order, with a zero confidence or response time written as "0" |
| LogsRoute.LogRows | project/backend/routes/logs.js:115-121 | one record per log, in order |
| LogsRoute.ExportPage | project/backend/routes/logs.js:96-111 | the export runs iff the dates and the limit can be read by parseInt (hexadecimal after `0x`), and fetches the first page of limit (1000 by default) newest matches |
| LogsRoute.ExportCsv | project/backend/routes/logs.js:94-136 | a refusal is 500 'Failed to export logs'; the export succeeds iff the query runs and every date can be rendered, and is then the header and one line per log |
| LogsRoute.ExportDefaultLimit | project/backend/routes/logs.js:101 | without a limit the export holds the thousand newest matching logs |
| LogsRoute.CsvOfNone | project/backend/routes/logs.js:114-123 | no logs give the header line alone |
| LogsRoute.CsvEndsInDigit | project/backend/routes/logs.js:121-123 | with logs, the text ends with the last response time's digit, not with a line feed |
| LogsRoute.LastRowEndsWithDigit | project/backend/routes/logs.js:120-121 | the last line ends with the last log's response time |
| LogsRoute.IntTextPlain | project/backend/routes/logs.js:120 | a written integer holds no comma, line feed or quote |
| LogsRoute.IsoTextPlain | project/backend/routes/logs.js:116 | an ISO date holds no comma, line feed or quote |
| LogsRoute.LogCellsReadable | project/backend/routes/logs.js:115-121 | a log whose unquoted fields are plain is a readable record of its seven values |
| LogsRoute.LogRowsReadable | project/backend/routes/logs.js:115-121 | such logs give readable records of their values, in order |
| LogsRoute.ExportReadsBack | project/backend/routes/logs.js:114-123 | the export reads back as the column names and every log's seven values in order, the question and answer exactly as stored, when the unquoted fields are plain |
| LogsRoute.ExportedFields | project/backend/routes/logs.js:115-120 | one list of seven values per log, in order, each the values that log's row is built from |
| LogsRoute.HeaderReadsBack | project/backend/routes/logs.js:114 | the header line alone reads back as the column names |
| LogsRoute.HeaderThenRows | project/backend/routes/logs.js:123 | the header and readable records read back as the names and the records' texts |
| LogsRoute.UnquotedCommaSplitsUser | project/backend/routes/logs.js:120 | the user id is written unquoted: one holding a comma reads back as two fields |
| LogsRoute.SplitRowSameText | project/backend/routes/logs.js:120 | writing the field 'a,b' unquoted gives the same text as writing fields a and b |
| Csv.Escape | project/backend/routes/logs.js:117-118 | escaping never shortens the text |
| Csv.ReadBare | project/backend/routes/logs.js:120 | an unquoted field runs to the next comma or line feed |
| Csv.ReadEscaped | project/backend/routes/logs.js:117-118 | a quoted, escaped text reads back as the text itself |
| Csv.ReadBareSafe | project/backend/routes/logs.js:120 | an unquoted field without separators reads back as itself |
| Csv.ReadEncoded | project/backend/routes/logs.js:117-120 | every readable field reads back as its text |
| Csv.ReadRow | project/backend/routes/logs.js:120 | a readable record reads back as its texts |
| Csv.ReadLines | project/backend/routes/logs.js:121 | readable records joined by line feeds read back as their texts, in order |
| Csv.RowOfBare | project/backend/routes/logs.js:114 | plain texts written unquoted are the texts joined by commas |
| Csv.RecordThenLines | project/backend/routes/logs.js:123 | a record followed by a line feed and more records reads back as all of them |
| Calendar.YearLength | project/backend/services/logService.js:180 | a year has 365 or 366 days |
| Calendar.MonthLength | project/backend/services/logService.js:181 | a month has 28 to 31 days |
| Calendar.MonthDay | project/backend/services/logService.js:181-182 | a day of the year names a valid date in that year |
| Calendar.YearDay | project/backend/services/logService.js:180 | the day left over lies within its year |
| Calendar.DateOf | project/backend/services/logService.js:179-183 | every timestamp falls on a valid UTC calendar date |
| Calendar.DateOfDay | project/backend/services/logService.js:179-183 | timestamps in the same UTC day share their date; the epoch's first day is 1970-01-01 |
| Calendar.DateKeyOrder | project/backend/services/logService.js:193 | sorting by year, month, day is sorting by the date key, and equal keys are equal dates |
| Calendar.PadStart | project/backend/services/logService.js:210 | the padded text has the requested width, or its own when that is longer |
| Calendar.PadStartDigits | project/backend/services/logService.js:210 | zeros padded in front of a run of digits keep it digits with the same value |
| Calendar.ParseDate | project/backend/services/logService.js:210 | a readable date has three dash-separated parts |
| Calendar.ParseDateString | project/backend/services/logService.js:210 | a valid date from year 0 on reads back from its YYYY-MM-DD text |
| Calendar.DateStringLength | project/backend/services/logService.js:210 | the written date is ten characters for years 1000 to 9999, since the year is not padded |
| Calendar.PadDigits | project/backend/services/logService.js:210 | a padded number is digits of the width with the number's value |
| Calendar.ClockFields | project/backend/routes/logs.js:116 | hours, minutes, seconds and milliseconds lie in range and add back to the time of day |
| Calendar.IsoStringFields | project/backend/routes/logs.js:116 | for years 0 to 9999 the ISO text has 24 characters with the date and clock fields in place |
| Calendar.IsoStringChars | project/backend/routes/logs.js:116 | the ISO text holds only digits and the characters -+T:.Z |
| Text.Trim | project/backend/services/documentService.js:41 | the result has no white space at either end and is no longer than the input |
| Text.TrimIsSlice | project/backend/services/ragService.js:29 | trimming removes only white space, and only at the two ends |
| Text.TrimOfTrimmed | project/backend/services/ragService.js:40 | trimming trimmed text changes nothing |
| Text.TrimEmptyIffBlank | project/backend/services/ragService.js:25 | the trimmed text is empty iff the text is all white space |
| Text.SplitOn | project/backend/services/ragService.js:25 | at least one piece, none holding a separator |
| Text.JoinSplit | project/backend/services/ragService.js:32-34 | joining the pieces of a split with its separator gives the text back |
| Text.Lower | project/backend/services/mistralService.js:110 | lower-casing keeps the length and maps each character |
| Text.LowerIdempotent | project/backend/services/mistralService.js:110 | lower-casing twice is lower-casing once |
| Text.LowerKeepsContains | project/backend/services/mistralService.js:110-112 | lower-casing keeps every occurrence of a lower-cased word |
| Text.NatToString | project/backend/routes/ask.js:119 | a number is written as at least one decimal digit |
| Text.LeadingDigits | project/backend/routes/logs.js:24 | the longest prefix of decimal digits |
| Text.ParseIntOfIntToString | project/backend/routes/logs.js:24 | parseInt reads a written integer back as itself |
| Text.IntOr | project/backend/routes/logs.js:24-25 | with a non-zero fallback the result is never 0; any result other than the fallback is what parseInt read from the parameter |
| Text.IntOrReads | project/backend/routes/logs.js:24-25 | a written number is read as itself, except 0, which gives the fallback |
| Text.LeadingHexDigits | project/backend/routes/logs.js:24 | the longest prefix of hexadecimal digits, in either case |
| Text.ParseIntOfHex | project/backend/routes/logs.js:24 | without a radix, parseInt reads `0x` or `0X` and hexadecimal digits as their value in base sixteen |
| Text.HexPrefixWithoutDigits | project/backend/routes/logs.js:24 | `0x` with no hexadecimal digit after it is NaN, not the 0 before the `x` |
| Text.ParseIntOfMinus | project/backend/routes/logs.js:24 | after a minus sign parseInt reads the magnitude, decimal or hexadecimal, and negates it |
| Text.IntOrReadsHex | project/backend/routes/logs.js:24-25 | a `0x` parameter is read in base sixteen and falls back only when its value is 0 |
| Tally.Filter | project/backend/services/logService.js:93 | exactly the elements satisfying the query, as many as satisfy it, drawn from the input |
| Tally.CountMonotone | project/backend/services/logService.js:144-146 | a weaker query matches at least as many records |
| Tally.Distinct | project/backend/services/logService.js:151 | each value once, and every value of the input |
| Tally.DistinctOccurrencesSum | project/backend/services/logService.js:149-152 | the occurrences of the distinct values add up to the input's length |
| Tally.SumAtGroups | project/backend/services/logService.js:199-202 | a map holding each key's occurrences sums, over the keys, to their occurrences |
| Tally.SortDesc | project/backend/services/logService.js:94 | a permutation of the input, in descending key order |
| Tally.SkipLimit | project/backend/services/logService.js:95-96 | after skipping, at most limit elements, a prefix of the rest; all of the rest when it fits or the limit is 0 |
| Tally.SkipLimitSorted | project/backend/services/logService.js:93-96 | a page of a sorted, filtered sequence is sorted, filtered and drawn from it |
| Tally.OffFirstPage | project/backend/services/logService.js:158-159 | an element left off the first page means the page is full and its last key is at least the element's |
| AskRoute.QuestionError | project/backend/routes/ask.js:13-23 | a question is accepted iff it is present and not blank; the refusal is one of the two fixed messages |
| AskRoute.DocumentsUsed | project/backend/routes/ask.js:53 | the number of documents used is the number of snippets, or 0 for an error answer |
| AskRoute.Ask | project/backend/routes/ask.js:8-66 | 400 iff the question is missing or blank; for a valid question the reply is 200 iff the agent's answer to it saves; a 200 reply carries that answer's text, label, confidence and documents used; a refusal leaves the ledger unchanged; any other refusal is 500 'Internal server error'; an answer appends exactly one record with the question, the user ('anonymous' by default), the answer, the label and platform 'API' |
| AskRoute.AskAnswersRagOrExternal | project/backend/routes/ask.js:26-57 | an answered question is labelled 'RAG' or 'External'; a 'Hybrid' or error answer makes the save fail, so the caller gets 500 and nothing is stored |
| AskRoute.AskQuestion | project/backend/routes/ask.js:8-66 | the ledger's new state and the reply are those of Ask, and the ledger stays consistent |
| AskRoute.StepEntry | project/backend/routes/ask.js:94-129 | each step reports its own question: the agent's answer, label and confidence when that answer saves, and the error entry otherwise; it adds one record, after the earlier ones, iff it reports an answer |
| AskRoute.Answers | project/backend/routes/ask.js:96 | one agent outcome per question, failing iff the question is missing |
| AskRoute.RunBatchSnoc | project/backend/routes/ask.js:93-130 | running one more question appends its step to the run |
| AskRoute.RunBatchEntries | project/backend/routes/ask.js:93-130 | one entry per question, in order, each for its own question: its answer, labelled 'RAG' or 'External', exactly when that answer saves, and otherwise the error entry with source 'Error' |
| AskRoute.RunBatchRecords | project/backend/routes/ask.js:93-130 | the ledger keeps its records and gains exactly one per processed entry |
| AskRoute.Batch | project/backend/routes/ask.js:69-145 | 400 iff questions is missing, not an array, empty or longer than ten, with the ledger unchanged; totalProcessed is the number of results |
| AskRoute.BatchAnswersEach | project/backend/routes/ask.js:93-136 | an accepted batch reports as many entries as questions, in order; entry i carries the agent's answer to question i exactly when that answer saves, and the error entry otherwise |
| AskRoute.EntriesForAnswers | project/backend/routes/ask.js:93-130 | entries that match the batch's answers match, one by one, the agent's answer to each question |
| AskRoute.BatchSavesProcessed | project/backend/routes/ask.js:93-130 | an accepted batch keeps every earlier record and adds one record per processed entry |
| AskRoute.AskOne | project/backend/routes/ask.js:94-129 | the new ledger state and the entry are those of the batch step for the agent's answer |
| AskRoute.AskBatch | project/backend/routes/ask.js:69-145 | the ledger's new state and the reply are those of Batch, and the ledger stays consistent |
| AskRoute.AskAll | project/backend/routes/ask.js:93-130 | the question loop leaves the ledger and the results exactly as the batch specification `RunBatch` gives them, and the ledger consistent |
| WebhookRoute.EventStepMeaning | project/backend/routes/webhook.js:24-67 | a well-formed non-text event is skipped; a malformed one (message or source missing) throws; a text message gets one reply with its token, which is the answer when that answer saves and the apology otherwise; it adds one 'LINE' record, after the others, exactly when it replies with the answer, and changes nothing otherwise |
| WebhookRoute.EventStepRecord | project/backend/routes/webhook.js:33-54 | when a text message's answer saves, the record added holds the sender's id, the message text and the very answer sent back |
| WebhookRoute.LineSave | project/backend/routes/webhook.js:33-46 | saving an answer from LINE adds at most one record, labelled RAG or External with platform LINE, after the others |
| WebhookRoute.Answers | project/backend/routes/webhook.js:30 | one agent outcome per event, failing iff the event carries no question |
| WebhookRoute.TextEvents | project/backend/routes/webhook.js:24 | there are no more text messages than events |
| WebhookRoute.RunEventsSnoc | project/backend/routes/webhook.js:23-68 | one more event extends a running loop by its step; a failed loop stays failed |
| WebhookRoute.RunEventsReplies | project/backend/routes/webhook.js:23-68 | with every event well formed the loop runs to the end and replies once per text message, in order, each reply carrying its token and the answer when that answer saves, the apology otherwise |
| WebhookRoute.RunEventsCrashes | project/backend/routes/webhook.js:24-25 | a malformed event makes the loop fail |
| WebhookRoute.RunEventsRecords | project/backend/routes/webhook.js:23-68 | the ledger keeps its records and gains only 'LINE' records, at most one per text message |
| WebhookRoute.RunEventsStaysFailed | project/backend/routes/webhook.js:76-82 | once an event throws, the later events are not handled |
| WebhookRoute.Webhook | project/backend/routes/webhook.js:8-83 | 400 'Invalid webhook payload format' iff events is missing or not an array; any other refusal is 500 'Internal server error'; a success reports every event as processed |
| WebhookRoute.WebhookReplies | project/backend/routes/webhook.js:21-74 | with every event well formed the reply succeeds with one response per text message, in order, each carrying its token and its answer when that answer saves, the apology when answering or saving fails |
| WebhookRoute.WebhookCrashes | project/backend/routes/webhook.js:24-25 | a message event without message, or a text message without source, gives 500, even after earlier events were saved |
| WebhookRoute.WebhookRecords | project/backend/routes/webhook.js:23-68 | whatever the reply, earlier records are kept and only 'LINE' records labelled 'RAG' or 'External' are added, at most one per text message |
| WebhookRoute.OnEvent | project/backend/routes/webhook.js:24-67 | the new ledger state and the step are those of EventStep for the agent's answer |
| WebhookRoute.HandleWebhook | project/backend/routes/webhook.js:8-83 | the ledger's new state and the reply are those of Webhook, and the ledger stays consistent |
| WebhookRoute.WebhookTest | project/backend/routes/webhook.js:86-149 | 400 'Message is required' iff the message is missing or empty; for a present message the reply is 200 iff the agent's answer to it saves, and then carries that answer's text, label and confidence; a refusal leaves the ledger unchanged; any other refusal is 500; a success appends one 'TEST' record with the message, the user ('test-user' by default) and the answer it reports |
| WebhookRoute.EmptyTestUserFails | project/backend/routes/webhook.js:88 | an explicit empty user id is not replaced by the default, so the save is refused and the caller gets 500 |
| WebhookRoute.TestWebhook | project/backend/routes/webhook.js:86-149 | the ledger's new state and the reply are those of WebhookTest, and the ledger stays consistent |
| UploadRoute.ImagesRejected | project/backend/routes/upload-doc.js:32-43 | the upload filter refuses every image type, so images never reach OCR through this route |
| UploadRoute.MaxFileSize | project/backend/routes/upload-doc.js:31 | the size limit is never 0, and is 50 MiB when no setting is given |
| UploadRoute.MaxFileSizeReads | project/backend/routes/upload-doc.js:31 | a setting is the size parseInt reads from it (hexadecimal after `0x`); one that is not a number or reads as 0 leaves 50 MiB |
| UploadRoute.TrailingRun | project/backend/routes/upload-doc.js:74 | the longest tail of the name without a dot or slash, preceded by a dot or slash when shorter than the name |
| UploadRoute.StripExtension | project/backend/routes/upload-doc.js:74 | the title is a prefix of the name |
| UploadRoute.TrailingRunAfter | project/backend/routes/upload-doc.js:74 | after a dot or slash, the trailing run is exactly the text that follows |
| UploadRoute.StripsExtension | project/backend/routes/upload-doc.js:74 | a name made of a title, a dot and an extension gives back the title |
| UploadRoute.StripExtensionMeaning | project/backend/routes/upload-doc.js:74 | the title is the name itself, or the name is the title, a dot and a non-empty extension without dot or slash |
| UploadRoute.Upload | project/backend/routes/upload-doc.js:11-95 | 400 iff no file; every other refusal is 500: error 'Invalid file type' for a type outside PDF and Word, then error 'URI malformed' with nothing saved when the original name does not URI-decode, even for an oversized file; a document is saved iff the reply succeeds, and then the reply carries its id, the URI-decoded original name, a title that prefixes it, the tier ('B' by default), status 'processing', a positive text length and no chunks, while the stored document keeps the name re-decoded as UTF-8 |
| UploadRoute.SkipOcrOnlyForTrue | project/backend/routes/upload-doc.js:61 | OCR is skipped only for the exact text 'true'; any other value uploads as if it were left out |
| UploadRoute.EmptyTierIsB | project/backend/routes/upload-doc.js:60 | an empty tier and the tier 'B' upload exactly as a missing tier |
| UploadRoute.UploadDocument | project/backend/routes/upload-doc.js:11-95 | the reply is that of Upload, with the same checks in the same order (type, name, size, then the save), and the store gains exactly the saved document, if any |
| UploadRoute.DisplayName | project/backend/routes/upload-doc.js:109 | the original name, or the stored file name when the original name is empty |
| UploadRoute.ListLimit | project/backend/routes/upload-doc.js:102 | no limit parameter means no limit |
| UploadRoute.ListLimitReads | project/backend/routes/upload-doc.js:102 | a given limit is the absolute value of what parseInt reads from it (hexadecimal after `0x`); one that is not a number means no limit |
| UploadRoute.ListedDocuments | project/backend/routes/upload-doc.js:99-103 | newest first, only stored documents of the tier asked for, none more often than stored, as many as match up to the limit; a matching document left out means the limit is reached and it is no newer than the last one listed |
| UploadRoute.ListDocuments | project/backend/routes/upload-doc.js:97-122 | one entry per listed document, in the same order |
| UploadRoute.ListingMeaning | project/backend/routes/upload-doc.js:100-116 | entries are newest first, each title prefixes its file name, each entry has the tier asked for; without a limit every document of the tier is listed |
| UploadRoute.FileSize | project/backend/routes/upload-doc.js:130 | a missing file size counts as 0 |
| UploadRoute.Tiers | project/backend/routes/upload-doc.js:128 | one tier per document, in order |
| UploadRoute.Statuses | project/backend/routes/upload-doc.js:132 | one status name per document, in order |
| UploadRoute.HistogramCounts | project/backend/routes/upload-doc.js:143-146 | the histogram has exactly the statuses that occur, each with its number of occurrences |
| UploadRoute.HistogramSum | project/backend/routes/upload-doc.js:143-146 | the histogram's counts add up to the number of statuses |
| UploadRoute.CountStatuses | project/backend/routes/upload-doc.js:143-146 | the reduce builds the histogram |
| UploadRoute.TierStatMeaning | project/backend/routes/upload-doc.js:127-146 | a row counts the documents of its tier, and its status histogram accounts for each of them once |
| UploadRoute.MissingSizesAddNothing | project/backend/routes/upload-doc.js:130 | documents without a size add nothing to the total size |
| UploadRoute.StatRows | project/backend/routes/upload-doc.js:138-147 | one row per tier asked for, in the order asked, each that tier's own statistics |
| UploadRoute.DocumentStats | project/backend/routes/upload-doc.js:124-153 | one row per distinct tier, in order of first occurrence |
| UploadRoute.StatsCoverEachTier | project/backend/routes/upload-doc.js:126-134 | the rows are for distinct tiers, each with at least one document, and every document's tier has a row |
| UploadRoute.DeleteDocument | project/backend/routes/upload-doc.js:155-172 | 404 'Document not found' iff the id is well formed but unknown; 500 iff it cannot be cast; a refusal changes nothing; a success removes exactly the document with that id |

## Left out

- Logging (`config/logger.js`), `console` output and the database connection (`config/database.js`). They have no effect on the answers.
- LogService.NegativeSkipError: the text of the database's refusal of a negative skip is the server's own and differs between server versions (MongoDB 5 and later name the BSON field and the value); the model fixes one text for it.
- `server.cjs`, the CORS and JSON middleware, and the React front end (`src/`). They are outside the backend core.
- The embedding service (`embedder.py`, `generateEmbedding`). The model takes embeddings and similarity search as outcomes given to it. `ragService.js` has no `searchKnowledgeBase`, so the retrieval result is an input.
- The HTTP calls to the weather API and to Mistral. The model takes their outcome, either a value or an error message, as an input.
- The PDF, Word and OCR libraries (pdf-parse, mammoth, tesseract, pdf2pic). The model takes the text each one extracts, or its failure, as an input.
- Multer's disk storage, the stored file's name and the removal of temporary files (`routes/upload-doc.js:11-27`, 85-92). These are file-system effects; the model keeps the checks they imply: the accepted type, the `decodeURIComponent` of the original name in the naming callback, and the size limit, in that order.
- `Date.now`, the request clock and the database timestamps. These are inputs. Parsing of date strings is the parameter `toDate`, since JavaScript's date-string grammar is not modelled.
- The regular-expression search on questions and answers (`services/logService.js:83-88`). The model takes it as a predicate parameter, so its escaping and case rules are not modelled. The user id is matched exactly (`services/logService.js:74`), and the model does that itself.
- `JSON.stringify` of request bodies and Express's default HTML error page. Only the status and the fields that the routes set are modelled.
- `decodeURIComponent` failures on route parameters. Express reports these before the handlers run.
- String lengths are counted in characters (`seq<char>`), not in UTF-16 code units. This matters only for text outside the Basic Multilingual Plane.
- Confidence, similarity and weather readings are modelled as `real`. Floating-point rounding is not modelled.
- The order of MongoDB `$group` output is taken to be the order of first occurrence. MongoDB leaves it unspecified.
- A batch element that is not a string is modelled as a missing question (`None`). A `null` event in a LINE webhook array is not modelled.
- Metadata keys that the strict conversation schema does not declare are not stored. These are `batchIndex` (`routes/ask.js:110`), `replyToken` and `testMode`. Each snippet's `tier` inside `ragDocuments` (`services/agentService.js:89`) is dropped the same way.
- Concurrency. Requests run one at a time. The background embedding job that `processUploadedFile` starts (`services/documentService.js:141-144`) is a separate operation, `DocumentService.DocumentStore.ProcessDocumentEmbeddings`, which the environment calls; `UploadDocument` leaves the new document in status 'processing'.
- A negative `MAX_FILE_SIZE` is taken literally, as in the source: every upload is then too large.
- WindowStart: counts whole 24-hour days back from `now`. The source moves the local calendar date back with `setDate` (`services/logService.js:118-133`), which differs by the daylight-saving shift when the window crosses a change; in a zone without daylight saving, such as Asia/Bangkok, the two agree.
- Lower: lower-cases ASCII letters only, where `toLowerCase` also maps other cased scripts. The weather keywords it serves (`services/mistralService.js:109`) are Thai, which has no case, so the keyword test is unaffected for them.
- UploadRoute.Upload: `decodeURIComponent` and the `Buffer` re-decoding of the original name are inputs (`uriDecode`, `recodeName`), not computed; the model keeps that the reply carries the first and the stored document the second, and that a name the first cannot decode stops the upload in the naming callback with 500 and error 'URI malformed'.
- ConversationLogModel.ConfidenceErrors: the `min` and `max` messages leave out the value Mongoose prints in parentheses after the path, because JavaScript's number formatting is not modelled.
- ConversationLogModel.PathErrors: entries follow the schema's order. Mongoose lists a required path left undefined before the paths that were set, so when an undefined path and an empty string both fail the order can differ; the model writes an undefined path as the empty string.

=== FILE: agent_service.dfy ===
/** The answering pipeline (`processQuestion`): retrieve snippets, decide
    whether weather data is needed, generate the answer, score it, and fall
    back to a fixed apology when anything throws. Retrieval, the weather call
    and the chat model are outcomes given as inputs; `World` supplies them
    call by call. */
module AgentService {
  import opened Wrappers
  import opened Text
  import opened DocumentModel
  import opened MistralService
  import opened WeatherService

  /** The source label of an answer. */
  datatype Label = RagLabel | ExternalLabel | HybridLabel | ErrorLabel

  function LabelName(l: Label): string {
    match l
    case RagLabel => "RAG"
    case ExternalLabel => "External"
    case HybridLabel => "Hybrid"
    case ErrorLabel => "Error"
  }

  /** What the knowledge-base search returned, or that it threw. */
  datatype Retrieval =
    | Retrieved(found: bool, snippets: seq<Snippet>, confidence: real)
    | RetrievalThrew(message: string)

  /** An entry of `sourceDetails.ragDocuments`. */
  datatype DocRef = DocRef(documentId: nat, chunkIndex: int, similarity: real, tier: Tier)

  datatype Details =
    | Details(ragDocuments: seq<DocRef>, externalApi: Option<string>, tier: Option<Tier>)
    | ErrorDetails(error: string)

  datatype Answer = Answer(answer: string, source: Label, confidence: real, sourceDetails: Details, usage: Option<Usage>)

  const Apology: string := "ขออภัย เกิดข้อผิดพลาดในการประมวลผลคำถาม กรุณาลองใหม่อีกครั้งหรือติดต่อผู้ดูแลระบบ"
  const ExternalApiName: string := "OpenWeatherMap"
  /** What reading `.length` of a missing question throws. */
  const MissingQuestionError: string := "Cannot read properties of undefined (reading 'length')"

  /** The outcomes of the external calls. The `n`-th question processed sees
      `retrieval(n)`, `weather(n)` and `chat(n)`; `stringify` stands for
      `JSON.stringify(data, null, 2)`. */
  datatype World = World(
    retrieval: nat -> Retrieval,
    weather: nat -> Result<WeatherData, string>,
    chat: nat -> ChatRequest -> ChatReply,
    stringify: WeatherData -> string)

  /** The answer of the fallback branch. */
  function Fallback(message: string): Answer {
    Answer(Apology, ErrorLabel, 0.0, ErrorDetails(message), None)
  }

  function DocRefOf(s: Snippet): DocRef {
    DocRef(s.documentId, s.chunkIndex, s.similarity, s.tier)
  }

  function DocRefs(snippets: seq<Snippet>): (r: seq<DocRef>)
    ensures |r| == |snippets|
    ensures forall i :: 0 <= i < |snippets| ==> r[i] == DocRefOf(snippets[i])
  {
    seq(|snippets|, i requires 0 <= i < |snippets| => DocRefOf(snippets[i]))
  }

  /** Weather is fetched when nothing was found or the question asks for it. */
  predicate WantsWeather(question: string, found: bool) {
    !found || NeedsExternalData(question)
  }

  /** The weather data the answer uses: fetched if wanted, and dropped if the
      call failed. */
  function ExternalData(question: string, found: bool, weather: Result<WeatherData, string>): (e: Option<WeatherData>)
    ensures e.Some? <==> WantsWeather(question, found) && weather.Success?
  {
    if WantsWeather(question, found) && weather.Success? then Some(weather.value) else None
  }

  function SourceLabel(found: bool, external: Option<WeatherData>): Label {
    if external.None? then RagLabel else if found then HybridLabel else ExternalLabel
  }

  /** `processQuestion(question, userId)` as the `n`-th call. A missing
      question makes the logging in the fallback branch throw too, so the
      call itself fails; every other failure becomes the fallback answer. */
  function ProcessQuestion(question: Option<string>, world: World, n: nat): (r: Result<Answer, string>)
    ensures r.Failure? <==> question.None?
    ensures r.Success? && r.value.source == ErrorLabel ==>
      r.value.answer == Apology && r.value.confidence == 0.0 && r.value.sourceDetails.ErrorDetails?
    ensures r.Success? && r.value.source != ErrorLabel ==> r.value.sourceDetails.Details?
  {
    if question.None? then Failure(MissingQuestionError)
    else
      var q := question.value;
      match world.retrieval(n)
      case RetrievalThrew(message) => Success(Fallback(message))
      case Retrieved(found, snippets, _) =>
        var context := PrepareContext(snippets);
        var external := ExternalData(q, found, world.weather(n));
        var json := if external.Some? then Some(world.stringify(external.value)) else None;
        var generated := GenerateResponse(q, context, json, world.chat(n));
        if generated.Failure? then Success(Fallback(generated.error))
        else
          Success(Answer(
            generated.value.response,
            SourceLabel(found, external),
            ConfidenceScore(snippets, external.Some?),
            Details(
              DocRefs(snippets),
              if external.Some? then Some(ExternalApiName) else None,
              if |snippets| > 0 then Some(snippets[0].tier) else None),
            generated.value.usage))
  }

  // ---------------------------------------------------------------------------
  // properties

  /** A retrieval that throws gives the fallback answer with its message. */
  lemma RetrievalFailureFallsBack(q: string, world: World, n: nat)
    requires world.retrieval(n).RetrievalThrew?
    ensures ProcessQuestion(Some(q), world, n) == Success(Fallback(world.retrieval(n).message))
  {
  }

  /** A generation failure gives the fallback answer with the generation
      error. */
  lemma GenerationFailureFallsBack(q: string, world: World, n: nat)
    requires world.retrieval(n).Retrieved?
    requires var rv := world.retrieval(n);
      var external := ExternalData(q, rv.found, world.weather(n));
      var json := if external.Some? then Some(world.stringify(external.value)) else None;
      GenerateResponse(q, PrepareContext(rv.snippets), json, world.chat(n)).Failure?
    ensures ProcessQuestion(Some(q), world, n) == Success(Fallback(GenerationError))
  {
  }

  /** Weather is consulted only when wanted: if it is not, any two weather
      outcomes give the same answer. */
  lemma WeatherOnlyWhenWanted(q: string, world: World, n: nat, other: Result<WeatherData, string>)
    requires world.retrieval(n).Retrieved? && !WantsWeather(q, world.retrieval(n).found)
    ensures ProcessQuestion(Some(q), world, n)
         == ProcessQuestion(Some(q), world.(weather := (m: nat) => if m == n then other else world.weather(m)), n)
  {
  }

  /** The source label of a generated answer: Hybrid when something was found
      and weather was used, External when nothing was found and weather was
      used, and RAG otherwise, including when nothing was found and the
      weather call failed. */
  lemma SourceLabels(q: string, world: World, n: nat)
    requires world.retrieval(n).Retrieved?
    requires ProcessQuestion(Some(q), world, n).value.source != ErrorLabel
    ensures var rv := world.retrieval(n);
      var a := ProcessQuestion(Some(q), world, n).value;
      var used := WantsWeather(q, rv.found) && world.weather(n).Success?;
      && (a.source == HybridLabel <==> rv.found && used)
      && (a.source == ExternalLabel <==> !rv.found && used)
      && (a.source == RagLabel <==> !used)
      && (!rv.found && world.weather(n).Failure? ==> a.source == RagLabel)
  {
  }

  /** A generated answer's confidence is recomputed from the snippets and the
      weather data; the retrieval's own confidence is not used. */
  lemma ConfidenceIsRecomputed(q: string, world: World, n: nat)
    requires world.retrieval(n).Retrieved?
    requires ProcessQuestion(Some(q), world, n).value.source != ErrorLabel
    ensures var rv := world.retrieval(n);
      ProcessQuestion(Some(q), world, n).value.confidence
        == ConfidenceScore(rv.snippets, WantsWeather(q, rv.found) && world.weather(n).Success?)
  {
  }

  /** The source details of a generated answer mirror the snippets one to
      one, name the weather API exactly when weather data was used, and carry
      the first snippet's tier, if any. */
  lemma DetailsMirrorSnippets(q: string, world: World, n: nat)
    requires world.retrieval(n).Retrieved?
    requires ProcessQuestion(Some(q), world, n).value.source != ErrorLabel
    ensures var rv := world.retrieval(n);
      var d := ProcessQuestion(Some(q), world, n).value.sourceDetails;
      && |d.ragDocuments| == |rv.snippets|
      && (forall i :: 0 <= i < |rv.snippets| ==>
            d.ragDocuments[i].documentId == rv.snippets[i].documentId
            && d.ragDocuments[i].chunkIndex == rv.snippets[i].chunkIndex
            && d.ragDocuments[i].similarity == rv.snippets[i].similarity
            && d.ragDocuments[i].tier == rv.snippets[i].tier)
      && (d.externalApi == Some("OpenWeatherMap") <==> WantsWeather(q, rv.found) && world.weather(n).Success?)
      && (d.externalApi.Some? ==> d.externalApi == Some("OpenWeatherMap"))
      && (d.tier.Some? <==> rv.snippets != [])
      && (d.tier.Some? ==> d.tier.value == rv.snippets[0].tier)
  {
  }

  // ---------------------------------------------------------------------------
  // batch

  const BatchApology: string := "เกิดข้อผิดพลาดในการประมวลผลคำถามนี้"

  /** An entry of `processBatchQuestions`: the question, then either the
      answer's fields or the error answer (source 'Error', confidence 0), and
      the position. */
  datatype BatchEntry =
    | Answered(question: Option<string>, result: Answer, batchIndex: nat)
    | Errored(question: Option<string>, answer: string, batchIndex: nat)
  {
    function Source(): Label {
      if Answered? then result.source else ErrorLabel
    }
  }

  /** The entry for the `i`-th question. */
  function BatchEntryFor(question: Option<string>, world: World, i: nat): (e: BatchEntry)
    ensures e.question == question && e.batchIndex == i
    ensures e.Errored? <==> question.None?
    ensures e.Errored? ==> e.answer == BatchApology && e.Source() == ErrorLabel
  {
    var r := ProcessQuestion(question, world, i);
    if r.Success? then Answered(question, r.value, i) else Errored(question, BatchApology, i)
  }

  /** `processBatchQuestions(questions, userId)`: one entry per question, in
      order. */
  method ProcessBatchQuestions(questions: seq<Option<string>>, world: World) returns (results: seq<BatchEntry>)
    ensures |results| == |questions|
    ensures forall i :: 0 <= i < |questions| ==> results[i] == BatchEntryFor(questions[i], world, i)
    ensures forall i :: 0 <= i < |questions| ==> results[i].question == questions[i] && results[i].batchIndex == i
  {
    results := [];
    for i := 0 to |questions|
      invariant |results| == i
      invariant forall j :: 0 <= j < i ==> results[j] == BatchEntryFor(questions[j], world, j)
    {
      var r := ProcessQuestion(questions[i], world, i);
      if r.Success? {
        results := results + [Answered(questions[i], r.value, i)];
      } else {
        results := results + [Errored(questions[i], BatchApology, i)];
      }
    }
  }
}

=== FILE: ask_route.dfy ===
/** The question routes: one question (`POST /`) and a batch of up to ten
    (`POST /batch`). Every answer is saved to the ledger before it is sent;
    a save that fails turns the answer into an error. */
module AskRoute {
  import opened Wrappers
  import opened Text
  import opened DocumentModel
  import opened ConversationLogModel
  import opened AgentService
  import opened LogService
  import opened Http

  const DefaultUser: string := "anonymous"
  const QuestionRequired: string := "Question is required and must be a string"
  const QuestionEmpty: string := "Question cannot be empty"
  const InternalError: string := "Internal server error"

  // ---------------------------------------------------------------------------
  // POST /

  /** The body of `POST /` and the `User-Agent` header; `None` is a key left
      out, or for the question a value that is not a string. */
  datatype AskRequest = AskRequest(question: Option<string>, userId: Option<string>, sessionId: Option<string>, userAgent: Option<string>)

  /** The checks before any work: the question must be a non-empty string
      and must not be all white space. */
  function QuestionError(question: Option<string>): (e: Option<string>)
    ensures e.None? <==> question.Some? && !IsBlank(question.value)
    ensures e.Some? ==> e.value == QuestionRequired || e.value == QuestionEmpty
  {
    if question.None? || question.value == "" then Some(QuestionRequired)
    else
      TrimEmptyIffBlank(question.value);
      if Trim(question.value) == "" then Some(QuestionEmpty) else None
  }

  /** The answer sent back: the question and the answer's fields, the time
      with 'ms' appended, and how many documents the answer drew on. */
  datatype AskBody = AskBody(
    question: string,
    answer: string,
    source: string,
    confidence: real,
    responseTime: string,
    documentsUsed: nat,
    tier: Option<Tier>,
    externalApi: Option<string>)

  /** `result.sourceDetails.ragDocuments?.length || 0`. */
  function DocumentsUsed(d: Details): (n: nat)
    ensures d.Details? ==> n == |d.ragDocuments|
    ensures d.ErrorDetails? ==> n == 0
  {
    if d.Details? then |d.ragDocuments| else 0
  }

  function AskMetadata(req: AskRequest): MetadataInput {
    MetadataInput(Some("API"), req.sessionId, req.userAgent)
  }

  function AskBodyOf(question: string, a: Answer, elapsed: int): AskBody {
    AskBody(question, a.answer, LabelName(a.source), a.confidence, IntToString(elapsed) + "ms",
            DocumentsUsed(a.sourceDetails),
            if a.sourceDetails.Details? then a.sourceDetails.tier else None,
            if a.sourceDetails.Details? then a.sourceDetails.externalApi else None)
  }

  /** `POST /` as the `n`-th question the agent answers, at time `now`,
      taking `elapsed` milliseconds; `statsWritten` says whether the user
      statistics reached the database. */
  function Ask(s: LedgerState, req: AskRequest, world: World, n: nat, now: int, elapsed: int, statsWritten: bool)
    : (h: Handled<LedgerState, AskBody>)
    ensures h.reply.Refused? && h.reply.status == 400 <==> QuestionError(req.question).Some?
    ensures h.reply.Refused? ==> h.state == s
    ensures h.reply.Refused? && h.reply.status != 400 ==> h.reply.status == 500 && h.reply.error == InternalError
    ensures h.reply.Ok? ==>
      && req.question.Some?
      && |h.state.records| == |s.records| + 1
      && h.state.records[..|s.records|] == s.records
      && var rec := h.state.records[|s.records|];
      && rec.question == req.question.value == h.reply.body.question
      && rec.userId == req.userId.GetOr(DefaultUser)
      && rec.answer == h.reply.body.answer
      && rec.source == h.reply.body.source
      && rec.metadata.platform == "API"
    ensures QuestionError(req.question).None? ==>
      (h.reply.Ok? <==> Loggable(req.userId.GetOr(DefaultUser), req.question.value, ProcessQuestion(req.question, world, n).value))
    ensures h.reply.Ok? ==>
      && req.question.Some?
      && h.reply.body.answer == ProcessQuestion(req.question, world, n).value.answer
      && h.reply.body.source == LabelName(ProcessQuestion(req.question, world, n).value.source)
      && h.reply.body.confidence == ProcessQuestion(req.question, world, n).value.confidence
      && h.reply.body.documentsUsed == DocumentsUsed(ProcessQuestion(req.question, world, n).value.sourceDetails)
  {
    match QuestionError(req.question)
    case Some(e) => Handled(s, Refused(400, e, None))
    case None =>
      var q := req.question.value;
      var a := ProcessQuestion(Some(q), world, n).value;
      SaveAnswerIff(s, req.userId.GetOr(DefaultUser), q, a, elapsed, AskMetadata(req), now, statsWritten);
      var saved := Save(s, AnswerRecord(req.userId.GetOr(DefaultUser), q, a, elapsed, AskMetadata(req)), now, statsWritten);
      match saved.result
      case Failure(e) => Handled(s, Refused(500, InternalError, Some(e)))
      case Success(_) => Handled(saved.state, Ok(AskBodyOf(q, a, elapsed)))
  }

  /** An answered question is always labelled 'RAG' or 'External': a
      'Hybrid' answer or the error answer cannot be saved, and the caller
      gets 500 instead while the ledger stays as it was. */
  lemma AskAnswersRagOrExternal(s: LedgerState, req: AskRequest, world: World, n: nat, now: int, elapsed: int, statsWritten: bool)
    ensures var h := Ask(s, req, world, n, now, elapsed, statsWritten);
      h.reply.Ok? ==> h.reply.body.source == "RAG" || h.reply.body.source == "External"
    ensures var h := Ask(s, req, world, n, now, elapsed, statsWritten);
      && QuestionError(req.question).None?
      && ProcessQuestion(req.question, world, n).value.source in {HybridLabel, ErrorLabel}
      ==> h.reply.Refused? && h.reply.status == 500 && h.state == s
  {
    if QuestionError(req.question).None? {
      var q := req.question.value;
      var a := ProcessQuestion(Some(q), world, n).value;
      SavedAnswerLabel(s, req.userId.GetOr(DefaultUser), q, a, elapsed, AskMetadata(req), now, statsWritten);
    }
  }

  /** `POST /` on the stored ledger. */
  method AskQuestion(ledger: Ledger, req: AskRequest, world: World, n: nat, now: int, elapsed: int, statsWritten: bool)
    returns (r: Reply<AskBody>)
    requires ledger.Valid()
    modifies ledger
    ensures ledger.Valid()
    ensures Handled(ledger.State(), r) == Ask(old(ledger.State()), req, world, n, now, elapsed, statsWritten)
  {
    var invalid := QuestionError(req.question);
    if invalid.Some? {
      return Refused(400, invalid.value, None);
    }
    var q := req.question.value;
    var a := ProcessQuestion(Some(q), world, n).value;
    var saved := ledger.SaveConversation(AnswerRecord(req.userId.GetOr(DefaultUser), q, a, elapsed, AskMetadata(req)), now, statsWritten);
    if saved.Failure? {
      return Refused(500, InternalError, Some(saved.error));
    }
    r := Ok(AskBodyOf(q, a, elapsed));
  }

  // ---------------------------------------------------------------------------
  // POST /batch

  const NotAnArray: string := "Questions must be an array"
  const NoQuestions: string := "At least one question is required"
  const TooManyQuestions: string := "Maximum 10 questions per batch"
  const MaxBatch: nat := 10
  const QuestionFailed: string := "Failed to process question"

  /** One entry of the batch answer: the answer's fields, or the error
      entry with source 'Error'. */
  datatype BatchResult =
    | Processed(question: string, answer: string, source: string, confidence: real, responseTime: string)
    | Unprocessed(asked: Option<string>, error: string, source: string)

  datatype BatchBody = BatchBody(results: seq<BatchResult>, totalProcessed: nat)

  /** What the batch sees for its `i`-th question: the agent answers it as
      call `first + i`, saves it at `clock(i)` after `elapsed(i)`
      milliseconds, and `statsWritten(i)` says whether the user statistics
      reached the database. */
  datatype BatchEnv = BatchEnv(world: World, first: nat, clock: nat -> int, elapsed: nat -> int, statsWritten: nat -> bool)

  /** Only `platform` is kept: `batchIndex` is not a field of the schema. */
  const BatchMetadata: MetadataInput := MetadataInput(Some("API_BATCH"), None, None)

  /** The `i`-th question of the batch from state `s`, where `answered` is
      what `processQuestion` gave for it (a question that is not a string
      never gets an answer). */
  function BatchStep(s: LedgerState, question: Option<string>, answered: Result<Answer, string>, userId: string, env: BatchEnv, i: nat)
    : (LedgerState, BatchResult)
  {
    if question.None? || answered.Failure? then (s, Unprocessed(question, QuestionFailed, "Error"))
    else
      var a := answered.value;
      var saved := Save(s, AnswerRecord(userId, question.value, a, env.elapsed(i), BatchMetadata), env.clock(i), env.statsWritten(i));
      if saved.result.Failure? then (s, Unprocessed(question, QuestionFailed, "Error"))
      else (saved.state, Processed(question.value, a.answer, LabelName(a.source), a.confidence, IntToString(env.elapsed(i)) + "ms"))
  }

  /** A step reports its own question, and it adds a record exactly when
      it reports an answer, which is then labelled 'RAG' or 'External'. */
  lemma StepEntry(s: LedgerState, question: Option<string>, answered: Result<Answer, string>, userId: string, env: BatchEnv, i: nat)
    ensures var step := BatchStep(s, question, answered, userId, env, i);
      && EntryFor(step.1, question, answered, userId)
      && (step.1.Unprocessed? ==> step.0 == s)
      && (step.1.Processed? ==> |step.0.records| == |s.records| + 1 && step.0.records[..|s.records|] == s.records)
  {
    if question.Some? && answered.Success? {
      SavedAnswerLabel(s, userId, question.value, answered.value, env.elapsed(i), BatchMetadata, env.clock(i), env.statsWritten(i));
      SaveAnswerIff(s, userId, question.value, answered.value, env.elapsed(i), BatchMetadata, env.clock(i), env.statsWritten(i));
    }
  }

  /** What the agent answers to each question of the batch, in order. */
  function Answers(questions: seq<Option<string>>, env: BatchEnv): (answers: seq<Result<Answer, string>>)
    ensures |answers| == |questions|
    ensures forall k :: 0 <= k < |questions| ==> (answers[k].Failure? <==> questions[k].None?)
  {
    seq(|questions|, k requires 0 <= k < |questions| => ProcessQuestion(questions[k], env.world, env.first + k))
  }

  /** The `k`-th answer is the agent's call `first + k` on the `k`-th question. */
  lemma AnswerAt(questions: seq<Option<string>>, env: BatchEnv, k: nat)
    requires k < |questions|
    ensures Answers(questions, env)[k] == ProcessQuestion(questions[k], env.world, env.first + k)
  {
  }

  /** The questions one after the other, with their answers: the state
      after them and one entry per question. */
  function RunBatch(s: LedgerState, questions: seq<Option<string>>, answers: seq<Result<Answer, string>>, userId: string, env: BatchEnv)
    : (run: (LedgerState, seq<BatchResult>))
    requires |answers| == |questions|
    decreases |questions|
  {
    if questions == [] then (s, [])
    else
      var k := |questions| - 1;
      var before := RunBatch(s, questions[..k], answers[..k], userId, env);
      var step := BatchStep(before.0, questions[k], answers[k], userId, env, k);
      (step.0, before.1 + [step.1])
  }

  /** The number of entries that were answered and saved. */
  function ProcessedCount(results: seq<BatchResult>): nat {
    if results == [] then 0
    else ProcessedCount(results[..|results| - 1]) + (if results[|results| - 1].Processed? then 1 else 0)
  }

  /** The run over one more question is the run so far and the step for it. */
  lemma RunBatchSnoc(s: LedgerState, questions: seq<Option<string>>, answers: seq<Result<Answer, string>>, i: nat, userId: string, env: BatchEnv)
    requires |answers| == |questions|
    requires i < |questions|
    ensures var before := RunBatch(s, questions[..i], answers[..i], userId, env);
      var step := BatchStep(before.0, questions[i], answers[i], userId, env, i);
      RunBatch(s, questions[..i + 1], answers[..i + 1], userId, env) == (step.0, before.1 + [step.1])
  {
    assert questions[..i + 1][..i] == questions[..i];
    assert answers[..i + 1][..i] == answers[..i];
  }

  /** One entry per question, in order, each for its own question and its
      own answer. */
  predicate EntriesFor(results: seq<BatchResult>, questions: seq<Option<string>>, answers: seq<Result<Answer, string>>, userId: string) {
    && |results| == |questions| && |answers| == |questions|
    && forall i :: 0 <= i < |questions| ==> EntryFor(results[i], questions[i], answers[i], userId)
  }

  lemma {:induction false} RunBatchEntries(s: LedgerState, questions: seq<Option<string>>, answers: seq<Result<Answer, string>>, userId: string, env: BatchEnv)
    requires |answers| == |questions|
    ensures EntriesFor(RunBatch(s, questions, answers, userId, env).1, questions, answers, userId)
    decreases |questions|
  {
    if questions != [] {
      var k := |questions| - 1;
      RunBatchEntries(s, questions[..k], answers[..k], userId, env);
      var before := RunBatch(s, questions[..k], answers[..k], userId, env);
      var step := BatchStep(before.0, questions[k], answers[k], userId, env, k);
      StepEntry(before.0, questions[k], answers[k], userId, env, k);
      assert RunBatch(s, questions, answers, userId, env).1 == before.1 + [step.1];
      assert questions == questions[..k] + [questions[k]];
      assert answers == answers[..k] + [answers[k]];
      EntriesSnoc(before.1, questions[..k], answers[..k], userId, step.1, questions[k], answers[k]);
    }
  }

  lemma EntriesSnoc(results: seq<BatchResult>, questions: seq<Option<string>>, answers: seq<Result<Answer, string>>, userId: string,
                    r: BatchResult, q: Option<string>, a: Result<Answer, string>)
    requires EntriesFor(results, questions, answers, userId) && EntryFor(r, q, a, userId)
    ensures EntriesFor(results + [r], questions + [q], answers + [a], userId)
  {
    var rs := results + [r];
    var qs := questions + [q];
    var ans := answers + [a];
    forall i | 0 <= i < |qs| ensures EntryFor(rs[i], qs[i], ans[i], userId) {
      if i < |questions| {
        assert rs[i] == results[i] && qs[i] == questions[i] && ans[i] == answers[i];
      }
    }
  }

  /** The ledger gains exactly one record per answered question, after the
      records it had. */
  lemma {:induction false} RunBatchRecords(s: LedgerState, questions: seq<Option<string>>, answers: seq<Result<Answer, string>>, userId: string, env: BatchEnv)
    requires |answers| == |questions|
    ensures var run := RunBatch(s, questions, answers, userId, env);
      && |run.0.records| == |s.records| + ProcessedCount(run.1)
      && run.0.records[..|s.records|] == s.records
    decreases |questions|
  {
    if questions != [] {
      var k := |questions| - 1;
      RunBatchRecords(s, questions[..k], answers[..k], userId, env);
      var before := RunBatch(s, questions[..k], answers[..k], userId, env);
      var step := BatchStep(before.0, questions[k], answers[k], userId, env, k);
      var run := RunBatch(s, questions, answers, userId, env);
      assert run.1 == before.1 + [step.1];
      assert run.1[..|run.1| - 1] == before.1;
      StepEntry(before.0, questions[k], answers[k], userId, env, k);
      if step.1.Processed? {
        assert run.0.records[..|s.records|] == before.0.records[..|s.records|];
      }
    }
  }

  /** An entry answers its question: it reports the agent's answer, with
      its label and confidence, exactly when the agent answered and the
      answer could be logged, and that label is then 'RAG' or 'External';
      otherwise it is the error entry with source 'Error'. */
  predicate EntryFor(r: BatchResult, question: Option<string>, answered: Result<Answer, string>, userId: string) {
    match r
    case Processed(q, answer, source, confidence, _) =>
      && question == Some(q) && answered.Success?
      && answer == answered.value.answer && source == LabelName(answered.value.source)
      && confidence == answered.value.confidence
      && (source == "RAG" || source == "External")
      && Loggable(userId, q, answered.value)
    case Unprocessed(q, error, source) =>
      && q == question && error == QuestionFailed && source == "Error"
      && !(question.Some? && answered.Success? && Loggable(userId, question.value, answered.value))
  }

  /** `POST /batch`: `None` is a `questions` that is missing or not an
      array. */
  function Batch(s: LedgerState, questions: Option<seq<Option<string>>>, userId: Option<string>, env: BatchEnv)
    : (h: Handled<LedgerState, BatchBody>)
    ensures h.reply.Refused? <==> questions.None? || |questions.value| == 0 || |questions.value| > MaxBatch
    ensures h.reply.Refused? ==> h.state == s && h.reply.status == 400
    ensures h.reply.Ok? ==> h.reply.body.totalProcessed == |h.reply.body.results|
  {
    if questions.None? then Handled(s, Refused(400, NotAnArray, None))
    else if |questions.value| == 0 then Handled(s, Refused(400, NoQuestions, None))
    else if |questions.value| > MaxBatch then Handled(s, Refused(400, TooManyQuestions, None))
    else
      var run := RunBatch(s, questions.value, Answers(questions.value, env), userId.GetOr(DefaultUser), env);
      Handled(run.0, Ok(BatchBody(run.1, |run.1|)))
  }

  /** An accepted batch reports exactly as many entries as questions, each
      for its own question in order, with the agent's answer to it when
      that answer was logged and the error entry otherwise. */
  lemma BatchAnswersEach(s: LedgerState, questions: seq<Option<string>>, userId: Option<string>, env: BatchEnv)
    requires 1 <= |questions| <= MaxBatch
    ensures var h := Batch(s, Some(questions), userId, env);
      && h.reply.Ok?
      && h.reply.body.totalProcessed == |questions|
      && forall i :: 0 <= i < |questions| ==>
           EntryFor(h.reply.body.results[i], questions[i], ProcessQuestion(questions[i], env.world, env.first + i), userId.GetOr(DefaultUser))
  {
    RunBatchEntries(s, questions, Answers(questions, env), userId.GetOr(DefaultUser), env);
    EntriesForAnswers(RunBatch(s, questions, Answers(questions, env), userId.GetOr(DefaultUser), env).1, questions, env, userId.GetOr(DefaultUser));
  }

  lemma EntriesForAnswers(results: seq<BatchResult>, questions: seq<Option<string>>, env: BatchEnv, userId: string)
    requires EntriesFor(results, questions, Answers(questions, env), userId)
    ensures |results| == |questions|
    ensures forall i :: 0 <= i < |questions| ==>
      EntryFor(results[i], questions[i], ProcessQuestion(questions[i], env.world, env.first + i), userId)
  {
    forall i | 0 <= i < |questions|
      ensures EntryFor(results[i], questions[i], ProcessQuestion(questions[i], env.world, env.first + i), userId)
    {
      AnswerAt(questions, env, i);
    }
  }

  /** An accepted batch keeps every earlier record and adds one record per
      entry it reports as processed. */
  lemma BatchSavesProcessed(s: LedgerState, questions: seq<Option<string>>, userId: Option<string>, env: BatchEnv)
    requires 1 <= |questions| <= MaxBatch
    ensures var h := Batch(s, Some(questions), userId, env);
      && h.reply.Ok?
      && |h.state.records| == |s.records| + ProcessedCount(h.reply.body.results)
      && h.state.records[..|s.records|] == s.records
  {
    RunBatchRecords(s, questions, Answers(questions, env), userId.GetOr(DefaultUser), env);
  }

  /** The `i`-th question of the batch on the stored ledger: answer it,
      save it, and report it, or report the error entry. */
  method AskOne(ledger: Ledger, question: Option<string>, userId: string, env: BatchEnv, i: nat) returns (result: BatchResult)
    requires ledger.Valid()
    modifies ledger
    ensures ledger.Valid()
    ensures (ledger.State(), result) == BatchStep(old(ledger.State()), question, ProcessQuestion(question, env.world, env.first + i), userId, env, i)
  {
    var answered := ProcessQuestion(question, env.world, env.first + i);
    if answered.Failure? {
      return Unprocessed(question, QuestionFailed, "Error");
    }
    var a := answered.value;
    var saved := ledger.SaveConversation(AnswerRecord(userId, question.value, a, env.elapsed(i), BatchMetadata), env.clock(i), env.statsWritten(i));
    if saved.Failure? {
      return Unprocessed(question, QuestionFailed, "Error");
    }
    result := Processed(question.value, a.answer, LabelName(a.source), a.confidence, IntToString(env.elapsed(i)) + "ms");
  }

  /** `POST /batch` on the stored ledger. */
  method AskBatch(ledger: Ledger, questions: Option<seq<Option<string>>>, userId: Option<string>, env: BatchEnv)
    returns (r: Reply<BatchBody>)
    requires ledger.Valid()
    modifies ledger
    ensures ledger.Valid()
    ensures Handled(ledger.State(), r) == Batch(old(ledger.State()), questions, userId, env)
  {
    if questions.None? {
      return Refused(400, NotAnArray, None);
    } else if |questions.value| == 0 {
      return Refused(400, NoQuestions, None);
    } else if |questions.value| > MaxBatch {
      return Refused(400, TooManyQuestions, None);
    }
    var results := AskAll(ledger, questions.value, userId.GetOr(DefaultUser), env);
    r := Ok(BatchBody(results, |results|));
  }

  /** The loop of `POST /batch`: every question in order on the stored
      ledger. */
  method AskAll(ledger: Ledger, qs: seq<Option<string>>, user: string, env: BatchEnv) returns (results: seq<BatchResult>)
    requires ledger.Valid()
    modifies ledger
    ensures ledger.Valid()
    ensures (ledger.State(), results) == RunBatch(old(ledger.State()), qs, Answers(qs, env), user, env)
  {
    ghost var s0 := ledger.State();
    ghost var answers := Answers(qs, env);
    results := [];
    for i := 0 to |qs|
      invariant ledger.Valid()
      invariant (ledger.State(), results) == RunBatch(s0, qs[..i], answers[..i], user, env)
    {
      RunBatchSnoc(s0, qs, answers, i, user, env);
      AnswerAt(qs, env, i);
      var result := AskOne(ledger, qs[i], user, env, i);
      results := results + [result];
    }
    assert qs[..|qs|] == qs;
    assert answers[..|qs|] == answers;
  }
}

=== FILE: calendar.dfy ===
/** Calendar dates of timestamps, with the meaning of the database's
    `$year`, `$month` and `$dayOfMonth` operators (proleptic Gregorian
    calendar, UTC), and the `YYYY-MM-DD` text the analytics report builds
    from them. Timestamps are milliseconds since 1970-01-01T00:00:00Z. */
module Calendar {
  import opened Wrappers
  import opened Text

  const DayMs: int := 86400000

  predicate IsLeap(y: int) {
    (y % 4 == 0 && y % 100 != 0) || y % 400 == 0
  }

  function YearLength(y: int): (n: nat)
    ensures n == 365 || n == 366
  {
    if IsLeap(y) then 366 else 365
  }

  function MonthLength(y: int, m: int): (n: nat)
    requires 1 <= m <= 12
    ensures 28 <= n <= 31
  {
    if m == 2 then (if IsLeap(y) then 29 else 28)
    else if m == 4 || m == 6 || m == 9 || m == 11 then 30
    else 31
  }

  /** The days in months `m..12` of year `y`. */
  function DaysFrom(y: int, m: int): nat
    requires 1 <= m <= 13
    decreases 13 - m
  {
    if m == 13 then 0 else MonthLength(y, m) + DaysFrom(y, m + 1)
  }

  /** The twelve months make up the year. */
  lemma DaysFromJanuary(y: int)
    ensures DaysFrom(y, 1) == YearLength(y)
  {
    assert DaysFrom(y, 12) == 31;
    assert DaysFrom(y, 10) == 31 + 30 + 31;
    assert DaysFrom(y, 7) == 31 + 31 + 30 + 92;
    assert DaysFrom(y, 4) == 30 + 31 + 30 + 184;
    assert DaysFrom(y, 3) == 31 + 275;
  }

  datatype Date = Date(year: int, month: int, day: int)

  /** A date that exists: a month of the year and a day of that month. */
  predicate ValidDate(d: Date) {
    1 <= d.month <= 12 && 1 <= d.day <= MonthLength(d.year, d.month)
  }

  /** The date of day `doy` (from zero) of year `y`, counting from month
      `m`. */
  function MonthDay(y: int, m: int, doy: nat): (d: Date)
    requires 1 <= m <= 12 && doy < DaysFrom(y, m)
    ensures ValidDate(d) && d.year == y && d.month >= m
    decreases 12 - m
  {
    if doy < MonthLength(y, m) then Date(y, m, doy + 1)
    else MonthDay(y, m + 1, doy - MonthLength(y, m))
  }

  /** The year and day of the year of the day `days` days after January 1 of
      year `y` (before it, when negative). */
  function YearDay(y: int, days: int): (r: (int, nat))
    ensures r.1 < YearLength(r.0)
    decreases if days < 0 then 366 - days else days
  {
    if days < 0 then YearDay(y - 1, days + YearLength(y - 1))
    else if days < YearLength(y) then (y, days)
    else YearDay(y + 1, days - YearLength(y))
  }

  /** The UTC date of a timestamp. */
  function DateOf(t: int): (d: Date)
    ensures ValidDate(d)
  {
    var yd := YearDay(1970, t / DayMs);
    DaysFromJanuary(yd.0);
    MonthDay(yd.0, 1, yd.1)
  }

  /** Two timestamps of the same UTC day have the same date, and the epoch
      is January 1, 1970. */
  lemma DateOfDay(t: int, u: int)
    ensures t / DayMs == u / DayMs ==> DateOf(t) == DateOf(u)
    ensures 0 <= t < DayMs ==> DateOf(t) == Date(1970, 1, 1)
  {
  }

  /** Within one year, later days of the year have later dates. */
  lemma {:induction false} MonthDayMonotone(y: int, m: int, a: nat, b: nat)
    requires 1 <= m <= 12 && a <= b < DaysFrom(y, m)
    ensures Before(MonthDay(y, m, a), MonthDay(y, m, b)) || MonthDay(y, m, a) == MonthDay(y, m, b)
    decreases 12 - m
  {
    var len := MonthLength(y, m);
    if a >= len {
      MonthDayMonotone(y, m + 1, a - len, b - len);
    } else if b >= len {
      assert MonthDay(y, m, b) == MonthDay(y, m + 1, b - len);
      assert MonthDay(y, m, a).month == m < MonthDay(y, m, b).month;
    }
  }

  /** Chronological order of dates: by year, then month, then day. */
  predicate Before(d: Date, e: Date) {
    || d.year < e.year
    || (d.year == e.year && d.month < e.month)
    || (d.year == e.year && d.month == e.month && d.day < e.day)
  }

  /** A number with the chronological order of valid dates, for sorting. */
  function DateKey(d: Date): int {
    (d.year * 13 + d.month) * 32 + d.day
  }

  /** On valid dates the key orders exactly as the calendar does and tells
      different dates apart. */
  lemma DateKeyOrder(d: Date, e: Date)
    requires ValidDate(d) && ValidDate(e)
    ensures Before(d, e) <==> DateKey(d) < DateKey(e)
    ensures DateKey(d) == DateKey(e) <==> d == e
  {
    var md := d.year * 13 + d.month;
    var me := e.year * 13 + e.month;
    assert md < me <==> Before(Date(d.year, d.month, 1), Date(e.year, e.month, 1));
    if md < me {
      assert DateKey(d) <= md * 32 + 31 < me * 32 + 1 <= DateKey(e);
    } else if md > me {
      assert DateKey(e) <= me * 32 + 31 < md * 32 + 1 <= DateKey(d);
    }
  }

  // ---------------------------------------------------------------------------
  // the `YYYY-MM-DD` text

  /** `s.padStart(width, '0')`. */
  function PadStart(s: string, width: nat): (r: string)
    ensures |r| == if |s| >= width then |s| else width
    decreases width
  {
    if |s| >= width then s else "0" + PadStart(s, width - 1)
  }

  /** `${year}-${pad2(month)}-${pad2(day)}`. */
  function DateString(d: Date): string {
    IntToString(d.year) + "-" + PadStart(IntToString(d.month), 2) + "-" + PadStart(IntToString(d.day), 2)
  }

  /** Reading a `YYYY-MM-DD` text back: three dash-separated numbers. */
  function ParseDate(s: string): (r: Option<Date>)
    ensures r.Some? ==> |SplitOn(s, {'-'})| == 3
  {
    var parts := SplitOn(s, {'-'});
    if |parts| != 3 then None
    else
      match (ParseInt(parts[0]), ParseInt(parts[1]), ParseInt(parts[2]))
      case (Some(y), Some(m), Some(d)) => Some(Date(y, m, d))
      case _ => None
  }

  /** A leading zero does not change the value of a run of digits. */
  lemma {:induction false} LeadingZero(s: string)
    requires forall i :: 0 <= i < |s| ==> IsDigit(s[i])
    ensures forall i :: 0 <= i < |"0" + s| ==> IsDigit(("0" + s)[i])
    ensures DigitsValue("0" + s) == DigitsValue(s)
    decreases |s|
  {
    if s != [] {
      var init := s[..|s| - 1];
      LeadingZero(init);
      assert ("0" + s)[..|s|] == "0" + init;
    }
  }

  /** Padding a run of digits with zeros keeps it a run of digits with the
      same value. */
  lemma {:induction false} PadStartDigits(s: string, width: nat)
    requires forall i :: 0 <= i < |s| ==> IsDigit(s[i])
    ensures forall i :: 0 <= i < |PadStart(s, width)| ==> IsDigit(PadStart(s, width)[i])
    ensures DigitsValue(PadStart(s, width)) == DigitsValue(s)
    decreases width
  {
    if |s| < width {
      PadStartDigits(s, width - 1);
      LeadingZero(PadStart(s, width - 1));
    }
  }

  function Pow10(k: nat): (p: nat)
    ensures p >= 1
  {
    if k == 0 then 1 else 10 * Pow10(k - 1)
  }

  /** A number below `10^width` has at most `width` digits. */
  lemma {:induction false} NatToStringWidth(n: nat, width: nat)
    requires width >= 1 && n < Pow10(width)
    ensures |NatToString(n)| <= width
    decreases width
  {
    if n >= 10 {
      NatToStringWidth(n / 10, width - 1);
    }
  }

  /** `String(n).padStart(width, '0')`. */
  function Pad(n: nat, width: nat): string {
    PadStart(NatToString(n), width)
  }

  /** The padded text of a number below `10^width` is `width` digits with that
      value. */
  lemma PadDigits(n: nat, width: nat)
    requires width >= 1 && n < Pow10(width)
    ensures var p := Pad(n, width);
      && |p| == width && (forall i :: 0 <= i < width ==> IsDigit(p[i]))
      && DigitsValue(p) == n
  {
    var s := NatToString(n);
    NatToStringWidth(n, width);
    DigitsValueOfNatToString(n);
    PadStartDigits(s, width);
  }

  /** Splitting text without a separator gives it back whole. */
  lemma {:induction false} SplitOnNone(a: string, c: char)
    requires NoneOf(a, {c})
    ensures SplitOn(a, {c}) == [a]
    decreases |a|
  {
    if a != [] {
      SplitOnNone(a[1..], c);
      assert [a[0]] + a[1..] == a;
    }
  }

  /** A separator after a separator-free prefix ends the first piece. */
  lemma {:induction false} SplitOnAfter(a: string, c: char, rest: string)
    requires NoneOf(a, {c})
    ensures SplitOn(a + [c] + rest, {c}) == [a] + SplitOn(rest, {c})
    decreases |a|
  {
    if a == [] {
      assert a + [c] + rest == [c] + rest;
      assert ([c] + rest)[1..] == rest;
    } else {
      var s := a + [c] + rest;
      assert s[1..] == a[1..] + [c] + rest;
      SplitOnAfter(a[1..], c, rest);
      assert [a[0]] + a[1..] == a;
    }
  }

  lemma DigitsHaveNoDash(s: string)
    requires forall i :: 0 <= i < |s| ==> IsDigit(s[i])
    ensures NoneOf(s, {'-'})
  {
  }

  /** Three digit runs joined by dashes split into those three runs. */
  lemma SplitDigitTriple(a: string, b: string, c: string)
    requires forall i :: 0 <= i < |a| ==> IsDigit(a[i])
    requires forall i :: 0 <= i < |b| ==> IsDigit(b[i])
    requires forall i :: 0 <= i < |c| ==> IsDigit(c[i])
    ensures SplitOn(a + "-" + b + "-" + c, {'-'}) == [a, b, c]
  {
    DigitsHaveNoDash(a);
    DigitsHaveNoDash(b);
    DigitsHaveNoDash(c);
    assert a + "-" + b + "-" + c == a + ['-'] + (b + ['-'] + c);
    SplitOnAfter(a, '-', b + ['-'] + c);
    SplitOnAfter(b, '-', c);
    SplitOnNone(c, '-');
  }

  /** Three digit runs joined by dashes read back as their three values. */
  lemma ParseDigitTriple(a: string, b: string, c: string)
    requires a != [] && b != [] && c != []
    requires forall i :: 0 <= i < |a| ==> IsDigit(a[i])
    requires forall i :: 0 <= i < |b| ==> IsDigit(b[i])
    requires forall i :: 0 <= i < |c| ==> IsDigit(c[i])
    ensures ParseDate(a + "-" + b + "-" + c) == Some(Date(DigitsValue(a), DigitsValue(b), DigitsValue(c)))
  {
    SplitDigitTriple(a, b, c);
    ParseIntOfPlainDigits(a);
    ParseIntOfPlainDigits(b);
    ParseIntOfPlainDigits(c);
    ParseDateOfParts(a + "-" + b + "-" + c, a, b, c);
  }

  /** A text that splits into three parts, each read by `parseInt`, is the
      date of those three numbers. */
  lemma ParseDateOfParts(s: string, a: string, b: string, c: string)
    requires SplitOn(s, {'-'}) == [a, b, c]
    requires ParseInt(a).Some? && ParseInt(b).Some? && ParseInt(c).Some?
    ensures ParseDate(s) == Some(Date(ParseInt(a).value, ParseInt(b).value, ParseInt(c).value))
  {
    var parts := SplitOn(s, {'-'});
    assert parts[0] == a && parts[1] == b && parts[2] == c;
  }

  /** The date text reads back as the same date, for dates from year 0 on. */
  lemma ParseDateString(d: Date)
    requires ValidDate(d) && d.year >= 0
    ensures ParseDate(DateString(d)) == Some(d)
  {
    PadReads(d.month, 2);
    PadReads(d.day, 2);
    DigitsValueOfNatToString(d.year);
    assert DateString(d) == NatToString(d.year) + "-" + Pad(d.month, 2) + "-" + Pad(d.day, 2);
    ParseDigitTriple(NatToString(d.year), Pad(d.month, 2), Pad(d.day, 2));
  }

  /** A year from 1000 to 9999 is written with four digits. */
  lemma FourDigits(n: nat)
    requires 1000 <= n <= 9999
    ensures |NatToString(n)| == 4
  {
    assert |NatToString(n / 1000)| == 1;
    assert NatToString(n / 100) == NatToString(n / 1000) + [DigitChar((n / 100) % 10)];
    assert NatToString(n / 10) == NatToString(n / 100) + [DigitChar((n / 10) % 10)];
  }

  /** Every date text of a year from 1000 to 9999 has the ten characters of
      `YYYY-MM-DD`. */
  lemma DateStringLength(d: Date)
    requires ValidDate(d) && 1000 <= d.year <= 9999
    ensures |DateString(d)| == 10
  {
    PadReads(d.month, 2);
    PadReads(d.day, 2);
    FourDigits(d.year);
    assert DateString(d) == NatToString(d.year) + "-" + Pad(d.month, 2) + "-" + Pad(d.day, 2);
  }
  // ---------------------------------------------------------------------------
  // `Date.prototype.toISOString`

  const HourMs: int := 3600000
  const MinuteMs: int := 60000
  const SecondMs: int := 1000

  /** The year field: four digits for years 0 to 9999, otherwise a sign and
      six digits. */
  function YearText(y: int): string {
    if 0 <= y <= 9999 then Pad(y, 4)
    else if y < 0 then "-" + Pad(-y, 6)
    else "+" + Pad(y, 6)
  }

  /** `YYYY-MM-DD` with the year field of `YearText`. */
  function IsoDate(d: Date): string
    requires d.month >= 0 && d.day >= 0
  {
    YearText(d.year) + "-" + Pad(d.month, 2) + "-" + Pad(d.day, 2)
  }

  /** `HH:mm:ss.sssZ`. */
  function IsoClock(h: nat, mi: nat, se: nat, ms: nat): string {
    Pad(h, 2) + ":" + Pad(mi, 2) + ":" + Pad(se, 2) + "." + Pad(ms, 3) + "Z"
  }

  /** `new Date(t).toISOString()`: `YYYY-MM-DDTHH:mm:ss.sssZ` in UTC. */
  function IsoString(t: int): string {
    var ms := t % DayMs;
    IsoDate(DateOf(t)) + "T" + IsoClock(ms / HourMs, ms % HourMs / MinuteMs, ms % MinuteMs / SecondMs, ms % SecondMs)
  }

  /** The clock fields of a timestamp: hours, minutes, seconds and
      milliseconds into its UTC day, which they add back up to. */
  lemma ClockFields(t: int)
    ensures var ms := t % DayMs;
      && 0 <= ms / HourMs < 24 && 0 <= ms % HourMs / MinuteMs < 60
      && 0 <= ms % MinuteMs / SecondMs < 60 && 0 <= ms % SecondMs < 1000
      && (ms / HourMs) * HourMs + (ms % HourMs / MinuteMs) * MinuteMs
         + (ms % MinuteMs / SecondMs) * SecondMs + ms % SecondMs == ms
  {
    var ms := t % DayMs;
    var h := ms / HourMs;
    var rh := ms % HourMs;
    assert ms == h * HourMs + rh;
    var m := rh / MinuteMs;
    var rm := rh % MinuteMs;
    assert rh == m * MinuteMs + rm;
    assert ms % MinuteMs == rm by {
      assert ms == (h * 60 + m) * MinuteMs + rm;
    }
    var sec := rm / SecondMs;
    assert rm == sec * SecondMs + rm % SecondMs;
    assert ms % SecondMs == rm % SecondMs by {
      assert ms == ((h * 60 + m) * 60 + sec) * SecondMs + rm % SecondMs;
    }
  }

  /** `s` is a run of decimal digits with the value `n`. */
  predicate ReadsAs(s: string, n: int) {
    (forall i :: 0 <= i < |s| ==> IsDigit(s[i])) && DigitsValue(s) == n
  }

  /** A slice inside the left operand of a concatenation. */
  lemma SliceLeft(a: string, b: string, i: nat, j: nat)
    requires i <= j <= |a|
    ensures (a + b)[i..j] == a[i..j]
  {
  }

  /** A slice inside the right operand of a concatenation. */
  lemma SliceRight(a: string, b: string, i: nat, j: nat)
    requires |a| <= i <= j <= |a| + |b|
    ensures (a + b)[i..j] == b[i - |a|..j - |a|]
  {
  }

  /** The padded text of a number below `10^width` reads as that number. */
  lemma PadReads(n: nat, width: nat)
    requires width >= 1 && n < Pow10(width)
    ensures |Pad(n, width)| == width && ReadsAs(Pad(n, width), n)
  {
    PadDigits(n, width);
  }

  /** A field that reads as `n`, placed between `pre` and `post`, still reads
      as `n` at its offset. */
  lemma FieldIn(s: string, pre: string, p: string, post: string, n: int)
    requires s == pre + p + post && ReadsAs(p, n)
    ensures |pre| + |p| <= |s| && ReadsAs(s[|pre|..|pre| + |p|], n)
  {
    SliceLeft(pre + p, post, |pre|, |pre| + |p|);
    SliceRight(pre, p, |pre|, |pre| + |p|);
  }

  /** Three fields joined by two separators sit at fixed offsets. */
  lemma ThreeFields(a: string, x: char, b: string, y: char, c: string, na: int, nb: int, nc: int)
    requires ReadsAs(a, na) && ReadsAs(b, nb) && ReadsAs(c, nc)
    ensures var s := a + [x] + b + [y] + c;
      && |s| == |a| + |b| + |c| + 2 && s[|a|] == x && s[|a| + |b| + 1] == y
      && ReadsAs(s[0..|a|], na) && ReadsAs(s[|a| + 1..|a| + 1 + |b|], nb)
      && ReadsAs(s[|a| + |b| + 2..|s|], nc)
  {
    var s := a + [x] + b + [y] + c;
    assert ReadsAs(s[0..|a|], na) by {
      FieldIn(s, [], a, [x] + b + [y] + c, na);
    }
    assert ReadsAs(s[|a| + 1..|a| + 1 + |b|], nb) by {
      FieldIn(s, a + [x], b, [y] + c, nb);
    }
    assert ReadsAs(s[|a| + |b| + 2..|s|], nc) by {
      FieldIn(s, a + [x] + b + [y], c, [], nc);
    }
  }

  lemma IsoDateFields(d: Date)
    requires 0 <= d.year <= 9999 && 0 <= d.month < 100 && 0 <= d.day < 100
    ensures var s := IsoDate(d);
      && |s| == 10 && s[4] == '-' && s[7] == '-'
      && ReadsAs(s[0..4], d.year) && ReadsAs(s[5..7], d.month) && ReadsAs(s[8..10], d.day)
  {
    PadReads(d.year, 4);
    PadReads(d.month, 2);
    PadReads(d.day, 2);
    assert IsoDate(d) == Pad(d.year, 4) + ['-'] + Pad(d.month, 2) + ['-'] + Pad(d.day, 2);
    ThreeFields(Pad(d.year, 4), '-', Pad(d.month, 2), '-', Pad(d.day, 2), d.year, d.month, d.day);
  }

  /** The layout of `HH:mm:ss.sssZ` for any four digit runs. */
  lemma ClockLayout(a: string, b: string, c: string, e: string, na: int, nb: int, nc: int, ne: int)
    requires |a| == 2 && |b| == 2 && |c| == 2 && |e| == 3
    requires ReadsAs(a, na) && ReadsAs(b, nb) && ReadsAs(c, nc) && ReadsAs(e, ne)
    ensures var s := a + ":" + b + ":" + c + "." + e + "Z";
      && |s| == 13 && s[2] == ':' && s[5] == ':' && s[8] == '.' && s[12] == 'Z'
      && ReadsAs(s[0..2], na) && ReadsAs(s[3..5], nb) && ReadsAs(s[6..8], nc) && ReadsAs(s[9..12], ne)
  {
    var front := a + [':'] + b + [':'] + c;
    var back := ['.'] + e + ['Z'];
    var s := a + ":" + b + ":" + c + "." + e + "Z";
    assert s == front + back;
    ThreeFields(a, ':', b, ':', c, na, nb, nc);
    assert s[0..2] == front[0..2] && s[3..5] == front[3..5] && s[6..8] == front[6..8] by {
      SliceLeft(front, back, 0, 2);
      SliceLeft(front, back, 3, 5);
      SliceLeft(front, back, 6, 8);
    }
    assert ReadsAs(s[9..12], ne) by {
      FieldIn(s, front + ['.'], e, ['Z'], ne);
    }
  }

  lemma IsoClockFields(h: nat, mi: nat, se: nat, ms: nat)
    requires h < 24 && mi < 60 && se < 60 && ms < 1000
    ensures var s := IsoClock(h, mi, se, ms);
      && |s| == 13 && s[2] == ':' && s[5] == ':' && s[8] == '.' && s[12] == 'Z'
      && ReadsAs(s[0..2], h) && ReadsAs(s[3..5], mi) && ReadsAs(s[6..8], se) && ReadsAs(s[9..12], ms)
  {
    PadReads(h, 2);
    PadReads(mi, 2);
    PadReads(se, 2);
    PadReads(ms, 3);
    ClockLayout(Pad(h, 2), Pad(mi, 2), Pad(se, 2), Pad(ms, 3), h, mi, se, ms);
  }

  /** For years 0 to 9999 the text has the 24 characters of
      `YYYY-MM-DDTHH:mm:ss.sssZ`; its digit fields read back as the date
      and as hours, minutes, seconds and milliseconds that add up to the
      time of day of the timestamp. */
  lemma IsoStringFields(t: int) returns (h: nat, mi: nat, se: nat, ms: nat)
    requires 0 <= DateOf(t).year <= 9999
    ensures var s := IsoString(t);
      var d := DateOf(t);
      && |s| == 24 && s[4] == '-' && s[7] == '-' && s[10] == 'T'
      && s[13] == ':' && s[16] == ':' && s[19] == '.' && s[23] == 'Z'
      && ReadsAs(s[0..4], d.year) && ReadsAs(s[5..7], d.month) && ReadsAs(s[8..10], d.day)
      && ReadsAs(s[11..13], h) && ReadsAs(s[14..16], mi) && ReadsAs(s[17..19], se) && ReadsAs(s[20..23], ms)
      && h < 24 && mi < 60 && se < 60 && ms < 1000
      && h * HourMs + mi * MinuteMs + se * SecondMs + ms == t % DayMs
  {
    var d := DateOf(t);
    var m := t % DayMs;
    ClockFields(t);
    h, mi, se, ms := m / HourMs, m % HourMs / MinuteMs, m % MinuteMs / SecondMs, m % SecondMs;
    IsoDateFields(d);
    IsoClockFields(h, mi, se, ms);
    StampLayout(IsoDate(d), IsoClock(h, mi, se, ms));
  }

  /** A date text and a clock text joined by `T`: the slices of each land at
      the offsets of the whole. */
  lemma StampLayout(date: string, clock: string)
    requires |date| == 10 && |clock| == 13
    ensures var s := date + "T" + clock;
      && |s| == 24 && s[10] == 'T'
      && s[0..4] == date[0..4] && s[5..7] == date[5..7] && s[8..10] == date[8..10]
      && s[4] == date[4] && s[7] == date[7]
      && s[11..13] == clock[0..2] && s[14..16] == clock[3..5] && s[17..19] == clock[6..8]
      && s[20..23] == clock[9..12]
      && s[13] == clock[2] && s[16] == clock[5] && s[19] == clock[8] && s[23] == clock[12]
  {
    var front := date + "T";
    var s := front + clock;
    SliceLeft(date, "T", 0, 4);
    SliceLeft(date, "T", 5, 7);
    SliceLeft(date, "T", 8, 10);
    SliceLeft(front, clock, 0, 4);
    SliceLeft(front, clock, 5, 7);
    SliceLeft(front, clock, 8, 10);
    SliceRight(front, clock, 11, 13);
    SliceRight(front, clock, 14, 16);
    SliceRight(front, clock, 17, 19);
    SliceRight(front, clock, 20, 23);
  }

  /** The characters of an ISO timestamp: digits, signs and separators. */
  predicate IsoChar(c: char) {
    IsDigit(c) || c in {'-', '+', 'T', ':', '.', 'Z'}
  }

  predicate IsoText(s: string) {
    forall i :: 0 <= i < |s| ==> IsoChar(s[i])
  }

  lemma IsoTextJoin(a: string, b: string)
    requires IsoText(a) && IsoText(b)
    ensures IsoText(a + b)
  {
  }

  lemma PadIsoChars(n: nat, width: nat)
    ensures IsoText(Pad(n, width))
  {
    PadStartDigits(NatToString(n), width);
  }

  lemma IsoClockChars(h: nat, mi: nat, se: nat, ms: nat)
    ensures IsoText(IsoClock(h, mi, se, ms))
  {
    PadIsoChars(h, 2);
    PadIsoChars(mi, 2);
    PadIsoChars(se, 2);
    PadIsoChars(ms, 3);
    var a := Pad(h, 2) + ":";
    IsoTextJoin(Pad(h, 2), ":");
    IsoTextJoin(a, Pad(mi, 2));
    var b := a + Pad(mi, 2) + ":";
    IsoTextJoin(a + Pad(mi, 2), ":");
    IsoTextJoin(b, Pad(se, 2));
    var c := b + Pad(se, 2) + ".";
    IsoTextJoin(b + Pad(se, 2), ".");
    IsoTextJoin(c, Pad(ms, 3));
    IsoTextJoin(c + Pad(ms, 3), "Z");
  }

  lemma YearTextChars(y: int)
    ensures IsoText(YearText(y))
  {
    if 0 <= y <= 9999 {
      PadIsoChars(y, 4);
    } else if y < 0 {
      PadIsoChars(-y, 6);
      IsoTextJoin("-", Pad(-y, 6));
    } else {
      PadIsoChars(y, 6);
      IsoTextJoin("+", Pad(y, 6));
    }
  }

  lemma IsoDateChars(d: Date)
    requires d.month >= 0 && d.day >= 0
    ensures IsoText(IsoDate(d))
  {
    var y := YearText(d.year);
    YearTextChars(d.year);
    PadIsoChars(d.month, 2);
    PadIsoChars(d.day, 2);
    IsoTextJoin(y, "-");
    IsoTextJoin(y + "-", Pad(d.month, 2));
    IsoTextJoin(y + "-" + Pad(d.month, 2), "-");
    IsoTextJoin(y + "-" + Pad(d.month, 2) + "-", Pad(d.day, 2));
  }

  /** Every timestamp's text is made of digits, signs and separators only:
      no comma, quote or line break. */
  lemma IsoStringChars(t: int)
    ensures forall i :: 0 <= i < |IsoString(t)| ==> IsoChar(IsoString(t)[i])
  {
    var ms := t % DayMs;
    var date := IsoDate(DateOf(t));
    IsoDateChars(DateOf(t));
    IsoClockChars(ms / HourMs, ms % HourMs / MinuteMs, ms % MinuteMs / SecondMs, ms % SecondMs);
    IsoTextJoin(date, "T");
    IsoTextJoin(date + "T", IsoClock(ms / HourMs, ms % HourMs / MinuteMs, ms % MinuteMs / SecondMs, ms % SecondMs));
    assert IsoText(IsoString(t));
  }
}

=== FILE: conversation_log_model.dfy ===
/** The `ConversationLog` schema: one question, its answer, where the answer
    came from and how it was delivered. The schema is strict, so keys it does
    not declare are dropped when a record is built. */
module ConversationLogModel {
  import opened Wrappers
  import opened Mongoose

  /** The values the `source` enum accepts. */
  const SourceEnum: set<string> := {"RAG", "External", "Fallback"}

  const DefaultPlatform: string := "LINE"

  /** An entry of `sourceDetails.ragDocuments`: only these three keys are
      declared. */
  datatype RagDocument = RagDocument(documentId: nat, chunkIndex: int, similarity: real)

  datatype SourceDetails = SourceDetails(
    ragDocuments: seq<RagDocument>,
    externalApi: Option<string>,
    tier: Option<string>)

  /** What `sourceDetails = {}` stores: an empty document list and nothing
      else. */
  const NoDetails: SourceDetails := SourceDetails([], None, None)

  datatype LogMetadata = LogMetadata(platform: string, sessionId: Option<string>, userAgent: Option<string>)

  /** A stored record; `id` stands for the object id and `createdAt` for the
      timestamp the schema adds, in milliseconds. */
  datatype ConversationRecord = ConversationRecord(
    id: nat,
    userId: string,
    question: string,
    answer: string,
    source: string,
    sourceDetails: SourceDetails,
    confidence: real,
    responseTime: int,
    metadata: LogMetadata,
    createdAt: int)

  /** The message of the `min` and `max` validators on `confidence`. */
  const ConfidenceBelowMin: string := "Path `confidence` is less than minimum allowed value (0)."
  const ConfidenceAboveMax: string := "Path `confidence` is more than maximum allowed value (1)."

  /** The error of `source`: `required` first, then `enum`. */
  function SourceErrors(source: string): (es: seq<PathError>)
    ensures es == [] <==> source in SourceEnum
    ensures source == [] ==> es == [PathError("source", RequiredMessage("source"))]
    ensures source != [] && source !in SourceEnum ==> es == [PathError("source", EnumMessage(source, "source"))]
    ensures forall x :: x in es ==> x.path == "source"
  {
    if source == [] then [PathError("source", RequiredMessage("source"))]
    else if source !in SourceEnum then [PathError("source", EnumMessage(source, "source"))]
    else []
  }

  /** The error of `confidence`: `min`, then `max`. */
  function ConfidenceErrors(confidence: real): (es: seq<PathError>)
    ensures es == [] <==> 0.0 <= confidence <= 1.0
    ensures confidence < 0.0 ==> es == [PathError("confidence", ConfidenceBelowMin)]
    ensures confidence > 1.0 ==> es == [PathError("confidence", ConfidenceAboveMax)]
    ensures forall x :: x in es ==> x.path == "confidence"
  {
    if confidence < 0.0 then [PathError("confidence", ConfidenceBelowMin)]
    else if confidence > 1.0 then [PathError("confidence", ConfidenceAboveMax)]
    else []
  }

  /** The paths that fail validation, each with the message of its first
      failing validator, in the order of the schema. */
  function PathErrors(r: ConversationRecord): (es: seq<PathError>)
    ensures es == [] <==>
      && r.userId != [] && r.question != [] && r.answer != []
      && r.source in SourceEnum
      && 0.0 <= r.confidence <= 1.0
  {
    Required("userId", r.userId) + Required("question", r.question) + Required("answer", r.answer)
      + SourceErrors(r.source) + ConfidenceErrors(r.confidence)
  }

  /** A proof aid for the listing lemmas, not a property of the schema:
      `PathErrors` unfolded into its pieces, with the first characters of
      the path names that tell the pieces apart. */
  lemma PathErrorsPieces(r: ConversationRecord)
    ensures PathErrors(r) ==
      Required("userId", r.userId) + Required("question", r.question) + Required("answer", r.answer)
      + SourceErrors(r.source) + ConfidenceErrors(r.confidence)
    ensures "userId"[0] == 'u' && "question"[0] == 'q' && "answer"[0] == 'a' && "source"[0] == 's' && "confidence"[0] == 'c'
  {
  }

  /** A required path is listed, with the `required` message, iff it is
      empty. */
  lemma RequiredPathsListed(r: ConversationRecord)
    ensures PathError("userId", RequiredMessage("userId")) in PathErrors(r) <==> r.userId == []
    ensures PathError("question", RequiredMessage("question")) in PathErrors(r) <==> r.question == []
    ensures PathError("answer", RequiredMessage("answer")) in PathErrors(r) <==> r.answer == []
  {
    PathErrorsPieces(r);
    var user, question, answer := Required("userId", r.userId), Required("question", r.question), Required("answer", r.answer);
    var source, confidence := SourceErrors(r.source), ConfidenceErrors(r.confidence);
    var u, q, a := PathError("userId", RequiredMessage("userId")), PathError("question", RequiredMessage("question")), PathError("answer", RequiredMessage("answer"));
    assert u !in question && u !in answer && u !in source && u !in confidence;
    assert q !in user && q !in answer && q !in source && q !in confidence;
    assert a !in user && a !in question && a !in source && a !in confidence;
  }

  /** `source` is listed as missing iff it is empty, and as outside the
      enum iff it is neither empty nor one of the three labels; `confidence`
      is listed iff it lies below 0 or above 1. */
  lemma SourceAndConfidenceListed(r: ConversationRecord)
    ensures PathError("source", RequiredMessage("source")) in PathErrors(r) <==> r.source == []
    ensures PathError("source", EnumMessage(r.source, "source")) in PathErrors(r) <==> r.source != [] && r.source !in SourceEnum
    ensures PathError("confidence", ConfidenceBelowMin) in PathErrors(r) <==> r.confidence < 0.0
    ensures PathError("confidence", ConfidenceAboveMax) in PathErrors(r) <==> r.confidence > 1.0
  {
    PathErrorsPieces(r);
    var required := Required("userId", r.userId) + Required("question", r.question) + Required("answer", r.answer);
    var source, confidence := SourceErrors(r.source), ConfidenceErrors(r.confidence);
    var missing, unknown := PathError("source", RequiredMessage("source")), PathError("source", EnumMessage(r.source, "source"));
    var below, above := PathError("confidence", ConfidenceBelowMin), PathError("confidence", ConfidenceAboveMax);
    assert missing !in required && missing !in confidence && unknown !in required && unknown !in confidence;
    assert below !in required && below !in source && above !in required && above !in source;
  }

  /** A record that passes every validator of the schema. */
  predicate Validates(r: ConversationRecord) {
    && r.userId != [] && r.question != [] && r.answer != []
    && r.source in SourceEnum
    && 0.0 <= r.confidence <= 1.0
  }

  /** What `save` rejects with: the `ValidationError` message listing the
      failing paths, or `None` when the record is valid. */
  function ValidationError(r: ConversationRecord): (e: Option<string>)
    ensures e.None? <==>
      && r.userId != [] && r.question != [] && r.answer != []
      && r.source in SourceEnum
      && 0.0 <= r.confidence <= 1.0
    ensures e.Some? ==> e.value == ValidationMessage("ConversationLog", PathErrors(r))
  {
    if Validates(r) then None else Some(ValidationMessage("ConversationLog", PathErrors(r)))
  }

  /** A valid record but for a `source` outside the enum is refused with
      exactly one entry, naming the source. */
  lemma BadSourceMessage(r: ConversationRecord)
    requires r.userId != [] && r.question != [] && r.answer != [] && 0.0 <= r.confidence <= 1.0
    requires r.source != [] && r.source !in SourceEnum
    ensures ValidationError(r) == Some(Heading("ConversationLog") + "source: " + EnumMessage(r.source, "source"))
  {
    var e := PathError("source", EnumMessage(r.source, "source"));
    PathErrorsPieces(r);
    assert PathErrors(r) == [e];
    SinglePathMessage("ConversationLog", e);
    assert ValidationError(r) == Some(ValidationMessage("ConversationLog", [e]));
    assert "source" + ": " == "source: ";
    var h := Heading("ConversationLog");
    assert h + "source" + ": " + e.message == h + ("source" + ": ") + e.message;
  }

  /** The labels the answering pipeline produces but the enum refuses. */
  lemma HybridAndErrorAreRejected(r: ConversationRecord)
    requires r.source == "Hybrid" || r.source == "Error"
    ensures ValidationError(r).Some?
  {
  }
}

=== FILE: csv.dfy ===
/** Comma-separated text as the CSV export writes it: fields separated by
    `,`, records by a line feed, and a field that may hold those characters
    enclosed in double quotes with every quote inside doubled (the format of
    RFC 4180, with `\n` in place of CRLF). `ReadRecords` reads such text
    back and is the reference the export is proved against. */
module Csv {
  import opened Wrappers
  import opened Text

  // ---------------------------------------------------------------------------
  // writing

  /** `s.replace(/"/g, '""')`. */
  function Escape(s: string): (r: string)
    ensures |r| >= |s|
    decreases |s|
  {
    if s == [] then []
    else (if s[0] == '"' then "\"\"" else [s[0]]) + Escape(s[1..])
  }

  /** `"${s.replace(/"/g, '""')}"`. */
  function Quote(s: string): string {
    "\"" + Escape(s) + "\""
  }

  /** A field as it is written: quoted, or interpolated as it is. */
  datatype Cell = Quoted(text: string) | Bare(text: string)

  function Encode(c: Cell): string {
    match c
    case Quoted(t) => Quote(t)
    case Bare(t) => t
  }

  /** The fields of a record, separated by commas. */
  function Row(cells: seq<Cell>): string
    decreases |cells|
  {
    if cells == [] then ""
    else if |cells| == 1 then Encode(cells[0]) else Encode(cells[0]) + "," + Row(cells[1..])
  }

  /** A field in front of a non-empty record is written with a comma after it. */
  lemma RowCons(c: Cell, rest: seq<Cell>)
    requires rest != []
    ensures Row([c] + rest) == Encode(c) + "," + Row(rest)
  {
    assert ([c] + rest)[1..] == rest;
  }

  lemma RowTwoThenRest(x: Cell, y: Cell, rest: seq<Cell>)
    requires rest != []
    ensures Row([x, y] + rest) == Encode(x) + "," + Encode(y) + "," + Row(rest)
  {
    assert [x, y] + rest == [x] + ([y] + rest);
    RowCons(x, [y] + rest);
    RowCons(y, rest);
  }

  /** The texts the fields stand for. */
  function Texts(cells: seq<Cell>): (r: seq<string>)
    ensures |r| == |cells|
    ensures forall i :: 0 <= i < |cells| ==> r[i] == cells[i].text
  {
    if cells == [] then [] else [cells[0].text] + Texts(cells[1..])
  }

  lemma TextsCons(c: Cell, rest: seq<Cell>)
    ensures Texts([c] + rest) == [c.text] + Texts(rest)
  {
    assert ([c] + rest)[1..] == rest;
  }

  lemma TextsThreeThenRest(x: Cell, y: Cell, z: Cell, rest: seq<Cell>)
    ensures Texts([x, y, z] + rest) == [x.text, y.text, z.text] + Texts(rest)
  {
    assert [x, y, z] + rest == [x] + ([y] + ([z] + rest));
    TextsCons(x, [y] + ([z] + rest));
    TextsCons(y, [z] + rest);
    TextsCons(z, rest);
    assert [x.text] + ([y.text] + ([z.text] + Texts(rest))) == [x.text, y.text, z.text] + Texts(rest);
  }

  lemma TextsDrop(cells: seq<Cell>, k: nat)
    requires k <= |cells|
    ensures Texts(cells[k..]) == Texts(cells)[k..]
  {
  }

  /** A field the reader gets back: quoted fields always, an unquoted one
      when it holds no separator and no quote. */
  predicate Readable(c: Cell) {
    c.Quoted? || NoneOf(c.text, {',', '\n', '"'})
  }

  /** Every field is readable. */
  predicate AllReadable(cells: seq<Cell>) {
    cells == [] || (Readable(cells[0]) && AllReadable(cells[1..]))
  }

  /** Unquoted fields of the given texts. */
  function BareCells(texts: seq<string>): (cells: seq<Cell>)
    ensures |cells| == |texts|
    ensures forall i :: 0 <= i < |texts| ==> cells[i] == Bare(texts[i])
  {
    seq(|texts|, i requires 0 <= i < |texts| => Bare(texts[i]))
  }

  /** Unquoted fields are written as their texts joined by commas. */
  lemma {:induction false} RowOfBare(texts: seq<string>)
    ensures Row(BareCells(texts)) == Join(texts, ",")
    ensures Texts(BareCells(texts)) == texts
    decreases |texts|
  {
    if texts != [] {
      RowOfBare(texts[1..]);
      assert BareCells(texts)[1..] == BareCells(texts[1..]);
    }
  }

  /** Fields that are each readable make a readable record. */
  lemma {:induction false} AllReadableEach(cells: seq<Cell>)
    requires forall i :: 0 <= i < |cells| ==> Readable(cells[i])
    ensures AllReadable(cells)
    decreases |cells|
  {
    if cells != [] {
      AllReadableEach(cells[1..]);
    }
  }

  /** A record ends with its last field. */
  lemma {:induction false} RowEndsWithLast(cells: seq<Cell>)
    requires cells != []
    ensures var last := Encode(cells[|cells| - 1]);
      |Row(cells)| >= |last| && Row(cells)[|Row(cells)| - |last|..] == last
    decreases |cells|
  {
    if |cells| > 1 {
      RowEndsWithLast(cells[1..]);
      assert cells[1..][|cells| - 2] == cells[|cells| - 1];
    }
  }

  /** Text of records ends with the last record. */
  lemma {:induction false} LinesEndWithLast(rows: seq<seq<Cell>>)
    requires rows != []
    ensures var last := Row(rows[|rows| - 1]);
      |Lines(rows)| >= |last| && Lines(rows)[|Lines(rows)| - |last|..] == last
    decreases |rows|
  {
    if |rows| > 1 {
      LinesEndWithLast(rows[1..]);
      assert rows[1..][|rows| - 2] == rows[|rows| - 1];
    }
  }

  // ---------------------------------------------------------------------------
  // reading

  /** The rest of a quoted field after its opening quote: the text up to the
      closing quote, with `""` read as `"`, and what follows the closing
      quote. `None` when the quote is never closed. */
  function ReadQuoted(s: string): (r: Option<(string, string)>)
    ensures r.Some? ==> |r.value.1| < |s|
    decreases |s|
  {
    if s == [] then None
    else if s[0] == '"' then
      if |s| >= 2 && s[1] == '"' then
        match ReadQuoted(s[2..])
        case None => None
        case Some((t, rest)) => Some(("\"" + t, rest))
      else Some(([], s[1..]))
    else
      match ReadQuoted(s[1..])
      case None => None
      case Some((t, rest)) => Some(([s[0]] + t, rest))
  }

  /** An unquoted field: everything up to the next comma or line feed. */
  function ReadBare(s: string): (r: (string, string))
    ensures r.0 + r.1 == s
    ensures r.1 == [] || r.1[0] == ',' || r.1[0] == '\n'
    decreases |s|
  {
    if s == [] || s[0] == ',' || s[0] == '\n' then ([], s)
    else
      var (t, rest) := ReadBare(s[1..]);
      ([s[0]] + t, rest)
  }

  /** One field and what follows it. */
  function ReadField(s: string): (r: Option<(string, string)>)
    ensures r.Some? ==> |r.value.1| <= |s|
  {
    if s != [] && s[0] == '"' then ReadQuoted(s[1..]) else Some(ReadBare(s))
  }

  /** The fields of one record, and the text after it, which is empty or
      starts with the line feed that ends the record. `None` when a closing
      quote is followed by anything but a separator. */
  function ReadFields(s: string): (r: Option<(seq<string>, string)>)
    ensures r.Some? ==> |r.value.1| <= |s| && (r.value.1 == [] || r.value.1[0] == '\n')
    decreases |s|
  {
    match ReadField(s)
    case None => None
    case Some((f, rest)) =>
      if rest == [] || rest[0] == '\n' then Some(([f], rest))
      else if rest[0] == ',' then
        match ReadFields(rest[1..])
        case None => None
        case Some((fs, after)) => Some(([f] + fs, after))
      else None
  }

  /** All records; a final line feed ends the last record. */
  function ReadRecords(s: string): Option<seq<seq<string>>>
    decreases |s|
  {
    match ReadFields(s)
    case None => None
    case Some((fs, rest)) =>
      if rest == [] || rest == "\n" then Some([fs])
      else
        match ReadRecords(rest[1..])
        case None => None
        case Some(rs) => Some([fs] + rs)
  }

  // ---------------------------------------------------------------------------
  // reading what was written

  /** A quoted field reads back as the text that was escaped, when no quote
      follows the closing one. */
  lemma {:induction false} ReadEscaped(t: string, rest: string)
    requires rest == [] || rest[0] != '"'
    ensures ReadQuoted(Escape(t) + "\"" + rest) == Some((t, rest))
    decreases |t|
  {
    var s := Escape(t) + "\"" + rest;
    if t == [] {
      assert s == "\"" + rest;
      assert s[1..] == rest;
      assert |s| < 2 || s[1] != '"';
    } else {
      ReadEscaped(t[1..], rest);
      var tail := Escape(t[1..]) + "\"" + rest;
      if t[0] == '"' {
        assert s == "\"\"" + tail;
        assert s[2..] == tail;
      } else {
        assert s == [t[0]] + tail;
        assert s[1..] == tail;
      }
      assert [t[0]] + t[1..] == t;
    }
  }

  /** An unquoted field without separators reads back whole. */
  lemma {:induction false} ReadBareSafe(t: string, rest: string)
    requires NoneOf(t, {',', '\n'})
    requires rest == [] || rest[0] == ',' || rest[0] == '\n'
    ensures ReadBare(t + rest) == (t, rest)
    decreases |t|
  {
    if t != [] {
      assert NoneOf(t[1..], {',', '\n'}) by {
        forall i | 0 <= i < |t| - 1 ensures t[1..][i] !in {',', '\n'} {
          assert t[1..][i] == t[i + 1];
        }
      }
      ReadBareSafe(t[1..], rest);
      assert (t + rest)[0] == t[0];
      assert (t + rest)[1..] == t[1..] + rest;
      assert [t[0]] + t[1..] == t;
    } else {
      assert t + rest == rest;
    }
  }

  /** A readable field reads back as its text. */
  lemma ReadEncoded(c: Cell, rest: string)
    requires Readable(c)
    requires rest == [] || rest[0] == ',' || rest[0] == '\n'
    ensures ReadField(Encode(c) + rest) == Some((c.text, rest))
  {
    match c
    case Quoted(t) =>
      var s := Encode(c) + rest;
      assert s == "\"" + (Escape(t) + "\"" + rest);
      assert s[1..] == Escape(t) + "\"" + rest;
      ReadEscaped(t, rest);
    case Bare(t) =>
      ReadBareSafe(t, rest);
      if t == [] {
        assert Encode(c) + rest == rest;
      }
  }

  /** A record of readable fields reads back as their texts. */
  lemma {:induction false} ReadRow(cells: seq<Cell>, rest: string)
    requires cells != [] && AllReadable(cells)
    requires rest == [] || rest[0] == '\n'
    ensures ReadFields(Row(cells) + rest) == Some((Texts(cells), rest))
    decreases |cells|, 1
  {
    if |cells| == 1 {
      ReadLastField(cells[0], rest);
      assert Row(cells) == Encode(cells[0]);
      assert Texts(cells) == [cells[0].text];
    } else {
      ReadRowMore(cells, rest);
    }
  }

  lemma {:induction false} ReadRowMore(cells: seq<Cell>, rest: string)
    requires |cells| >= 2 && AllReadable(cells)
    requires rest == [] || rest[0] == '\n'
    ensures ReadFields(Row(cells) + rest) == Some((Texts(cells), rest))
    decreases |cells|, 0
  {
    ReadRow(cells[1..], rest);
    ReadFieldThenMore(cells[0], Row(cells[1..]) + rest, Texts(cells[1..]), rest);
    RowSplit(cells, rest);
  }

  lemma RowSplit(cells: seq<Cell>, rest: string)
    requires |cells| >= 2
    ensures Row(cells) + rest == Encode(cells[0]) + ("," + (Row(cells[1..]) + rest))
  {
  }

  /** A readable field before the end of the record is a record of its own. */
  lemma ReadLastField(c: Cell, rest: string)
    requires Readable(c)
    requires rest == [] || rest[0] == '\n'
    ensures ReadFields(Encode(c) + rest) == Some(([c.text], rest))
  {
    ReadEncoded(c, rest);
  }

  /** A readable field and a comma go in front of the fields that follow. */
  lemma ReadFieldThenMore(c: Cell, tail: string, fs: seq<string>, after: string)
    requires Readable(c)
    requires ReadFields(tail) == Some((fs, after))
    ensures ReadFields(Encode(c) + ("," + tail)) == Some(([c.text] + fs, after))
  {
    ReadEncoded(c, "," + tail);
    assert ("," + tail)[1..] == tail;
  }

  /** The written records joined by line feeds (`rows.join('\n')`). */
  function Lines(rows: seq<seq<Cell>>): string
    decreases |rows|
  {
    if rows == [] then ""
    else if |rows| == 1 then Row(rows[0])
    else Row(rows[0]) + "\n" + Lines(rows[1..])
  }

  /** Every record has two fields or more, all readable. */
  predicate ReadableRows(rows: seq<seq<Cell>>) {
    rows == [] || (|rows[0]| >= 2 && AllReadable(rows[0]) && ReadableRows(rows[1..]))
  }

  /** The texts of each record. */
  function TextsOf(rows: seq<seq<Cell>>): (r: seq<seq<string>>)
    ensures |r| == |rows|
    ensures forall i :: 0 <= i < |rows| ==> r[i] == Texts(rows[i])
  {
    if rows == [] then [] else [Texts(rows[0])] + TextsOf(rows[1..])
  }

  /** Records of at least two readable fields read back as their texts,
      with or without a final line feed. */
  lemma {:induction false} ReadLines(rows: seq<seq<Cell>>, end: string)
    requires rows != [] && ReadableRows(rows)
    requires end == [] || end == "\n"
    ensures ReadRecords(Lines(rows) + end) == Some(TextsOf(rows))
    decreases |rows|
  {
    if |rows| == 1 {
      ReadLastRecord(rows[0], end);
      assert Lines(rows) == Row(rows[0]);
      assert TextsOf(rows) == [Texts(rows[0])];
      assert Lines(rows) + end == Row(rows[0]) + end;
    } else {
      ReadLines(rows[1..], end);
      LinesNotEmpty(rows[1..]);
      ReadRecordThenMore(rows[0], Lines(rows[1..]) + end, TextsOf(rows[1..]));
      LinesSplit(rows, end);
    }
  }

  lemma LinesSplit(rows: seq<seq<Cell>>, end: string)
    requires |rows| >= 2
    ensures Lines(rows) + end == Row(rows[0]) + ("\n" + (Lines(rows[1..]) + end))
  {
  }

  /** The last record, with or without a final line feed. */
  lemma ReadLastRecord(cells: seq<Cell>, end: string)
    requires cells != [] && AllReadable(cells)
    requires end == [] || end == "\n"
    ensures ReadRecords(Row(cells) + end) == Some([Texts(cells)])
  {
    ReadRow(cells, end);
  }

  /** A single readable record without a final line feed reads back as its texts. */
  lemma ReadOneRecord(cells: seq<Cell>)
    requires cells != [] && AllReadable(cells)
    ensures ReadRecords(Row(cells)) == Some([Texts(cells)])
  {
    ReadLastRecord(cells, "");
    assert Row(cells) + "" == Row(cells);
  }

  /** A record and a line feed go in front of the records that follow. */
  lemma ReadRecordThenMore(cells: seq<Cell>, more: string, rs: seq<seq<string>>)
    requires cells != [] && AllReadable(cells) && more != []
    requires ReadRecords(more) == Some(rs)
    ensures ReadRecords(Row(cells) + ("\n" + more)) == Some([Texts(cells)] + rs)
  {
    ReadRow(cells, "\n" + more);
    assert ("\n" + more)[1..] == more;
    assert "\n" + more != "\n";
  }

  /** A readable record and a line feed before further records read back
      as the record's texts and then theirs. */
  lemma RecordThenLines(cells: seq<Cell>, rows: seq<seq<Cell>>)
    requires cells != [] && AllReadable(cells)
    requires rows != [] && ReadableRows(rows)
    ensures ReadRecords(Row(cells) + "\n" + Lines(rows)) == Some([Texts(cells)] + TextsOf(rows))
  {
    ReadLines(rows, "");
    assert Lines(rows) + "" == Lines(rows);
    LinesNotEmpty(rows);
    ReadRecordThenMore(cells, Lines(rows), TextsOf(rows));
    assert Row(cells) + "\n" + Lines(rows) == Row(cells) + ("\n" + Lines(rows));
  }

  /** Text holding records of two fields or more is never empty. */
  lemma LinesNotEmpty(rows: seq<seq<Cell>>)
    requires rows != [] && ReadableRows(rows)
    ensures |Lines(rows)| > 0
  {
    var cells := rows[0];
    assert |Row(cells)| > 0 by {
      assert Row(cells) == Encode(cells[0]) + "," + Row(cells[1..]);
    }
  }
}

=== FILE: document_model.dfy ===
/** The `Document` schema: an uploaded file's text, its knowledge tier, the
    chunks cut from it and the processing status of their embeddings. */
module DocumentModel {
  import opened Wrappers
  import opened Text
  import opened Mongoose

  /** The knowledge tier of a document; `A` counts as the most trusted. */
  datatype Tier = A | B | C

  const DefaultTier: Tier := B

  function TierName(t: Tier): string {
    match t
    case A => "A"
    case B => "B"
    case C => "C"
  }

  /** The `enum` check on `tier`: only the three names are accepted. */
  function ParseTier(s: string): (r: Option<Tier>)
    ensures r.Some? <==> s == "A" || s == "B" || s == "C"
    ensures r.Some? ==> TierName(r.value) == s
  {
    if s == "A" then Some(A)
    else if s == "B" then Some(B)
    else if s == "C" then Some(C)
    else None
  }

  lemma ParseTierName(t: Tier)
    ensures ParseTier(TierName(t)) == Some(t)
  {
  }

  /** `metadata.processingStatus`. */
  datatype Status = Pending | Processing | Completed | Failed

  const DefaultStatus: Status := Pending

  function StatusName(s: Status): string {
    match s
    case Pending => "pending"
    case Processing => "processing"
    case Completed => "completed"
    case Failed => "failed"
  }

  function ParseStatus(s: string): (r: Option<Status>)
    ensures r.Some? <==> s == "pending" || s == "processing" || s == "completed" || s == "failed"
    ensures r.Some? ==> StatusName(r.value) == s
  {
    if s == "pending" then Some(Pending)
    else if s == "processing" then Some(Processing)
    else if s == "completed" then Some(Completed)
    else if s == "failed" then Some(Failed)
    else None
  }

  lemma ParseStatusName(s: Status)
    ensures ParseStatus(StatusName(s)) == Some(s)
  {
  }

  /** The number of dimensions the embedding validator demands. */
  const EmbeddingDimensions: nat := 384

  datatype Chunk = Chunk(text: string, embedding: seq<real>, chunkIndex: int)

  /** The validator on `chunks[].embedding`. */
  predicate ValidEmbedding(v: seq<real>) {
    |v| == EmbeddingDimensions
  }

  datatype Metadata = Metadata(
    fileSize: Option<int>,
    mimeType: string,
    uploadedBy: Option<string>,
    processingStatus: Status)

  /** A stored document; `id` stands for the database's object id and
      `createdAt` for the timestamp the schema adds, in milliseconds. */
  datatype Document = Document(
    id: nat,
    filename: string,
    originalName: string,
    content: string,
    tier: Tier,
    chunks: seq<Chunk>,
    metadata: Metadata,
    createdAt: int)

  /** The message of the validator on `chunks[].embedding`. */
  const EmbeddingMessage: string := "Embedding must have 384 dimensions"

  /** The path Mongoose reports for the embedding of the `k`-th chunk. */
  function ChunkPath(k: nat): (path: string)
    ensures "chunks." <= path
  {
    "chunks." + NatToString(k) + ".embedding"
  }

  /** The errors of the chunk embeddings: one per chunk whose embedding does
      not have 384 entries, in the order of the chunks. */
  function EmbeddingErrors(chunks: seq<Chunk>): (es: seq<PathError>)
    ensures es == [] <==> forall k :: 0 <= k < |chunks| ==> ValidEmbedding(chunks[k].embedding)
    ensures forall e :: e in es ==> "chunks." <= e.path
    ensures forall k :: 0 <= k < |chunks| && !ValidEmbedding(chunks[k].embedding) ==>
      PathError(ChunkPath(k), EmbeddingMessage) in es
    decreases |chunks|
  {
    if chunks == [] then []
    else
      var k := |chunks| - 1;
      var rest := EmbeddingErrors(chunks[..k]);
      assert forall j :: 0 <= j < k ==> chunks[..k][j] == chunks[j];
      rest + (if ValidEmbedding(chunks[k].embedding) then [] else [PathError(ChunkPath(k), EmbeddingMessage)])
  }

  /** The error of `tier`, given by name since the enum is checked on save. */
  function TierErrors(tier: string): (es: seq<PathError>)
    ensures es == [] <==> ParseTier(tier).Some?
    ensures es != [] ==> es == [PathError("tier", EnumMessage(tier, "tier"))]
    ensures forall x :: x in es ==> x.path == "tier"
  {
    if ParseTier(tier).None? then [PathError("tier", EnumMessage(tier, "tier"))] else []
  }

  /** The paths of a document that fail validation on `save`, in the order
      of the schema: a `required` string path rejects the empty string,
      `tier` must be one of the three names, and every chunk's embedding
      must have 384 entries. */
  function PathErrors(filename: string, originalName: string, content: string, tier: string, chunks: seq<Chunk>)
    : (es: seq<PathError>)
    ensures es == [] <==>
      && filename != [] && originalName != [] && content != [] && ParseTier(tier).Some?
      && forall k :: 0 <= k < |chunks| ==> ValidEmbedding(chunks[k].embedding)
  {
    Required("filename", filename) + Required("originalName", originalName) + Required("content", content)
      + TierErrors(tier) + EmbeddingErrors(chunks)
  }

  /** A proof aid for the listing lemmas, not a property of the schema:
      `PathErrors` unfolded into its pieces, with the first characters of
      the path names that tell the pieces apart. */
  lemma DocumentPathPieces(filename: string, originalName: string, content: string, tier: string, chunks: seq<Chunk>)
    ensures PathErrors(filename, originalName, content, tier, chunks) ==
      Required("filename", filename) + Required("originalName", originalName) + Required("content", content)
      + TierErrors(tier) + EmbeddingErrors(chunks)
    ensures "filename"[0] == 'f' && "originalName"[0] == 'o' && "content"[0] == 'c' && "content"[1] == 'o' && "tier"[0] == 't'
    ensures "chunks."[1] == 'h'
  {
  }

  /** Each required path is listed, with the `required` message, exactly
      when it is empty. */
  lemma RequiredDocumentPathsListed(filename: string, originalName: string, content: string, tier: string, chunks: seq<Chunk>)
    ensures PathError("filename", RequiredMessage("filename")) in PathErrors(filename, originalName, content, tier, chunks) <==> filename == []
    ensures PathError("originalName", RequiredMessage("originalName")) in PathErrors(filename, originalName, content, tier, chunks) <==> originalName == []
    ensures PathError("content", RequiredMessage("content")) in PathErrors(filename, originalName, content, tier, chunks) <==> content == []
  {
    DocumentPathPieces(filename, originalName, content, tier, chunks);
    var file, original, text := Required("filename", filename), Required("originalName", originalName), Required("content", content);
    var tierErrors, embeddingErrors := TierErrors(tier), EmbeddingErrors(chunks);
    var f, o, c := PathError("filename", RequiredMessage("filename")), PathError("originalName", RequiredMessage("originalName")), PathError("content", RequiredMessage("content"));
    assert f !in original && f !in text && f !in tierErrors && f !in embeddingErrors;
    assert o !in file && o !in text && o !in tierErrors && o !in embeddingErrors;
    assert c !in file && c !in original && c !in tierErrors && c !in embeddingErrors;
  }

  /** An unknown tier is listed exactly when it is unknown, and every chunk
      with a bad embedding is listed. */
  lemma TierAndEmbeddingsListed(filename: string, originalName: string, content: string, tier: string, chunks: seq<Chunk>)
    ensures PathError("tier", EnumMessage(tier, "tier")) in PathErrors(filename, originalName, content, tier, chunks) <==> ParseTier(tier).None?
    ensures forall k :: 0 <= k < |chunks| && !ValidEmbedding(chunks[k].embedding) ==>
      PathError(ChunkPath(k), EmbeddingMessage) in PathErrors(filename, originalName, content, tier, chunks)
  {
    DocumentPathPieces(filename, originalName, content, tier, chunks);
    var required := Required("filename", filename) + Required("originalName", originalName) + Required("content", content);
    var t := PathError("tier", EnumMessage(tier, "tier"));
    assert t !in required && t !in EmbeddingErrors(chunks);
  }

  /** Validation on `save`: the document itself, or the `ValidationError`
      message listing its failing paths. */
  function Validate(d: Document): (r: Result<Document, string>)
    ensures r.Success? <==>
      && d.filename != [] && d.originalName != [] && d.content != []
      && forall k :: 0 <= k < |d.chunks| ==> ValidEmbedding(d.chunks[k].embedding)
    ensures r.Success? ==> r.value == d
    ensures r.Failure? ==>
      r.error == ValidationMessage("Document", PathErrors(d.filename, d.originalName, d.content, TierName(d.tier), d.chunks))
  {
    ParseTierName(d.tier);
    var es := PathErrors(d.filename, d.originalName, d.content, TierName(d.tier), d.chunks);
    if es == [] then Success(d) else Failure(ValidationMessage("Document", es))
  }

  /** A document whose only fault is empty content is refused with the one
      entry for `content`. */
  lemma EmptyContentMessage(d: Document)
    requires d.filename != [] && d.originalName != [] && d.content == []
    requires forall k :: 0 <= k < |d.chunks| ==> ValidEmbedding(d.chunks[k].embedding)
    ensures Validate(d) == Failure(Heading("Document") + "content: " + RequiredMessage("content"))
  {
    var e := PathError("content", RequiredMessage("content"));
    ParseTierName(d.tier);
    assert PathErrors(d.filename, d.originalName, d.content, TierName(d.tier), d.chunks) == [e];
    SinglePathMessage("Document", e);
    assert "content" + ": " == "content: ";
    var h := Heading("Document");
    assert h + "content" + ": " + e.message == h + ("content" + ": ") + e.message;
  }
}

=== FILE: document_service.dfy ===
/** Ingestion of an uploaded file: text extraction by mime type (with OCR of
    images and of scanned PDFs), creation of the document record, and the
    background step that cuts the text into chunk records and moves the
    document's status from processing to completed or failed.

    The foreign extractors (pdf-parse, mammoth, the OCR engine and the page
    renderer) are given as their outcomes; the document collection is the
    class `DocumentStore`. */
module DocumentService {
  import opened Wrappers
  import opened Text
  import opened DocumentModel
  import opened Mongoose
  import opened RagService

  const PdfMime: string := "application/pdf"
  const DocxMime: string := "application/" + "vnd.openxmlformats-officedocument.wordprocessingml.document"
  const MswordMime: string := "application/msword"
  const ImagePrefix: string := "image/"

  /** What `pdf-parse` reports for a file: its raw text and page count. */
  datatype PdfData = PdfData(text: string, numpages: nat)

  /** An OCR engine: `startError` is `Some` when loading or initialising the
      worker throws; `page(p)` is the outcome of rendering page `p` and
      recognising its text. */
  datatype OcrWorker = OcrWorker(startError: Option<string>, page: nat -> Result<string, string>)

  /** The outcomes of the foreign calls for one file: reading and parsing
      it as a PDF, OCR of its pages, `mammoth.extractRawText`, `ocrImage`
      before trimming, and `Buffer.from(name, 'binary').toString('utf8')`,
      which re-decodes the original name before it is stored. */
  datatype Extractors = Extractors(
    pdf: Result<PdfData, string>,
    pdfOcr: OcrWorker,
    word: Result<string, string>,
    image: Result<string, string>,
    recodeName: string -> string)

  // ---------------------------------------------------------------------------
  // OCR of a PDF, page by page

  /** `fullText` after pages `1..n`: each recognised page's text followed by a
      newline; a page that fails adds nothing. */
  function PagesText(page: nat -> Result<string, string>, n: nat): string
    decreases n
  {
    if n == 0 then ""
    else PagesText(page, n - 1) + (if page(n).Success? then page(n).value + "\n" else "")
  }

  /** `ocrPDF(filePath, numPages)`: the loop over pages `1..numPages`, then
      `trim`. A failing page is skipped; a worker that does not start fails
      the whole call. */
  method OcrPdf(worker: OcrWorker, numPages: nat) returns (r: Result<string, string>)
    ensures worker.startError.Some? ==> r == Failure(worker.startError.value)
    ensures worker.startError.None? ==> r == Success(Trim(PagesText(worker.page, numPages)))
  {
    if worker.startError.Some? {
      return Failure(worker.startError.value);
    }
    var fullText := RecognisePages(worker.page, numPages);
    return Success(Trim(fullText));
  }

  /** The loop of `ocrPDF` over pages `1..numPages`. */
  method RecognisePages(page: nat -> Result<string, string>, numPages: nat) returns (fullText: string)
    ensures fullText == PagesText(page, numPages)
  {
    fullText := "";
    var p := 1;
    while p <= numPages
      invariant 1 <= p <= numPages + 1
      invariant fullText == PagesText(page, p - 1)
    {
      var recognised := page(p);
      if recognised.Success? {
        fullText := fullText + recognised.value + "\n";
      }
      p := p + 1;
    }
  }

  /** The text after fewer pages is a prefix of the text after more: pages
      are appended in order. */
  lemma {:induction false} PagesTextGrows(page: nat -> Result<string, string>, m: nat, n: nat)
    requires m <= n
    ensures PagesText(page, m) <= PagesText(page, n)
    decreases n
  {
    if m < n {
      PagesTextGrows(page, m, n - 1);
    }
  }

  /** A recognised page ends the text of the pages up to it, so its text and
      its newline appear in the whole text, after every earlier page's. */
  lemma PageTextIsKept(page: nat -> Result<string, string>, p: nat, n: nat)
    requires 1 <= p <= n && page(p).Success?
    ensures var prefix := PagesText(page, p);
      && prefix <= PagesText(page, n)
      && prefix == PagesText(page, p - 1) + page(p).value + "\n"
      && Contains(PagesText(page, n), page(p).value + "\n")
  {
    PagesTextGrows(page, p, n);
    var before := PagesText(page, p - 1);
    var whole := PagesText(page, n);
    var t := page(p).value + "\n";
    assert PagesText(page, p) == before + t;
    assert whole[|before|..|before| + |t|] == t;
    assert OccursAt(whole, t, |before|);
  }

  /** When every page fails, OCR yields the empty string. */
  lemma {:induction false} AllPagesFailing(page: nat -> Result<string, string>, n: nat)
    requires forall p :: 1 <= p <= n ==> page(p).Failure?
    ensures PagesText(page, n) == ""
    decreases n
  {
    if n > 0 {
      AllPagesFailing(page, n - 1);
    }
  }

  /** One line per recognised page: the text has as many newlines as pages
      were recognised, when no page text holds a newline itself. */
  lemma {:induction false} OneLinePerPage(page: nat -> Result<string, string>, n: nat)
    requires forall p :: 1 <= p <= n && page(p).Success? ==> NoneOf(page(p).value, {'\n'})
    ensures multiset(PagesText(page, n))['\n'] == RecognisedPages(page, n)
    decreases n
  {
    if n > 0 {
      OneLinePerPage(page, n - 1);
      if page(n).Success? {
        NewlineCountStep(PagesText(page, n - 1), page(n).value);
      }
    }
  }

  /** A line without a newline of its own, and its newline, add one newline. */
  lemma NewlineCountStep(a: string, t: string)
    requires NoneOf(t, {'\n'})
    ensures multiset(a + t + "\n")['\n'] == multiset(a)['\n'] + 1
  {
    assert multiset(t)['\n'] == 0 by {
      assert forall c :: c in multiset(t) ==> c in t;
    }
    assert multiset(a + t + "\n") == multiset(a) + multiset(t) + multiset("\n");
  }

  /** How many of pages `1..n` were recognised. */
  function RecognisedPages(page: nat -> Result<string, string>, n: nat): (k: nat)
    ensures k <= n
    decreases n
  {
    if n == 0 then 0 else RecognisedPages(page, n - 1) + (if page(n).Success? then 1 else 0)
  }

  /** The result of `ocrPDF` as a value, for the dispatch below. */
  function OcrPdfResult(worker: OcrWorker, numPages: nat): (r: Result<string, string>)
    ensures r.Success? ==> IsTrimmed(r.value)
    ensures r.Failure? <==> worker.startError.Some?
  {
    if worker.startError.Some? then Failure(worker.startError.value)
    else Success(Trim(PagesText(worker.page, numPages)))
  }

  // ---------------------------------------------------------------------------
  // dispatch on the mime type

  predicate IsWordMime(mime: string) {
    mime == DocxMime || mime == MswordMime
  }

  /** `mimeType.startsWith('image/')`. */
  predicate IsImageMime(mime: string) {
    ImagePrefix <= mime
  }

  /** `pdfData.numpages || 1`. */
  function PageCount(numpages: nat): (n: nat)
    ensures n >= 1
    ensures numpages > 0 ==> n == numpages
  {
    if numpages == 0 then 1 else numpages
  }

  /** The PDF branch: the parsed text, or OCR of the pages when it is blank
      and OCR is not skipped. */
  function ExtractPdf(skipOcr: bool, x: Extractors): (r: Result<string, string>)
    ensures r.Success? ==> IsTrimmed(r.value)
  {
    if x.pdf.Failure? then Failure(x.pdf.error)
    else
      var text := Trim(x.pdf.value.text);
      if text == [] && !skipOcr then
        var ocr := OcrPdfResult(x.pdfOcr, PageCount(x.pdf.value.numpages));
        if ocr.Failure? then ocr
        else
          TrimOfTrimmed(ocr.value);
          Success(Trim(ocr.value))
      else
        TrimOfTrimmed(text);
        Success(Trim(text))
  }

  /** `extractTextFromFile(filePath, mimeType, { skipOCR })`. */
  function ExtractText(mime: string, skipOcr: bool, x: Extractors): (r: Result<string, string>)
    ensures r.Success? ==> IsTrimmed(r.value)
    ensures r.Failure? && !(mime == PdfMime || IsWordMime(mime) || IsImageMime(mime)) ==>
      r.error == "Unsupported file type: " + mime
  {
    if mime == PdfMime then ExtractPdf(skipOcr, x)
    else if IsWordMime(mime) then
      if x.word.Failure? then Failure(x.word.error) else Success(Trim(x.word.value))
    else if IsImageMime(mime) then
      if skipOcr then Success("")
      else if x.image.Failure? then Failure(x.image.error)
      else Success(Trim(x.image.value))
    else Failure("Unsupported file type: " + mime)
  }

  /** Any other mime type is refused, whatever the extractors would say. */
  lemma UnsupportedTypesFail(mime: string, skipOcr: bool, x: Extractors)
    requires mime != PdfMime && !IsWordMime(mime) && !IsImageMime(mime)
    ensures ExtractText(mime, skipOcr, x) == Failure("Unsupported file type: " + mime)
  {
  }

  /** Word files are read with mammoth only; the PDF and OCR outcomes do not
      matter. */
  lemma WordUsesMammoth(mime: string, skipOcr: bool, x: Extractors)
    requires IsWordMime(mime)
    ensures ExtractText(mime, skipOcr, x)
         == if x.word.Success? then Success(Trim(x.word.value)) else Failure(x.word.error)
  {
  }

  /** An image is recognised unless OCR is skipped, in which case its text is
      empty. */
  lemma ImagesUseOcr(mime: string, skipOcr: bool, x: Extractors)
    requires IsImageMime(mime)
    ensures skipOcr ==> ExtractText(mime, skipOcr, x) == Success("")
    ensures !skipOcr && x.image.Success? ==> ExtractText(mime, skipOcr, x) == Success(Trim(x.image.value))
    ensures !skipOcr && x.image.Failure? ==> ExtractText(mime, skipOcr, x) == Failure(x.image.error)
  {
    assert mime[0] == 'i' by {
      assert mime[0] == ImagePrefix[0];
    }
    assert PdfMime[0] == 'a';
    assert DocxMime[0] == "application/"[0] == 'a';
    assert MswordMime[0] == 'a';
  }

  /** A PDF whose parsed text is not blank is not sent to OCR: the OCR
      outcome does not matter. */
  lemma PdfTextBeforeOcr(skipOcr: bool, x: Extractors, other: OcrWorker)
    requires x.pdf.Success? && (skipOcr || !IsBlank(x.pdf.value.text))
    ensures ExtractText(PdfMime, skipOcr, x) == ExtractText(PdfMime, skipOcr, x.(pdfOcr := other))
    ensures ExtractText(PdfMime, skipOcr, x) == Success(Trim(x.pdf.value.text))
  {
    TrimEmptyIffBlank(x.pdf.value.text);
    TrimOfTrimmed(Trim(x.pdf.value.text));
  }

  /** A blank PDF with OCR allowed is OCR'd over `numpages || 1` pages. */
  lemma BlankPdfIsOcrd(x: Extractors)
    requires x.pdf.Success? && IsBlank(x.pdf.value.text)
    ensures ExtractText(PdfMime, false, x) == OcrPdfResult(x.pdfOcr, PageCount(x.pdf.value.numpages))
  {
    TrimEmptyIffBlank(x.pdf.value.text);
    var ocr := OcrPdfResult(x.pdfOcr, PageCount(x.pdf.value.numpages));
    if ocr.Success? {
      TrimOfTrimmed(ocr.value);
    }
  }

  // ---------------------------------------------------------------------------
  // chunk records

  /** The records `chunks.map((chunk, idx) => ...)` builds: the chunk's text,
      an empty embedding and its position. */
  function ChunkRecords(chunks: seq<string>): (r: seq<Chunk>)
    ensures |r| == |chunks|
    ensures forall i :: 0 <= i < |r| ==> r[i].text == chunks[i] && r[i].embedding == [] && r[i].chunkIndex == i
  {
    seq(|chunks|, i requires 0 <= i < |chunks| => Chunk(chunks[i], [], i))
  }

  function Texts(records: seq<Chunk>): (r: seq<string>)
    ensures |r| == |records|
  {
    seq(|records|, i requires 0 <= i < |records| => records[i].text)
  }

  /** The records give back exactly the chunks, in order. */
  lemma ChunkRecordsTexts(chunks: seq<string>)
    ensures Texts(ChunkRecords(chunks)) == chunks
  {
  }

  /** The empty embeddings never pass the 384-dimension validator: a document
      holding such records would be refused by `save`, which is why they are
      written with an update that skips validation. */
  lemma ChunkRecordsFailValidation(d: Document, chunks: seq<string>)
    requires chunks != []
    ensures Validate(d.(chunks := ChunkRecords(chunks))).Failure?
  {
    var records := ChunkRecords(chunks);
    assert !ValidEmbedding(records[0].embedding);
  }

  // ---------------------------------------------------------------------------
  // the document collection

  /** The file as the upload middleware hands it over; `originalName` is
      the name as the client sent it, not yet decoded. */
  datatype UploadedFile = UploadedFile(filename: string, originalName: string, mimetype: string, size: int)

  /** `tier || 'B'`: a missing or empty tier means B. */
  function TierOrDefault(tier: Option<string>): (s: string)
    ensures tier.None? || tier.value == "" ==> s == "B"
    ensures tier.Some? && tier.value != "" ==> s == tier.value
  {
    if tier.None? || tier.value == "" then "B" else tier.value
  }

  /** The document `processUploadedFile` saves, as the `id`-th document,
      created at `now`: the extracted text, the tier (B by default) and the
      status `processing`; or the error that extraction or validation
      reports. */
  function NewDocument(id: nat, file: UploadedFile, tier: Option<string>, skipOcr: bool, x: Extractors, now: int): (r: Result<Document, string>)
    ensures r.Success? ==>
      && r.value.id == id && r.value.createdAt == now
      && r.value.filename == file.filename && r.value.originalName == x.recodeName(file.originalName)
      && Success(r.value.content) == ExtractText(file.mimetype, skipOcr, x)
      && r.value.content != []
      && TierName(r.value.tier) == TierOrDefault(tier)
      && r.value.chunks == []
      && r.value.metadata == Metadata(Some(file.size), file.mimetype, None, Processing)
    ensures ExtractText(file.mimetype, skipOcr, x).Failure? ==> r == Failure(ExtractText(file.mimetype, skipOcr, x).error)
    ensures ExtractText(file.mimetype, skipOcr, x).Success? ==>
      (r.Failure? <==> file.filename == [] || x.recodeName(file.originalName) == [] || ExtractText(file.mimetype, skipOcr, x).value == []
                       || ParseTier(TierOrDefault(tier)).None?)
    ensures ExtractText(file.mimetype, skipOcr, x).Success? && r.Failure? ==>
      r.error == ValidationMessage("Document", PathErrors(file.filename, x.recodeName(file.originalName),
                                                          ExtractText(file.mimetype, skipOcr, x).value, TierOrDefault(tier), []))
  {
    var text := ExtractText(file.mimetype, skipOcr, x);
    if text.Failure? then Failure(text.error)
    else
      var tierName := TierOrDefault(tier);
      var name := x.recodeName(file.originalName);
      var meta := Metadata(Some(file.size), file.mimetype, None, Processing);
      match ParseTier(tierName)
      case None => Failure(ValidationMessage("Document", PathErrors(file.filename, name, text.value, tierName, [])))
      case Some(t) => Validate(Document(id, file.filename, name, text.value, t, [], meta, now))
  }

  /** A file whose extracted text is empty cannot be saved: an image with OCR
      skipped is always refused. */
  lemma EmptyTextIsRefused(id: nat, file: UploadedFile, tier: Option<string>, x: Extractors, now: int)
    requires IsImageMime(file.mimetype)
    ensures NewDocument(id, file, tier, true, x, now).Failure?
  {
    ImagesUseOcr(file.mimetype, true, x);
  }

  /** A document before and after the background step: `completed` with the
      chunk records of its text. */
  function WithChunks(d: Document, chunks: seq<string>): Document {
    d.(chunks := ChunkRecords(chunks), metadata := d.metadata.(processingStatus := Completed))
  }

  function WithStatus(d: Document, s: Status): Document {
    d.(metadata := d.metadata.(processingStatus := s))
  }

  /** `findByIdAndUpdate(id, ...)`: the document with that id, if any, is
      replaced by `f` of it; the others stay as they are. */
  function UpdateById(docs: seq<Document>, id: nat, f: Document -> Document): (r: seq<Document>)
    ensures |r| == |docs|
    ensures forall i :: 0 <= i < |docs| && docs[i].id != id ==> r[i] == docs[i]
    ensures forall i :: 0 <= i < |docs| && docs[i].id == id ==> r[i] == f(docs[i])
  {
    seq(|docs|, i requires 0 <= i < |docs| => if docs[i].id == id then f(docs[i]) else docs[i])
  }

  function Ids(docs: seq<Document>): (r: seq<nat>)
    ensures |r| == |docs|
    ensures forall i :: 0 <= i < |docs| ==> r[i] == docs[i].id
  {
    seq(|docs|, i requires 0 <= i < |docs| => docs[i].id)
  }

  /** No two documents share an id. */
  predicate UniqueIds(docs: seq<Document>) {
    forall i, j :: 0 <= i < j < |docs| ==> docs[i].id != docs[j].id
  }

  /** A status transition the service makes: a document is created as
      `processing` and afterwards only ever becomes `completed` or
      `failed`. */
  predicate StatusStep(before: Status, after: Status) {
    before == after || after == Completed || after == Failed
  }

  /** Every document kept its id and moved by `StatusStep`. */
  predicate Evolves(before: seq<Document>, after: seq<Document>) {
    && |before| == |after|
    && (forall i :: 0 <= i < |before| ==> after[i].id == before[i].id)
    && (forall i :: 0 <= i < |before| ==>
          StatusStep(before[i].metadata.processingStatus, after[i].metadata.processingStatus))
  }

  /** An update by id that sets the status to `completed` or `failed` is a
      `StatusStep` for every document and keeps ids unique. */
  lemma UpdateEvolves(docs: seq<Document>, id: nat, chunks: seq<string>, failed: bool, nextId: nat)
    requires Stored(docs, nextId)
    ensures var f := if failed then (d: Document) => WithStatus(d, Failed) else (d: Document) => WithChunks(d, chunks);
      Evolves(docs, UpdateById(docs, id, f)) && Stored(UpdateById(docs, id, f), nextId)
  {
    var f := if failed then (d: Document) => WithStatus(d, Failed) else (d: Document) => WithChunks(d, chunks);
    UpdateSettles(docs, id, f, nextId);
  }

  /** Any update by id whose function keeps the id and settles the status
      on `completed` or `failed`. */
  lemma UpdateSettles(docs: seq<Document>, id: nat, f: Document -> Document, nextId: nat)
    requires Stored(docs, nextId)
    requires forall d :: f(d).id == d.id && f(d).metadata.processingStatus in {Completed, Failed}
    ensures Evolves(docs, UpdateById(docs, id, f)) && Stored(UpdateById(docs, id, f), nextId)
  {
  }

  /** Ids are unique and below `nextId`, and no document is ever left in
      the schema's default status `pending`. */
  ghost predicate Stored(docs: seq<Document>, nextId: nat) {
    && UniqueIds(docs)
    && (forall i :: 0 <= i < |docs| ==> docs[i].id < nextId)
    && (forall i :: 0 <= i < |docs| ==> docs[i].metadata.processingStatus != Pending)
  }

  /** Appending a document with the next id and a settled status keeps the
      store's invariant. */
  lemma AppendStored(docs: seq<Document>, nextId: nat, d: Document)
    requires Stored(docs, nextId)
    requires d.id == nextId && d.metadata.processingStatus != Pending
    ensures Stored(docs + [d], nextId + 1)
  {
  }

  /** The stored documents. */
  class DocumentStore {
    var docs: seq<Document>
    var nextId: nat

    ghost predicate Valid()
      reads this
    {
      Stored(docs, nextId)
    }

    constructor()
      ensures Valid() && docs == [] && nextId == 0
    {
      docs := [];
      nextId := 0;
    }

    /** `processUploadedFile(file, tier, { skipOCR })` up to the point where
        it returns: the saved document, status `processing`. The background
        step is `ProcessDocumentEmbeddings`. */
    method ProcessUploadedFile(file: UploadedFile, tier: Option<string>, skipOcr: bool, x: Extractors, now: int)
      returns (r: Result<Document, string>)
      requires Valid()
      modifies this
      ensures Valid()
      ensures r == NewDocument(old(nextId), file, tier, skipOcr, x, now)
      ensures r.Success? ==> docs == old(docs) + [r.value] && nextId == old(nextId) + 1
      ensures r.Failure? ==> docs == old(docs) && nextId == old(nextId)
    {
      r := NewDocument(nextId, file, tier, skipOcr, x, now);
      if r.Success? {
        AppendStored(docs, nextId, r.value);
        docs := docs + [r.value];
        nextId := nextId + 1;
      }
    }

    /** `processDocumentEmbeddings(documentId, content)`: the document gets
        the chunk records of `splitIntoChunks(content)` and status
        `completed`. `written` says whether that update reached the
        database; when it did not, the document is marked `failed` if
        `failedWritten`, and the error is rethrown. An unknown id changes
        nothing. */
    method ProcessDocumentEmbeddings(id: nat, content: string, written: bool, failedWritten: bool, dbError: string)
      returns (r: Result<nat, string>)
      requires Valid()
      modifies this
      ensures Valid() && nextId == old(nextId)
      ensures Evolves(old(docs), docs)
      ensures written ==> docs == UpdateById(old(docs), id, (d: Document) => WithChunks(d, Chunks(content, DefaultChunkSize, DefaultOverlap)))
      ensures written ==> r == Success(|Chunks(content, DefaultChunkSize, DefaultOverlap)|)
      ensures !written && failedWritten ==> docs == UpdateById(old(docs), id, (d: Document) => WithStatus(d, Failed))
      ensures !written && !failedWritten ==> docs == old(docs)
      ensures !written ==> r == Failure(dbError)
    {
      var chunks := SplitIntoChunks(content, DefaultChunkSize, DefaultOverlap);
      if written {
        UpdateEvolves(docs, id, chunks, false, nextId);
        docs := UpdateById(docs, id, (d: Document) => WithChunks(d, chunks));
        r := Success(|chunks|);
      } else {
        if failedWritten {
          UpdateEvolves(docs, id, chunks, true, nextId);
          docs := UpdateById(docs, id, (d: Document) => WithStatus(d, Failed));
        }
        r := Failure(dbError);
      }
    }

    /** `findById(id)`. */
    function FindById(id: nat): (r: Option<Document>)
      reads this
      ensures r.Some? ==> r.value in docs && r.value.id == id
      ensures r.None? <==> forall i :: 0 <= i < |docs| ==> docs[i].id != id
    {
      FindIn(docs, id)
    }

    /** `findByIdAndDelete(id)`: the document with that id is removed and
        returned; an unknown id removes nothing. */
    method Delete(id: nat) returns (r: Option<Document>)
      requires Valid()
      modifies this
      ensures Valid() && nextId == old(nextId)
      ensures r == FindIn(old(docs), id)
      ensures docs == Without(old(docs), id)
      ensures r.None? ==> docs == old(docs)
    {
      r := FindIn(docs, id);
      WithoutUnknown(docs, id);
      WithoutRemovesOne(docs, id);
      var kept := Without(docs, id);
      assert forall i :: 0 <= i < |kept| ==> kept[i] in docs;
      docs := kept;
    }
  }

  /** The first document with the given id. */
  function FindIn(docs: seq<Document>, id: nat): (r: Option<Document>)
    ensures r.Some? ==> r.value in docs && r.value.id == id
    ensures r.None? <==> forall i :: 0 <= i < |docs| ==> docs[i].id != id
  {
    if docs == [] then None
    else if docs[0].id == id then Some(docs[0])
    else
      var r := FindIn(docs[1..], id);
      assert forall i :: 1 <= i < |docs| ==> docs[i] == docs[1..][i - 1];
      r
  }

  /** The documents other than the one with the given id, in order. */
  function Without(docs: seq<Document>, id: nat): (r: seq<Document>)
    ensures forall i :: 0 <= i < |r| ==> r[i].id != id && r[i] in docs
    ensures forall i :: 0 <= i < |docs| && docs[i].id != id ==> docs[i] in r
    ensures |r| <= |docs|
  {
    if docs == [] then []
    else
      var rest := Without(docs[1..], id);
      assert forall i :: 1 <= i < |docs| ==> docs[i] == docs[1..][i - 1];
      if docs[0].id == id then rest else [docs[0]] + rest
  }

  /** Deleting an id nobody has leaves the documents as they are. */
  lemma {:induction false} WithoutUnknown(docs: seq<Document>, id: nat)
    ensures (forall i :: 0 <= i < |docs| ==> docs[i].id != id) ==> Without(docs, id) == docs
  {
    if docs != [] && forall i :: 0 <= i < |docs| ==> docs[i].id != id {
      assert forall i :: 1 <= i < |docs| ==> docs[1..][i - 1] == docs[i];
      WithoutUnknown(docs[1..], id);
    }
  }

  /** With unique ids, deleting removes exactly one document when the id is
      known. */
  lemma WithoutRemovesOne(docs: seq<Document>, id: nat)
    requires UniqueIds(docs)
    ensures FindIn(docs, id).Some? ==> |Without(docs, id)| == |docs| - 1
    ensures UniqueIds(Without(docs, id))
  {
    WithoutLength(docs, id);
    WithoutKeepsUnique(docs, id);
  }

  lemma {:induction false} WithoutLength(docs: seq<Document>, id: nat)
    requires UniqueIds(docs)
    ensures FindIn(docs, id).Some? ==> |Without(docs, id)| == |docs| - 1
  {
    if docs != [] {
      var tail := docs[1..];
      TailOfUnique(docs);
      WithoutLength(tail, id);
      if docs[0].id == id {
        WithoutUnknown(tail, id);
      }
    }
  }

  lemma {:induction false} WithoutKeepsUnique(docs: seq<Document>, id: nat)
    requires UniqueIds(docs)
    ensures UniqueIds(Without(docs, id))
  {
    if docs != [] {
      var tail := docs[1..];
      TailOfUnique(docs);
      WithoutKeepsUnique(tail, id);
      if docs[0].id != id {
        WithoutAvoids(tail, id, docs[0].id);
        ConsUnique(docs[0], Without(tail, id));
      }
    }
  }

  /** The documents after the first have unique ids, none of them the
      first's. */
  lemma TailOfUnique(docs: seq<Document>)
    requires docs != [] && UniqueIds(docs)
    ensures UniqueIds(docs[1..])
    ensures forall i :: 0 <= i < |docs| - 1 ==> docs[1..][i].id != docs[0].id
  {
    assert forall i :: 0 <= i < |docs| - 1 ==> docs[1..][i] == docs[i + 1];
  }

  lemma ConsUnique(d: Document, rest: seq<Document>)
    requires UniqueIds(rest) && forall i :: 0 <= i < |rest| ==> rest[i].id != d.id
    ensures UniqueIds([d] + rest)
  {
    var all := [d] + rest;
    forall i, j | 0 <= i < j < |all| ensures all[i].id != all[j].id {
      assert all[j] == rest[j - 1];
      if i > 0 {
        assert all[i] == rest[i - 1];
      }
    }
  }

  /** Removing documents introduces no id that was not there. */
  lemma WithoutAvoids(docs: seq<Document>, id: nat, other: nat)
    requires forall i :: 0 <= i < |docs| ==> docs[i].id != other
    ensures forall i :: 0 <= i < |Without(docs, id)| ==> Without(docs, id)[i].id != other
  {
    var rest := Without(docs, id);
    forall i | 0 <= i < |rest| ensures rest[i].id != other {
      var k :| 0 <= k < |docs| && docs[k] == rest[i];
    }
  }
}

=== FILE: http.dfy ===
/** What a route answers. */
module Http {
  import opened Wrappers

  /** A JSON body sent with status 200, or a refusal: its status code, the
      `error` text and the `message` of the error that was thrown, when that
      error is part of the model. */
  datatype Reply<T> = Ok(body: T) | Refused(status: int, error: string, message: Option<string>)

  /** The stored state after a request, and the reply. */
  datatype Handled<S, T> = Handled(state: S, reply: Reply<T>)
}

=== FILE: log_analytics.dfy ===
/** The analytics report over saved conversations (`getAnalytics`): the time
    window, the total, the breakdown by source, the ten most asked
    questions, the average confidence and response time, and the per-day
    counts with their `YYYY-MM-DD` dates. The database's aggregation stages
    are given their meaning over the sequence of records. */
module LogAnalytics {
  import opened Wrappers
  import opened Tally
  import opened ConversationLogModel
  import opened Calendar

  // ---------------------------------------------------------------------------
  // the window

  /** The days a `timeRange` covers: '1d', '7d' and '30d' mean what they
      say, and anything else means seven. */
  function TimeRangeDays(timeRange: string): (n: nat)
    ensures n == 1 || n == 7 || n == 30
    ensures n == 1 <==> timeRange == "1d"
    ensures n == 30 <==> timeRange == "30d"
  {
    if timeRange == "1d" then 1
    else if timeRange == "30d" then 30
    else 7
  }

  /** The start of the window, `days` whole days before `now`. */
  function WindowStart(now: int, timeRange: string): (start: int)
    ensures now - start == TimeRangeDays(timeRange) * DayMs
  {
    now - TimeRangeDays(timeRange) * DayMs
  }

  predicate InWindow(r: ConversationRecord, start: int) {
    r.createdAt >= start
  }

  /** `{ createdAt: { $gte: startDate } }`: there is no upper bound. */
  function Window(records: seq<ConversationRecord>, start: int): (w: seq<ConversationRecord>)
    ensures |w| == Count(records, (r: ConversationRecord) => InWindow(r, start))
    ensures forall i :: 0 <= i < |w| ==> w[i].createdAt >= start
    ensures multiset(w) <= multiset(records)
  {
    Filter(records, (r: ConversationRecord) => InWindow(r, start))
  }

  /** A longer range selects every record a shorter one does. */
  lemma LongerRangeSelectsMore(records: seq<ConversationRecord>, now: int, shorter: string, longer: string)
    requires TimeRangeDays(shorter) <= TimeRangeDays(longer)
    ensures |Window(records, WindowStart(now, shorter))| <= |Window(records, WindowStart(now, longer))|
  {
    var s := WindowStart(now, shorter);
    var l := WindowStart(now, longer);
    CountMonotone(records, (r: ConversationRecord) => InWindow(r, s), (r: ConversationRecord) => InWindow(r, l));
  }

  // ---------------------------------------------------------------------------
  // grouping

  /** A `$group` output row: the grouped value and how often it occurs. */
  datatype Group = Group(key: string, count: nat)

  /** One row per key in `ds`, counting its occurrences in `keys`. */
  function CountsOf(ds: seq<string>, keys: seq<string>): (r: seq<Group>)
    ensures |r| == |ds|
    ensures forall i :: 0 <= i < |ds| ==> r[i].key == ds[i] && r[i].count == Occurrences(keys, ds[i])
  {
    if ds == [] then []
    else CountsOf(ds[..|ds| - 1], keys) + [Group(ds[|ds| - 1], Occurrences(keys, ds[|ds| - 1]))]
  }

  /** `{ $group: { _id: '$<field>', count: { $sum: 1 } } }` over the values
      of the field: one row per distinct value, with its number of
      occurrences. */
  function GroupCounts(keys: seq<string>): (r: seq<Group>)
    ensures forall i, j :: 0 <= i < j < |r| ==> r[i].key != r[j].key
    ensures forall i :: 0 <= i < |r| ==> r[i].count == Occurrences(keys, r[i].key) && r[i].count > 0
  {
    var ds := Distinct(keys);
    var r := CountsOf(ds, keys);
    forall i | 0 <= i < |r| ensures r[i].count > 0 {
      assert ds[i] in multiset(keys);
    }
    r
  }

  /** Every value has its row. */
  lemma GroupOf(keys: seq<string>, q: string) returns (j: nat)
    requires q in keys
    ensures j < |GroupCounts(keys)| && GroupCounts(keys)[j].key == q
  {
    var ds := Distinct(keys);
    var k :| 0 <= k < |keys| && keys[k] == q;
    j :| 0 <= j < |ds| && ds[j] == q;
  }

  function GroupCount(g: Group): int { g.count }

  lemma {:induction false} SumCountsOf(ds: seq<string>, keys: seq<string>)
    ensures SumOf(CountsOf(ds, keys), GroupCount) == SumOccurrences(ds, keys)
    decreases |ds|
  {
    if ds != [] {
      SumCountsOf(ds[..|ds| - 1], keys);
      var r := CountsOf(ds, keys);
      assert r[..|r| - 1] == CountsOf(ds[..|ds| - 1], keys);
    }
  }

  /** The groups account for every value exactly once. */
  lemma GroupCountsSum(keys: seq<string>)
    ensures SumOf(GroupCounts(keys), GroupCount) == |keys|
  {
    SumCountsOf(Distinct(keys), keys);
    DistinctOccurrencesSum(keys);
  }

  function Sources(records: seq<ConversationRecord>): (r: seq<string>)
    ensures |r| == |records|
    ensures forall i :: 0 <= i < |records| ==> r[i] == records[i].source
  {
    seq(|records|, i requires 0 <= i < |records| => records[i].source)
  }

  function Questions(records: seq<ConversationRecord>): (r: seq<string>)
    ensures |r| == |records|
    ensures forall i :: 0 <= i < |records| ==> r[i] == records[i].question
  {
    seq(|records|, i requires 0 <= i < |records| => records[i].question)
  }

  // ---------------------------------------------------------------------------
  // source breakdown

  /** The object `reduce((acc, item) => { acc[item._id] = item.count })`
      builds: a later row with the same key overwrites an earlier one. */
  function BreakdownOf(groups: seq<Group>): map<string, nat> {
    if groups == [] then map[]
    else BreakdownOf(groups[..|groups| - 1])[groups[|groups| - 1].key := groups[|groups| - 1].count]
  }

  /** The `reduce` over the source groups. */
  method SourceBreakdown(groups: seq<Group>) returns (acc: map<string, nat>)
    ensures acc == BreakdownOf(groups)
  {
    acc := map[];
    for i := 0 to |groups|
      invariant acc == BreakdownOf(groups[..i])
    {
      assert groups[..i + 1][..i] == groups[..i];
      acc := acc[groups[i].key := groups[i].count];
    }
    assert groups[..|groups|] == groups;
  }

  /** The breakdown has exactly the groups' keys, and with distinct keys each
      maps to its own group's count. */
  lemma {:induction false} BreakdownHoldsGroups(groups: seq<Group>)
    requires forall i, j :: 0 <= i < j < |groups| ==> groups[i].key != groups[j].key
    ensures forall i :: 0 <= i < |groups| ==> groups[i].key in BreakdownOf(groups) && BreakdownOf(groups)[groups[i].key] == groups[i].count
    ensures forall k :: k in BreakdownOf(groups) ==> exists i :: 0 <= i < |groups| && groups[i].key == k
    decreases |groups|
  {
    if groups != [] {
      var init := groups[..|groups| - 1];
      BreakdownHoldsGroups(init);
    }
  }

  /** The breakdown's counts, over the distinct sources, add up to the total
      number of conversations in the window. */
  lemma BreakdownSumsToTotal(window: seq<ConversationRecord>)
    ensures var sources := Sources(window);
      SumAt(BreakdownOf(GroupCounts(sources)), Distinct(sources)) == |window|
  {
    var sources := Sources(window);
    var ds := Distinct(sources);
    var groups := GroupCounts(sources);
    assert groups == CountsOf(ds, sources);
    BreakdownHoldsGroups(groups);
    SumAtGroups(BreakdownOf(groups), ds, sources);
    DistinctOccurrencesSum(sources);
  }

  // ---------------------------------------------------------------------------
  // top questions

  const TopLimit: nat := 10

  /** The most frequent of `keys`: group, `$sort: { count: -1 }`,
      `$limit: 10`. */
  function TopOf(keys: seq<string>): (r: seq<Group>)
    ensures |r| <= TopLimit
    ensures SortedDesc(r, GroupCount)
  {
    var sorted := SortDesc(GroupCounts(keys), GroupCount);
    SkipLimitSorted(sorted, 0, TopLimit, GroupCount, (g: Group) => true);
    SkipLimit(sorted, 0, TopLimit)
  }

  /** The ten most asked questions of the window. */
  function TopQuestions(window: seq<ConversationRecord>): seq<Group> {
    TopOf(Questions(window))
  }

  /** Each listed key occurs, as often as its count says. */
  lemma TopOfCounted(keys: seq<string>)
    ensures var top := TopOf(keys);
      forall i :: 0 <= i < |top| ==> top[i].count == Occurrences(keys, top[i].key) && top[i].count > 0
  {
    SortedPageKeeps(GroupCounts(keys), GroupCount, TopLimit, (g: Group) => g.count == Occurrences(keys, g.key) && g.count > 0);
  }

  /** No key is listed twice. */
  lemma TopOfDistinct(keys: seq<string>)
    ensures var top := TopOf(keys);
      forall i, j :: 0 <= i < j < |top| ==> top[i].key != top[j].key
  {
    var groups := GroupCounts(keys);
    var sorted := SortDesc(groups, GroupCount);
    TopOfPrefix(keys);
    assert NoDuplicates(groups);
    PermutationNoDuplicates(sorted, groups);
    PrefixNoDuplicates(sorted, |TopOf(keys)|);
    TopOfCounted(keys);
    CountedKeysDistinct(TopOf(keys), keys);
  }

  /** The list is the start of the sorted groups. */
  lemma TopOfPrefix(keys: seq<string>)
    ensures |TopOf(keys)| <= |GroupCounts(keys)|
    ensures TopOf(keys) == SortDesc(GroupCounts(keys), GroupCount)[..|TopOf(keys)|]
  {
  }

  /** Different groups counted over the same keys have different keys. */
  lemma CountedKeysDistinct(top: seq<Group>, keys: seq<string>)
    requires NoDuplicates(top)
    requires forall i :: 0 <= i < |top| ==> top[i].count == Occurrences(keys, top[i].key)
    ensures forall i, j :: 0 <= i < j < |top| ==> top[i].key != top[j].key
  {
    forall i, j | 0 <= i < j < |top| ensures top[i].key != top[j].key {
      assert top[i] != top[j];
    }
  }

  /** A key left out of a full list occurs no more often than the last one
      listed; with ten distinct keys or fewer, none is left out. */
  lemma TopOfIsTop(keys: seq<string>, q: string)
    requires q in keys
    requires forall i :: 0 <= i < |TopOf(keys)| ==> TopOf(keys)[i].key != q
    ensures |TopOf(keys)| == TopLimit
    ensures Occurrences(keys, q) <= TopOf(keys)[TopLimit - 1].count
  {
    var groups := GroupCounts(keys);
    var sorted := SortDesc(groups, GroupCount);
    var g := GroupOf(keys, q);
    var top := TopOf(keys);
    assert top == SkipLimit(sorted, 0, TopLimit);
    forall i | 0 <= i < |top| ensures top[i] != groups[g] {
      assert top[i].key != q;
    }
    assert groups[g] in multiset(sorted);
    OffFirstPage(sorted, groups[g], TopLimit, GroupCount);
  }

  // ---------------------------------------------------------------------------
  // averages

  function SumReals(xs: seq<real>): real {
    if xs == [] then 0.0 else SumReals(xs[..|xs| - 1]) + xs[|xs| - 1]
  }

  /** `$avg`, or 0 when nothing qualifies (`?.avg || 0`). */
  function Mean(xs: seq<real>): real {
    if xs == [] then 0.0 else SumReals(xs) / |xs| as real
  }

  lemma {:induction false} SumRealsBounds(xs: seq<real>, lo: real, hi: real)
    requires forall i :: 0 <= i < |xs| ==> lo <= xs[i] <= hi
    ensures |xs| as real * lo <= SumReals(xs) <= |xs| as real * hi
    decreases |xs|
  {
    if xs != [] {
      SumRealsBounds(xs[..|xs| - 1], lo, hi);
    }
  }

  /** The mean lies between any bounds of the values. */
  lemma MeanBounds(xs: seq<real>, lo: real, hi: real)
    requires xs != [] && forall i :: 0 <= i < |xs| ==> lo <= xs[i] <= hi
    ensures lo <= Mean(xs) <= hi
  {
    SumRealsBounds(xs, lo, hi);
    var n := |xs| as real;
    assert SumReals(xs) / n >= lo by {
      assert SumReals(xs) >= n * lo;
    }
    assert SumReals(xs) / n <= hi by {
      assert SumReals(xs) <= n * hi;
    }
  }

  lemma {:induction false} SumRealsPositive(xs: seq<real>)
    requires xs != [] && forall i :: 0 <= i < |xs| ==> xs[i] > 0.0
    ensures SumReals(xs) > 0.0
    decreases |xs|
  {
    if |xs| > 1 {
      SumRealsPositive(xs[..|xs| - 1]);
    }
  }

  lemma QuotientPositive(a: real, b: real)
    requires a > 0.0 && b > 0.0
    ensures a / b > 0.0
  {
    assert (a / b) * b == a;
  }

  /** The values above zero, in order (`$match: { <field>: { $gt: 0 } }`). */
  function Positives(xs: seq<real>): (ps: seq<real>)
    ensures forall i :: 0 <= i < |ps| ==> ps[i] > 0.0
    ensures |ps| <= |xs|
  {
    if xs == [] then []
    else Positives(xs[..|xs| - 1]) + (if xs[|xs| - 1] > 0.0 then [xs[|xs| - 1]] else [])
  }

  lemma {:induction false} PositivesBounded(xs: seq<real>, hi: real)
    requires forall i :: 0 <= i < |xs| ==> xs[i] <= hi
    ensures forall i :: 0 <= i < |Positives(xs)| ==> Positives(xs)[i] <= hi
    ensures Positives(xs) == [] <==> forall i :: 0 <= i < |xs| ==> xs[i] <= 0.0
    decreases |xs|
  {
    if xs != [] {
      PositivesBounded(xs[..|xs| - 1], hi);
    }
  }

  /** The average of the positive values is 0 exactly when there are none,
      and otherwise above 0 and no more than any bound of the values. */
  lemma MeanOfPositives(xs: seq<real>, hi: real)
    requires forall i :: 0 <= i < |xs| ==> xs[i] <= hi
    ensures var avg := Mean(Positives(xs));
      && (avg == 0.0 <==> forall i :: 0 <= i < |xs| ==> xs[i] <= 0.0)
      && (avg != 0.0 ==> 0.0 < avg <= hi)
  {
    var ps := Positives(xs);
    PositivesBounded(xs, hi);
    if ps != [] {
      MeanBounds(ps, 0.0, hi);
      SumRealsPositive(ps);
      QuotientPositive(SumReals(ps), |ps| as real);
    }
  }

  function Confidences(window: seq<ConversationRecord>): (xs: seq<real>)
    ensures |xs| == |window|
    ensures forall i :: 0 <= i < |window| ==> xs[i] == window[i].confidence
  {
    seq(|window|, i requires 0 <= i < |window| => window[i].confidence)
  }

  function ResponseTimes(window: seq<ConversationRecord>): (xs: seq<real>)
    ensures |xs| == |window|
    ensures forall i :: 0 <= i < |window| ==> xs[i] == window[i].responseTime as real
  {
    seq(|window|, i requires 0 <= i < |window| => window[i].responseTime as real)
  }

  /** The average confidence counts only confidences above zero: for saved
      records it is 0 exactly when every confidence is 0, and otherwise above
      0 and at most 1. */
  lemma AverageConfidenceRange(window: seq<ConversationRecord>)
    requires forall i :: 0 <= i < |window| ==> Validates(window[i])
    ensures var avg := Mean(Positives(Confidences(window)));
      && (avg == 0.0 <==> forall i :: 0 <= i < |window| ==> window[i].confidence == 0.0)
      && 0.0 <= avg <= 1.0
  {
    var xs := Confidences(window);
    assert forall i :: 0 <= i < |xs| ==> 0.0 <= xs[i] <= 1.0;
    MeanOfPositives(xs, 1.0);
  }

  /** The average response time counts only positive times: it is 0 exactly
      when no time is positive, and otherwise within the longest time. */
  lemma AverageResponseTimeRange(window: seq<ConversationRecord>, longest: int)
    requires forall i :: 0 <= i < |window| ==> window[i].responseTime <= longest
    ensures var avg := Mean(Positives(ResponseTimes(window)));
      && (avg == 0.0 <==> forall i :: 0 <= i < |window| ==> window[i].responseTime <= 0)
      && (avg != 0.0 ==> 0.0 < avg <= longest as real)
  {
    MeanOfPositives(ResponseTimes(window), longest as real);
  }

  // ---------------------------------------------------------------------------
  // daily statistics

  function DatesOf(records: seq<ConversationRecord>): (r: seq<Date>)
    ensures |r| == |records|
    ensures forall i :: 0 <= i < |records| ==> r[i] == DateOf(records[i].createdAt)
  {
    seq(|records|, i requires 0 <= i < |records| => DateOf(records[i].createdAt))
  }

  /** The dates of the records whose source is `source`. */
  function DatesWith(records: seq<ConversationRecord>, source: string): seq<Date> {
    if records == [] then []
    else
      var last := records[|records| - 1];
      DatesWith(records[..|records| - 1], source) + (if last.source == source then [DateOf(last.createdAt)] else [])
  }

  /** A `$group` row of the daily statistics. */
  datatype DayGroup = DayGroup(date: Date, count: nat, ragCount: nat, externalCount: nat)

  function DayGroupsOf(ds: seq<Date>, window: seq<ConversationRecord>): (r: seq<DayGroup>)
    ensures |r| == |ds|
    ensures forall i :: 0 <= i < |ds| ==>
      r[i] == DayGroup(ds[i], multiset(DatesOf(window))[ds[i]],
                       multiset(DatesWith(window, "RAG"))[ds[i]], multiset(DatesWith(window, "External"))[ds[i]])
  {
    seq(|ds|, i requires 0 <= i < |ds| =>
      DayGroup(ds[i], multiset(DatesOf(window))[ds[i]],
               multiset(DatesWith(window, "RAG"))[ds[i]], multiset(DatesWith(window, "External"))[ds[i]]))
  }

  function DayOrder(g: DayGroup): int { -DateKey(g.date) }

  /** Group by calendar day, then `$sort` by year, month and day. */
  function DayGroups(window: seq<ConversationRecord>): (r: seq<DayGroup>)
    ensures SortedDesc(r, DayOrder)
  {
    SortDesc(DayGroupsOf(Distinct(DatesOf(window)), window), DayOrder)
  }

  datatype DailyStat = DailyStat(date: string, total: nat, rag: nat, external: nat)

  /** The `dailyStats` entries: each row with its date written out. */
  function DailyStats(window: seq<ConversationRecord>): (r: seq<DailyStat>)
    ensures |r| == |DayGroups(window)|
    ensures forall i :: 0 <= i < |r| ==>
      var g := DayGroups(window)[i];
      r[i] == DailyStat(DateString(g.date), g.count, g.ragCount, g.externalCount)
  {
    var groups := DayGroups(window);
    seq(|groups|, i requires 0 <= i < |groups| =>
      DailyStat(DateString(groups[i].date), groups[i].count, groups[i].ragCount, groups[i].externalCount))
  }

  /** The RAG and External records of a day are among that day's records. */
  lemma {:induction false} SourceDatesWithinDates(records: seq<ConversationRecord>)
    ensures multiset(DatesWith(records, "RAG")) + multiset(DatesWith(records, "External")) <= multiset(DatesOf(records))
    decreases |records|
  {
    if records != [] {
      var init := records[..|records| - 1];
      var last := records[|records| - 1];
      SourceDatesWithinDates(init);
      DatesOfSnoc(records);
      SourceStep(DatesOf(init), DatesWith(init, "RAG"), DatesWith(init, "External"), DateOf(last.createdAt),
                 last.source == "RAG", last.source == "External");
    }
  }

  lemma DatesOfSnoc(records: seq<ConversationRecord>)
    requires records != []
    ensures DatesOf(records) == DatesOf(records[..|records| - 1]) + [DateOf(records[|records| - 1].createdAt)]
  {
  }

  /** One more date, counted under at most one source, keeps the sources'
      dates within all dates. */
  lemma SourceStep(all: seq<Date>, rag: seq<Date>, ext: seq<Date>, d: Date, toRag: bool, toExt: bool)
    requires !(toRag && toExt)
    requires multiset(rag) + multiset(ext) <= multiset(all)
    ensures multiset(rag + (if toRag then [d] else [])) + multiset(ext + (if toExt then [d] else [])) <= multiset(all + [d])
  {
    assert multiset(all + [d]) == multiset(all) + multiset{d};
    if toRag {
      assert multiset(rag + [d]) == multiset(rag) + multiset{d};
      assert ext + [] == ext;
    } else if toExt {
      assert multiset(ext + [d]) == multiset(ext) + multiset{d};
      assert rag + [] == rag;
    } else {
      assert rag + [] == rag;
      assert ext + [] == ext;
    }
  }

  /** Each day's RAG and External counts add up to at most its total. */
  lemma DailySourcesWithinTotal(window: seq<ConversationRecord>)
    ensures forall i :: 0 <= i < |DailyStats(window)| ==>
      DailyStats(window)[i].rag + DailyStats(window)[i].external <= DailyStats(window)[i].total
  {
    DayGroupsWithinTotal(window);
    var groups := DayGroups(window);
    forall i | 0 <= i < |DailyStats(window)|
      ensures DailyStats(window)[i].rag + DailyStats(window)[i].external <= DailyStats(window)[i].total
    {
      assert WithinTotal(groups[i]);
    }
  }

  predicate WithinTotal(g: DayGroup) {
    g.ragCount + g.externalCount <= g.count
  }

  lemma DayGroupsWithinTotal(window: seq<ConversationRecord>)
    ensures forall i :: 0 <= i < |DayGroups(window)| ==> WithinTotal(DayGroups(window)[i])
  {
    UnsortedGroupsWithinTotal(window);
    PermutationKeeps(DayGroups(window), DayGroupsOf(Distinct(DatesOf(window)), window), WithinTotal);
  }

  lemma UnsortedGroupsWithinTotal(window: seq<ConversationRecord>)
    ensures forall j :: 0 <= j < |DayGroupsOf(Distinct(DatesOf(window)), window)| ==>
      WithinTotal(DayGroupsOf(Distinct(DatesOf(window)), window)[j])
  {
    SourceDatesWithinDates(window);
    var groups := DayGroupsOf(Distinct(DatesOf(window)), window);
    forall j | 0 <= j < |groups| ensures WithinTotal(groups[j]) {
      MultisetSumAt(multiset(DatesWith(window, "RAG")), multiset(DatesWith(window, "External")),
                    multiset(DatesOf(window)), groups[j].date);
    }
  }

  lemma MultisetSumAt<T>(a: multiset<T>, b: multiset<T>, c: multiset<T>, x: T)
    requires a + b <= c
    ensures a[x] + b[x] <= c[x]
  {
  }

  /** The days' totals add up to the number of conversations in the
      window. */
  lemma DailyTotalsSum(window: seq<ConversationRecord>)
    ensures SumTotals(DailyStats(window)) == |window|
  {
    var dates := DatesOf(window);
    var ds := Distinct(dates);
    var groups := DayGroupsOf(ds, window);
    var sorted := DayGroups(window);
    SumDayCounts(ds, window);
    DistinctOccurrencesSum(dates);
    SumOfPermutation(sorted, groups, DayCount);
    SumTotalsOfStats(window);
  }

  function SumTotals(stats: seq<DailyStat>): nat {
    if stats == [] then 0 else SumTotals(stats[..|stats| - 1]) + stats[|stats| - 1].total
  }

  function DayCount(g: DayGroup): int { g.count }

  lemma {:induction false} SumDayCounts(ds: seq<Date>, window: seq<ConversationRecord>)
    ensures SumOf(DayGroupsOf(ds, window), DayCount) == SumOccurrences(ds, DatesOf(window))
    decreases |ds|
  {
    if ds != [] {
      SumDayCounts(ds[..|ds| - 1], window);
      assert DayGroupsOf(ds, window)[..|ds| - 1] == DayGroupsOf(ds[..|ds| - 1], window);
    }
  }

  lemma {:induction false} SumTotalsOfStats(window: seq<ConversationRecord>)
    ensures SumTotals(DailyStats(window)) == SumOf(DayGroups(window), DayCount)
  {
    var groups := DayGroups(window);
    var stats := DailyStats(window);
    SumTotalsMap(stats, groups);
  }

  lemma {:induction false} SumTotalsMap(stats: seq<DailyStat>, groups: seq<DayGroup>)
    requires |stats| == |groups| && forall i :: 0 <= i < |stats| ==> stats[i].total == groups[i].count
    ensures SumTotals(stats) == SumOf(groups, DayCount)
    decreases |stats|
  {
    if stats != [] {
      SumTotalsMap(stats[..|stats| - 1], groups[..|groups| - 1]);
    }
  }

  /** The days come in calendar order: no entry's date is before an earlier
      entry's. */
  lemma DailyStatsAscending(window: seq<ConversationRecord>)
    ensures forall i, j :: 0 <= i < j < |DayGroups(window)| ==> !Before(DayGroups(window)[j].date, DayGroups(window)[i].date)
  {
    var groups := DayGroups(window);
    var unsorted := DayGroupsOf(Distinct(DatesOf(window)), window);
    PermutationKeeps(groups, unsorted, (g: DayGroup) => ValidDate(g.date));
    forall i, j | 0 <= i < j < |groups| ensures !Before(groups[j].date, groups[i].date) {
      DateKeyOrder(groups[j].date, groups[i].date);
    }
  }

  /** From 1970 on, every daily date reads back as its date. */
  lemma DailyDatesReadBack(window: seq<ConversationRecord>)
    requires forall i :: 0 <= i < |window| ==> window[i].createdAt >= 0
    ensures forall i :: 0 <= i < |DailyStats(window)| ==>
      ParseDate(DailyStats(window)[i].date) == Some(DayGroups(window)[i].date)
  {
    DayGroupsWritable(window);
    var groups := DayGroups(window);
    forall i | 0 <= i < |groups| ensures ParseDate(DateString(groups[i].date)) == Some(groups[i].date) {
      assert Writable(groups[i]);
      ParseDateString(groups[i].date);
    }
  }

  /** A day whose date `DateString` writes in a form `ParseDate` reads. */
  predicate Writable(g: DayGroup) {
    ValidDate(g.date) && g.date.year >= 0
  }

  lemma DayGroupsWritable(window: seq<ConversationRecord>)
    requires forall i :: 0 <= i < |window| ==> window[i].createdAt >= 0
    ensures forall i :: 0 <= i < |DayGroups(window)| ==> Writable(DayGroups(window)[i])
  {
    UnsortedGroupsWritable(window);
    PermutationKeeps(DayGroups(window), DayGroupsOf(Distinct(DatesOf(window)), window), Writable);
  }

  lemma UnsortedGroupsWritable(window: seq<ConversationRecord>)
    requires forall i :: 0 <= i < |window| ==> window[i].createdAt >= 0
    ensures forall j :: 0 <= j < |DayGroupsOf(Distinct(DatesOf(window)), window)| ==>
      Writable(DayGroupsOf(Distinct(DatesOf(window)), window)[j])
  {
    var dates := DatesOf(window);
    var groups := DayGroupsOf(Distinct(dates), window);
    forall j | 0 <= j < |groups| ensures Writable(groups[j]) {
      var k :| 0 <= k < |dates| && dates[k] == groups[j].date;
      DateOfEpochOn(window[k].createdAt);
    }
  }

  /** Timestamps from the epoch on fall in 1970 or later. */
  lemma DateOfEpochOn(t: int)
    requires t >= 0
    ensures DateOf(t).year >= 1970
  {
    YearDayForward(1970, t / DayMs);
  }

  lemma {:induction false} YearDayForward(y: int, days: int)
    requires days >= 0
    ensures YearDay(y, days).0 >= y
    decreases days
  {
    if days >= YearLength(y) {
      YearDayForward(y + 1, days - YearLength(y));
    }
  }

  // ---------------------------------------------------------------------------
  // the report

  datatype Analytics = Analytics(
    totalConversations: nat,
    sourceBreakdown: map<string, nat>,
    topQuestions: seq<Group>,
    averageConfidence: real,
    averageResponseTime: real,
    dailyStats: seq<DailyStat>)

  /** `getAnalytics(timeRange)` at time `now`. */
  method GetAnalytics(records: seq<ConversationRecord>, timeRange: string, now: int) returns (a: Analytics)
    ensures var window := Window(records, WindowStart(now, timeRange));
      && a.totalConversations == |window|
      && a.sourceBreakdown == BreakdownOf(GroupCounts(Sources(window)))
      && a.topQuestions == TopQuestions(window)
      && a.averageConfidence == Mean(Positives(Confidences(window)))
      && a.averageResponseTime == Mean(Positives(ResponseTimes(window)))
      && a.dailyStats == DailyStats(window)
  {
    var window := Window(records, WindowStart(now, timeRange));
    var breakdown := SourceBreakdown(GroupCounts(Sources(window)));
    a := Analytics(
      |window|, breakdown, TopQuestions(window),
      Mean(Positives(Confidences(window))), Mean(Positives(ResponseTimes(window))),
      DailyStats(window));
  }
}

=== FILE: log_service.dfy ===
/** The conversation ledger: saving a question and its answer together with
    the asking user's statistics, and the filtered, paged listing of saved
    conversations. The collections are the class `Ledger`; its state as a
    value is `LedgerState`, on which the pure specification works. */
module LogService {
  import opened Wrappers
  import opened Tally
  import opened DocumentModel
  import opened ConversationLogModel
  import opened UserModel
  import opened AgentService

  /** The `metadata` a caller passes; `None` is a key left out or set to
      `undefined`. Keys the schema does not declare are not listed: strict
      mode drops them. */
  datatype MetadataInput = MetadataInput(platform: Option<string>, sessionId: Option<string>, userAgent: Option<string>)

  /** The argument of `saveConversation`. A missing required string is the
      empty string, which the `required` check treats the same way. */
  datatype SaveRequest = SaveRequest(
    userId: string,
    question: string,
    answer: string,
    source: string,
    sourceDetails: Option<SourceDetails>,
    confidence: Option<real>,
    responseTime: Option<int>,
    metadata: MetadataInput)

  /** What the strict schema keeps of the answer's `sourceDetails`: the three
      declared keys of each document entry, the API name and the tier name;
      an error object keeps nothing. */
  function StoredDetails(d: Details): (s: SourceDetails)
    ensures d.ErrorDetails? ==> s == NoDetails
    ensures d.Details? ==> |s.ragDocuments| == |d.ragDocuments| && s.externalApi == d.externalApi
    ensures d.Details? ==> forall i :: 0 <= i < |d.ragDocuments| ==>
      s.ragDocuments[i] == RagDocument(d.ragDocuments[i].documentId, d.ragDocuments[i].chunkIndex, d.ragDocuments[i].similarity)
    ensures d.Details? ==> (s.tier.Some? <==> d.tier.Some?)
  {
    match d
    case ErrorDetails(_) => NoDetails
    case Details(docs, api, tier) =>
      SourceDetails(
        seq(|docs|, i requires 0 <= i < |docs| => RagDocument(docs[i].documentId, docs[i].chunkIndex, docs[i].similarity)),
        api,
        if tier.Some? then Some(TierName(tier.value)) else None)
  }

  /** The record `new ConversationLog({...})` builds as the `id`-th record at
      time `now`: `sourceDetails` defaults to `{}`, `confidence` and
      `responseTime` to 0, and `metadata.platform` to 'LINE' unless the
      caller's metadata sets it. */
  function NewRecord(id: nat, req: SaveRequest, now: int): (r: ConversationRecord)
    ensures r.id == id && r.createdAt == now
    ensures r.userId == req.userId && r.question == req.question && r.answer == req.answer && r.source == req.source
    ensures req.sourceDetails.None? ==> r.sourceDetails == NoDetails
    ensures req.confidence.None? ==> r.confidence == 0.0
    ensures req.responseTime.None? ==> r.responseTime == 0
    ensures req.metadata.platform.None? ==> r.metadata.platform == DefaultPlatform
    ensures req.metadata.platform.Some? ==> r.metadata.platform == req.metadata.platform.value
  {
    ConversationRecord(
      id, req.userId, req.question, req.answer, req.source,
      req.sourceDetails.GetOr(NoDetails),
      req.confidence.GetOr(0.0),
      req.responseTime.GetOr(0),
      LogMetadata(req.metadata.platform.GetOr(DefaultPlatform), req.metadata.sessionId, req.metadata.userAgent),
      now)
  }

  /** The `saveConversation` argument a route builds from an answer of
      `processQuestion`: its text, label, details and confidence, the
      measured response time and the route's metadata. */
  function AnswerRecord(userId: string, question: string, a: Answer, responseTime: int, metadata: MetadataInput): SaveRequest {
    SaveRequest(userId, question, a.answer, LabelName(a.source), Some(StoredDetails(a.sourceDetails)),
                Some(a.confidence), Some(responseTime), metadata)
  }

  /** The saved conversations, the users keyed by LINE id, and the next
      record id. */
  datatype LedgerState = LedgerState(records: seq<ConversationRecord>, users: map<string, UserRecord>, nextId: nat)

  /** Record ids are unique and below `nextId`, every saved record passed
      validation, and the users are keyed by their own ids. */
  ghost predicate Consistent(s: LedgerState) {
    && (forall i, j :: 0 <= i < j < |s.records| ==> s.records[i].id != s.records[j].id)
    && (forall i :: 0 <= i < |s.records| ==> s.records[i].id < s.nextId)
    && (forall i :: 0 <= i < |s.records| ==> Validates(s.records[i]))
    && UsersKeyed(s.users)
  }

  /** The user the upsert starts from: the stored one, or a new one with
      every default. */
  function UserOr(users: map<string, UserRecord>, id: string): (u: UserRecord)
    ensures u.lineUserId == id || id in users
  {
    if id in users then users[id] else NewUser(id)
  }

  /** `updateUserStats(userId)` at time `now`: the upsert with `$inc` and
      `$set`; when the write does not reach the database the error is
      swallowed and nothing changes. */
  function UpdateUserStats(users: map<string, UserRecord>, id: string, now: int, written: bool): map<string, UserRecord> {
    if written then users[id := Touch(UserOr(users, id), now)] else users
  }

  datatype SaveOutcome = SaveOutcome(state: LedgerState, result: Result<ConversationRecord, string>)

  /** `saveConversation(data)` at time `now`: validate and append the record,
      then update the user's statistics; `statsWritten` says whether that
      update reached the database. */
  function Save(s: LedgerState, req: SaveRequest, now: int, statsWritten: bool): (o: SaveOutcome)
    ensures var rec := NewRecord(s.nextId, req, now);
      && (o.result.Success? <==> ValidationError(rec).None?)
      && (o.result.Failure? ==> o.state == s && o.result.error == ValidationError(rec).value)
      && (o.result.Success? ==> o.result.value == rec && o.state.records == s.records + [rec] && o.state.nextId == s.nextId + 1)
  {
    var rec := NewRecord(s.nextId, req, now);
    match ValidationError(rec)
    case Some(e) => SaveOutcome(s, Failure(e))
    case None =>
      SaveOutcome(
        LedgerState(s.records + [rec], UpdateUserStats(s.users, req.userId, now, statsWritten), s.nextId + 1),
        Success(rec))
  }

  /** A successful save raises the asking user's count by one and stamps the
      time, creating the user when absent, and leaves every other user as it
      was; a failed statistics write leaves all users as they were. */
  lemma SaveTouchesOneUser(s: LedgerState, req: SaveRequest, now: int, statsWritten: bool, other: string)
    requires Save(s, req, now, statsWritten).result.Success?
    ensures var users := Save(s, req, now, statsWritten).state.users;
      && (statsWritten ==>
            && req.userId in users
            && users[req.userId].totalQuestions == (if req.userId in s.users then s.users[req.userId].totalQuestions else 0) + 1
            && users[req.userId].lastActive == Some(now))
      && (!statsWritten ==> users == s.users)
      && (other != req.userId ==> (other in users <==> other in s.users))
      && (other != req.userId && other in s.users ==> users[other] == s.users[other])
  {
  }

  /** Saving keeps the ledger consistent. */
  lemma SaveKeepsConsistent(s: LedgerState, req: SaveRequest, now: int, statsWritten: bool)
    requires Consistent(s)
    ensures Consistent(Save(s, req, now, statsWritten).state)
  {
    var o := Save(s, req, now, statsWritten);
    if o.result.Success? {
      var rec := o.result.value;
      assert rec.userId != [];
      forall id | id in o.state.users ensures id != [] && o.state.users[id].lineUserId == id {
      }
    }
  }

  /** How many saved records belong to user `u`. */
  function QuestionsOf(records: seq<ConversationRecord>, u: string): (n: nat)
    ensures n <= |records|
  {
    if records == [] then 0
    else QuestionsOf(records[..|records| - 1], u) + (if records[|records| - 1].userId == u then 1 else 0)
  }

  /** Every user's `totalQuestions` is the number of saved records that are
      theirs, and every record's user exists. */
  ghost predicate StatsMatch(s: LedgerState) {
    CountsMatch(s.records, s.users)
  }

  ghost predicate CountsMatch(records: seq<ConversationRecord>, users: map<string, UserRecord>) {
    && (forall u :: u in users ==> users[u].totalQuestions == QuestionsOf(records, u))
    && (forall i :: 0 <= i < |records| ==> records[i].userId in users)
  }

  /** While every statistics write succeeds, the statistics count exactly the
      saved records of each user. */
  lemma SaveKeepsStatsMatch(s: LedgerState, req: SaveRequest, now: int)
    requires StatsMatch(s)
    ensures StatsMatch(Save(s, req, now, true).state)
  {
    var o := Save(s, req, now, true);
    if o.result.Success? {
      AppendKeepsCounts(s.records, s.users, o.result.value, now);
    }
  }

  /** Appending a record and touching its user keeps the counts exact. */
  lemma AppendKeepsCounts(records: seq<ConversationRecord>, users: map<string, UserRecord>, rec: ConversationRecord, now: int)
    requires CountsMatch(records, users)
    ensures CountsMatch(records + [rec], users[rec.userId := Touch(UserOr(users, rec.userId), now)])
  {
    var recs := records + [rec];
    var users' := users[rec.userId := Touch(UserOr(users, rec.userId), now)];
    assert recs[..|recs| - 1] == records;
    forall u | u in users'
      ensures users'[u].totalQuestions == QuestionsOf(recs, u)
    {
      if u == rec.userId && u !in users {
        QuestionsOfAbsent(records, u);
      }
    }
  }

  /** A user who owns no record has no questions counted. */
  lemma {:induction false} QuestionsOfAbsent(records: seq<ConversationRecord>, u: string)
    requires forall i :: 0 <= i < |records| ==> records[i].userId != u
    ensures QuestionsOf(records, u) == 0
  {
    if records != [] {
      QuestionsOfAbsent(records[..|records| - 1], u);
    }
  }

  /** Only answers labelled 'RAG' or 'External' are saved: 'Hybrid' and
      'Error' are not values of the schema's source enumeration. */
  lemma SavedAnswerLabel(s: LedgerState, userId: string, question: string, a: Answer, responseTime: int,
                         metadata: MetadataInput, now: int, statsWritten: bool)
    ensures Save(s, AnswerRecord(userId, question, a, responseTime, metadata), now, statsWritten).result.Success? ==>
      a.source == RagLabel || a.source == ExternalLabel
  {
    var req := AnswerRecord(userId, question, a, responseTime, metadata);
    if a.source == HybridLabel || a.source == ErrorLabel {
      HybridAndErrorAreRejected(NewRecord(s.nextId, req, now));
    }
  }

  /** What the schema demands of an answer before it can be saved: a user,
      a question and an answer text, a label the enum lists, and a
      confidence within [0, 1]. */
  predicate Loggable(userId: string, question: string, a: Answer) {
    && userId != [] && question != [] && a.answer != []
    && (a.source == RagLabel || a.source == ExternalLabel)
    && 0.0 <= a.confidence <= 1.0
  }

  /** Saving an answer succeeds exactly when it is loggable, whatever the
      ledger, the time, the response time and the metadata. */
  lemma SaveAnswerIff(s: LedgerState, userId: string, question: string, a: Answer, responseTime: int,
                      metadata: MetadataInput, now: int, statsWritten: bool)
    ensures Save(s, AnswerRecord(userId, question, a, responseTime, metadata), now, statsWritten).result.Success?
      <==> Loggable(userId, question, a)
  {
    var rec := NewRecord(s.nextId, AnswerRecord(userId, question, a, responseTime, metadata), now);
    assert rec.source == LabelName(a.source);
  }

  /** The empty ledger is consistent and its statistics match. */
  lemma EmptyLedger()
    ensures Consistent(LedgerState([], map[], 0)) && StatsMatch(LedgerState([], map[], 0))
  {
  }

  /** The stored conversations and users. */
  class Ledger {
    var records: seq<ConversationRecord>
    var users: map<string, UserRecord>
    var nextId: nat

    function State(): LedgerState
      reads this
    {
      LedgerState(records, users, nextId)
    }

    ghost predicate Valid()
      reads this
    {
      Consistent(State())
    }

    constructor()
      ensures Valid() && records == [] && users == map[] && nextId == 0
    {
      records := [];
      users := map[];
      nextId := 0;
    }

    /** `saveConversation(data)`. */
    method SaveConversation(req: SaveRequest, now: int, statsWritten: bool) returns (r: Result<ConversationRecord, string>)
      requires Valid()
      modifies this
      ensures Valid()
      ensures SaveOutcome(State(), r) == Save(old(State()), req, now, statsWritten)
    {
      SaveKeepsConsistent(State(), req, now, statsWritten);
      var rec := NewRecord(nextId, req, now);
      var invalid := ValidationError(rec);
      if invalid.Some? {
        return Failure(invalid.value);
      }
      records := records + [rec];
      if statsWritten {
        var user := if req.userId in users then users[req.userId] else NewUser(req.userId);
        users := users[req.userId := Touch(user, now)];
      }
      nextId := nextId + 1;
      r := Success(rec);
    }
  }

  // ---------------------------------------------------------------------------
  // the listing

  /** The filters of `getConversationLogs`. An empty string is a filter left
      out (it is falsy); the dates are the parsed timestamps. */
  datatype LogFilters = LogFilters(
    userId: string,
    source: string,
    startDate: Option<int>,
    endDate: Option<int>,
    search: string)

  const NoFilters: LogFilters := LogFilters("", "", None, None, "")

  /** The query a record must satisfy. `regex(pattern, text)` stands for a
      case-insensitive regular-expression match. */
  predicate Matches(r: ConversationRecord, f: LogFilters, regex: (string, string) -> bool) {
    && (f.userId == "" || r.userId == f.userId)
    && (f.source == "" || r.source == f.source)
    && (f.startDate.None? || r.createdAt >= f.startDate.value)
    && (f.endDate.None? || r.createdAt <= f.endDate.value)
    && (f.search == "" || regex(f.search, r.question) || regex(f.search, r.answer))
  }

  function CreatedAt(r: ConversationRecord): int { r.createdAt }

  /** The matching records, newest first. */
  function Newest(records: seq<ConversationRecord>, f: LogFilters, regex: (string, string) -> bool): (r: seq<ConversationRecord>)
    ensures |r| == Count(records, (x: ConversationRecord) => Matches(x, f, regex))
    ensures forall i :: 0 <= i < |r| ==> Matches(r[i], f, regex)
    ensures multiset(r) <= multiset(records)
    ensures SortedDesc(r, CreatedAt)
  {
    var kept := Filter(records, (x: ConversationRecord) => Matches(x, f, regex));
    var r := SortDesc(kept, CreatedAt);
    PermutationKeeps(r, kept, (x: ConversationRecord) => Matches(x, f, regex));
    r
  }

  /** `Math.ceil(a / b)`. */
  function CeilDiv(a: nat, b: int): int
    requires b != 0
  {
    if b > 0 then (a + b - 1) / b else -(a / -b)
  }

  /** For a positive divisor, `CeilDiv` is the least number of pages of `b`
      that holds `a` items. */
  lemma CeilDivBounds(a: nat, b: int)
    requires b > 0
    ensures CeilDiv(a, b) >= 0
    ensures CeilDiv(a, b) * b >= a
    ensures (CeilDiv(a, b) - 1) * b < a || a == 0
  {
    var q := (a + b - 1) / b;
    var m := (a + b - 1) % b;
    assert a + b - 1 == q * b + m;
  }

  /** `.limit(n)`: zero means no limit and a negative limit is its absolute
      value. */
  function LimitOf(limit: int): nat {
    if limit < 0 then -limit else limit
  }

  datatype LogPage = LogPage(logs: seq<ConversationRecord>, page: int, limit: int, total: nat, pages: Option<int>)

  const NegativeSkipError: string := "skip value must be non-negative"

  /** `getConversationLogs({ ...filters, page, limit })`: the matching
      records, newest first, after skipping `(page - 1) * limit` of them and
      keeping at most `limit`; `total` counts every match; `pages` is
      `ceil(total / limit)` (`None` when `limit` is 0 and the division gives
      no number). A negative skip is refused by the database. */
  function GetConversationLogs(records: seq<ConversationRecord>, f: LogFilters, page: int, limit: int, regex: (string, string) -> bool)
    : (r: Result<LogPage, string>)
    ensures r.Failure? <==> (page - 1) * limit < 0
    ensures r.Success? ==>
      && r.value.page == page && r.value.limit == limit
      && r.value.total == Count(records, (x: ConversationRecord) => Matches(x, f, regex))
      && (limit != 0 ==> |r.value.logs| <= LimitOf(limit))
      && (r.value.pages.Some? <==> limit != 0)
  {
    var skip := (page - 1) * limit;
    if skip < 0 then Failure(NegativeSkipError)
    else
      var all := Newest(records, f, regex);
      var logs := SkipLimit(all, skip, LimitOf(limit));
      Success(LogPage(logs, page, limit, |all|, if limit == 0 then None else Some(CeilDiv(|all|, limit))))
  }

  /** Every listed record satisfies the filters, the page is newest first,
      and it holds records of the ledger only, each as often as stored at
      most. */
  lemma ListedLogs(records: seq<ConversationRecord>, f: LogFilters, page: int, limit: int, regex: (string, string) -> bool)
    requires GetConversationLogs(records, f, page, limit, regex).Success?
    ensures var logs := GetConversationLogs(records, f, page, limit, regex).value.logs;
      && (forall i :: 0 <= i < |logs| ==> Matches(logs[i], f, regex))
      && SortedDesc(logs, CreatedAt)
      && multiset(logs) <= multiset(records)
  {
    var skip := (page - 1) * limit;
    var all := Newest(records, f, regex);
    var logs := SkipLimit(all, skip, LimitOf(limit));
    assert logs == GetConversationLogs(records, f, page, limit, regex).value.logs;
    SkipLimitSorted(all, skip, LimitOf(limit), CreatedAt, (x: ConversationRecord) => Matches(x, f, regex));
    MultisetSubsetTrans(multiset(logs), multiset(all), multiset(records));
  }

  lemma MultisetSubsetTrans<T>(a: multiset<T>, b: multiset<T>, c: multiset<T>)
    requires a <= b && b <= c
    ensures a <= c
  {
  }

  /** The `k`-th item is on page `k / limit + 1`, and there are at least
      that many pages of `n > k` items. */
  lemma PageOfItem(k: nat, n: nat, limit: int)
    requires limit > 0 && k < n
    ensures k / limit >= 0
    ensures 0 <= (k / limit) * limit <= k < (k / limit) * limit + limit
    ensures k / limit + 1 <= CeilDiv(n, limit)
  {
    var q := k / limit;
    assert k == q * limit + k % limit && 0 <= k % limit < limit;
    CeilDivBounds(n, limit);
    var c := CeilDiv(n, limit);
    assert c * limit > q * limit;
    ProductOrder(c, q, limit);
  }

  /** Multiplying by a positive number keeps strict order. */
  lemma ProductOrder(a: int, b: int, m: int)
    requires m > 0 && a * m > b * m
    ensures a > b
  {
    assert (a - b) * m == a * m - b * m;
  }

  /** With a positive limit, the `k`-th newest match is on page
      `k / limit + 1`, which is within `pages`: paging loses no match. */
  lemma MatchIsOnItsPage(records: seq<ConversationRecord>, f: LogFilters, limit: int, regex: (string, string) -> bool, k: nat)
    requires limit > 0 && k < |Newest(records, f, regex)|
    ensures var page := k / limit + 1;
      var r := GetConversationLogs(records, f, page, limit, regex);
      && r.Success?
      && Newest(records, f, regex)[k] in r.value.logs
      && 1 <= page <= r.value.pages.value
  {
    var all := Newest(records, f, regex);
    var q := k / limit;
    PageOfItem(k, |all|, limit);
    var skip: nat := q * limit;
    SkipLimitHolds(all, skip, LimitOf(limit), k);
    var page := q + 1;
    assert skip == (page - 1) * limit;
    PageIsSlice(records, f, page, limit, regex, skip);
  }

  /** A page from the first on, with a positive limit, is the slice of the
      newest matches after `skip`. */
  lemma PageIsSlice(records: seq<ConversationRecord>, f: LogFilters, page: int, limit: int, regex: (string, string) -> bool, skip: nat)
    requires limit > 0 && page >= 1 && skip == (page - 1) * limit
    ensures var all := Newest(records, f, regex);
      GetConversationLogs(records, f, page, limit, regex)
        == Success(LogPage(SkipLimit(all, skip, limit), page, limit, |all|, Some(CeilDiv(|all|, limit))))
  {
  }

  /** Without filters every record matches, so `total` is the number of
      records. */
  lemma NoFiltersMatchAll(records: seq<ConversationRecord>, regex: (string, string) -> bool)
    ensures forall i :: 0 <= i < |records| ==> Matches(records[i], NoFilters, regex)
    ensures |Newest(records, NoFilters, regex)| == |records|
  {
    CountAll(records, (x: ConversationRecord) => Matches(x, NoFilters, regex));
  }
}

=== FILE: logs_route.dfy ===
/** The conversation-log routes: the filtered listing, the analytics report,
    one log by id, and the CSV export. */
module LogsRoute {
  import opened Wrappers
  import opened Text
  import opened Tally
  import opened Csv
  import opened Calendar
  import opened ConversationLogModel
  import opened LogService
  import opened LogAnalytics
  import opened Http

  // ---------------------------------------------------------------------------
  // query parameters

  /** A date bound is usable when it is not given, or when `toDate`, which
      stands for `new Date(s)`, reads it; an invalid date cannot be cast
      for the query and the database refuses it. */
  predicate DateReadable(x: Option<string>, toDate: string -> Option<int>) {
    !Given(x) || toDate(x.value).Some?
  }

  function DateFilter(x: Option<string>, toDate: string -> Option<int>): Option<int> {
    if Given(x) then toDate(x.value) else None
  }

  /** The filters the listing and the export pass on: falsy parameters are
      left out. */
  function FiltersOf(userId: Option<string>, source: Option<string>, startDate: Option<string>, endDate: Option<string>,
                     search: Option<string>, toDate: string -> Option<int>): (f: Option<LogFilters>)
    ensures f.Some? <==> DateReadable(startDate, toDate) && DateReadable(endDate, toDate)
  {
    if DateReadable(startDate, toDate) && DateReadable(endDate, toDate) then
      Some(LogFilters(userId.GetOr(""), source.GetOr(""), DateFilter(startDate, toDate), DateFilter(endDate, toDate), search.GetOr("")))
    else None
  }

  /** A record passes the filters built from the query exactly when it
      satisfies every parameter that is given, the dates inclusively. */
  lemma FiltersOfQuery(userId: Option<string>, source: Option<string>, startDate: Option<string>, endDate: Option<string>,
                       search: Option<string>, toDate: string -> Option<int>, regex: (string, string) -> bool, r: ConversationRecord)
    requires FiltersOf(userId, source, startDate, endDate, search, toDate).Some?
    ensures Matches(r, FiltersOf(userId, source, startDate, endDate, search, toDate).value, regex) <==>
      && (Given(userId) ==> r.userId == userId.value)
      && (Given(source) ==> r.source == source.value)
      && (Given(startDate) ==> r.createdAt >= toDate(startDate.value).value)
      && (Given(endDate) ==> r.createdAt <= toDate(endDate.value).value)
      && (Given(search) ==> regex(search.value, r.question) || regex(search.value, r.answer))
  {
  }

  // ---------------------------------------------------------------------------
  // GET /

  /** The query string of the listing; `None` is a parameter left out. */
  datatype LogsQuery = LogsQuery(
    userId: Option<string>,
    source: Option<string>,
    startDate: Option<string>,
    endDate: Option<string>,
    page: Option<string>,
    limit: Option<string>,
    search: Option<string>)

  const FetchLogsError: string := "Failed to fetch logs"

  function QueryFilters(q: LogsQuery, toDate: string -> Option<int>): Option<LogFilters> {
    FiltersOf(q.userId, q.source, q.startDate, q.endDate, q.search, toDate)
  }

  /** `GET /`: the page `parseInt(page) || 1` of `parseInt(limit) || 50`
      matching logs, or 500 when the query cannot run. */
  function ListLogs(records: seq<ConversationRecord>, q: LogsQuery, toDate: string -> Option<int>, regex: (string, string) -> bool)
    : (r: Reply<LogPage>)
    ensures r.Refused? ==> r.status == 500 && r.error == FetchLogsError
    ensures r.Ok? <==> QueryFilters(q, toDate).Some? && (IntOr(q.page, 1) - 1) * IntOr(q.limit, 50) >= 0
    ensures r.Ok? ==>
      && r.body.page == IntOr(q.page, 1) && r.body.limit == IntOr(q.limit, 50)
      && r.body.total == Count(records, (x: ConversationRecord) => Matches(x, QueryFilters(q, toDate).value, regex))
      && r.body.pages.Some?
  {
    match QueryFilters(q, toDate)
    case None => Refused(500, FetchLogsError, None)
    case Some(f) =>
      match GetConversationLogs(records, f, IntOr(q.page, 1), IntOr(q.limit, 50), regex)
      case Failure(e) => Refused(500, FetchLogsError, Some(e))
      case Success(p) => Ok(p)
  }

  /** Every listed log satisfies every given parameter, newest first, and
      is one of the stored logs. */
  lemma ListedLogsMatchQuery(records: seq<ConversationRecord>, q: LogsQuery, toDate: string -> Option<int>, regex: (string, string) -> bool)
    requires ListLogs(records, q, toDate, regex).Ok?
    ensures var logs := ListLogs(records, q, toDate, regex).body.logs;
      && SortedDesc(logs, CreatedAt)
      && multiset(logs) <= multiset(records)
      && forall i :: 0 <= i < |logs| ==>
        && (Given(q.userId) ==> logs[i].userId == q.userId.value)
        && (Given(q.source) ==> logs[i].source == q.source.value)
        && (Given(q.startDate) ==> logs[i].createdAt >= toDate(q.startDate.value).value)
        && (Given(q.endDate) ==> logs[i].createdAt <= toDate(q.endDate.value).value)
        && (Given(q.search) ==> regex(q.search.value, logs[i].question) || regex(q.search.value, logs[i].answer))
  {
    var f := QueryFilters(q, toDate).value;
    var logs := ListLogs(records, q, toDate, regex).body.logs;
    ListedLogs(records, f, IntOr(q.page, 1), IntOr(q.limit, 50), regex);
    forall i | 0 <= i < |logs|
      ensures && (Given(q.userId) ==> logs[i].userId == q.userId.value)
        && (Given(q.source) ==> logs[i].source == q.source.value)
        && (Given(q.startDate) ==> logs[i].createdAt >= toDate(q.startDate.value).value)
        && (Given(q.endDate) ==> logs[i].createdAt <= toDate(q.endDate.value).value)
        && (Given(q.search) ==> regex(q.search.value, logs[i].question) || regex(q.search.value, logs[i].answer))
    {
      FiltersOfQuery(q.userId, q.source, q.startDate, q.endDate, q.search, toDate, regex, logs[i]);
    }
  }

  /** Without `page` and `limit` the listing is the first page of fifty:
      the fifty newest matching logs. */
  lemma DefaultListing(records: seq<ConversationRecord>, q: LogsQuery, toDate: string -> Option<int>, regex: (string, string) -> bool)
    requires q.page.None? && q.limit.None? && QueryFilters(q, toDate).Some?
    ensures var r := ListLogs(records, q, toDate, regex);
      && r.Ok? && r.body.page == 1 && r.body.limit == 50
      && r.body.logs == SkipLimit(Newest(records, QueryFilters(q, toDate).value, regex), 0, 50)
  {
    PageIsSlice(records, QueryFilters(q, toDate).value, 1, 50, regex, 0);
  }

  // ---------------------------------------------------------------------------
  // GET /analytics

  datatype AnalyticsBody = AnalyticsBody(analytics: Analytics, timeRange: string)

  /** `GET /analytics` at time `now`: the report over `timeRange`, '7d'
      when it is left out, which the answer repeats. */
  method AnalyticsRoute(records: seq<ConversationRecord>, timeRange: Option<string>, now: int) returns (r: AnalyticsBody)
    ensures timeRange.None? ==> r.timeRange == "7d"
    ensures timeRange.Some? ==> r.timeRange == timeRange.value
    ensures var window := Window(records, WindowStart(now, r.timeRange));
      && r.analytics.totalConversations == |window|
      && r.analytics.topQuestions == TopQuestions(window)
      && r.analytics.dailyStats == DailyStats(window)
  {
    var range := timeRange.GetOr("7d");
    var a := GetAnalytics(records, range, now);
    r := AnalyticsBody(a, range);
  }

  // ---------------------------------------------------------------------------
  // GET /:logId

  /** `findById(id)`: the record with that id, if one is stored. */
  function FindById(records: seq<ConversationRecord>, id: nat): (r: Option<ConversationRecord>)
    ensures r.Some? ==> r.value in records && r.value.id == id
    ensures r.None? <==> forall i :: 0 <= i < |records| ==> records[i].id != id
    decreases |records|
  {
    if records == [] then None
    else if records[0].id == id then Some(records[0])
    else FindById(records[1..], id)
  }

  const LogNotFound: string := "Conversation log not found"
  const FetchLogError: string := "Failed to fetch conversation log"

  /** `GET /:logId`: `idOf` stands for the cast of the path parameter to a
      record id (`None` when it is not one, which the database refuses). */
  function GetLog(records: seq<ConversationRecord>, logId: string, idOf: string -> Option<nat>): (r: Reply<ConversationRecord>)
    ensures r.Ok? ==> r.body in records && idOf(logId) == Some(r.body.id)
    ensures r.Refused? && r.status == 404 <==>
      idOf(logId).Some? && forall i :: 0 <= i < |records| ==> records[i].id != idOf(logId).value
    ensures r.Refused? && r.status == 404 ==> r.error == LogNotFound
    ensures r.Refused? && r.status != 404 <==> idOf(logId).None?
    ensures r.Refused? && r.status != 404 ==> r.status == 500 && r.error == FetchLogError
  {
    match idOf(logId)
    case None => Refused(500, FetchLogError, None)
    case Some(id) =>
      match FindById(records, id)
      case None => Refused(404, LogNotFound, None)
      case Some(log) => Ok(log)
  }

  // ---------------------------------------------------------------------------
  // GET /export/csv

  datatype ExportQuery = ExportQuery(
    userId: Option<string>,
    source: Option<string>,
    startDate: Option<string>,
    endDate: Option<string>,
    limit: Option<string>)

  const ExportError: string := "Failed to export logs"

  /** The column names of the header line. */
  const HeaderNames: seq<string> := ["Date", "User ID", "Question", "Answer", "Source", "Confidence", "Response Time (ms)"]

  /** The header line: the column names separated by commas, then a line
      feed. */
  const ExportHeader: string := Join(HeaderNames, ",") + "\n"

  /** The largest distance from the epoch, in milliseconds, that a date
      can have; `toISOString` throws beyond it. */
  const MaxTime: int := 8640000000000000

  function HeaderCells(): seq<Cell> {
    BareCells(HeaderNames)
  }

  /** The header line is the record of the column names. */
  lemma HeaderIsRecord()
    ensures ExportHeader == Row(HeaderCells()) + "\n"
    ensures Texts(HeaderCells()) == HeaderNames
  {
    RowOfBare(HeaderNames);
  }

  /** The column names hold no comma, line feed or quote. */
  lemma HeaderReadable()
    ensures AllReadable(HeaderCells())
  {
    var cs := {',', '\n', '"'};
    assert NoneOf("Date", cs) && NoneOf("User ID", cs) && NoneOf("Question", cs) && NoneOf("Answer", cs);
    assert NoneOf("Source", cs) && NoneOf("Confidence", cs) && NoneOf("Response Time (ms)", cs);
    AllReadableEach(HeaderCells());
  }

  /** `${log.confidence || 0}`: `show` stands for JavaScript's rendering of
      a number. */
  function ConfidenceText(c: real, show: real -> string): string {
    if c == 0.0 then "0" else show(c)
  }

  /** The fields of one log as the export writes them: the ISO date, then
      the user, the question and the answer quoted, the source and the two
      numbers. */
  function LogCells(log: ConversationRecord, show: real -> string): (cells: seq<Cell>)
    ensures |cells| == 7
    ensures cells[2] == Quoted(log.question) && cells[3] == Quoted(log.answer)
    ensures forall i :: 0 <= i < 7 && i != 2 && i != 3 ==> cells[i].Bare?
  {
    [Bare(IsoString(log.createdAt)), Bare(log.userId), Quoted(log.question), Quoted(log.answer),
     Bare(log.source), Bare(ConfidenceText(log.confidence, show)), Bare(IntToString(log.responseTime))]
  }

  /** What a reader gets back from one exported log: the seven values in
      header order, with a confidence and a response time of zero written
      as "0". */
  function LogFields(log: ConversationRecord, show: real -> string): (r: seq<string>)
    ensures |r| == |HeaderNames|
    ensures r[1] == log.userId && r[2] == log.question && r[3] == log.answer && r[4] == log.source
    ensures log.confidence == 0.0 ==> r[5] == "0"
    ensures log.responseTime == 0 ==> r[6] == "0"
  {
    [IsoString(log.createdAt), log.userId, log.question, log.answer, log.source,
     ConfidenceText(log.confidence, show), IntToString(log.responseTime)]
  }

  /** The records of the logs, one per log in order. */
  function LogRows(logs: seq<ConversationRecord>, show: real -> string): (rows: seq<seq<Cell>>)
    ensures |rows| == |logs|
    ensures forall i :: 0 <= i < |logs| ==> rows[i] == LogCells(logs[i], show)
  {
    if logs == [] then [] else [LogCells(logs[0], show)] + LogRows(logs[1..], show)
  }

  /** The values of the logs as a reader gets them back, one list per log
      in order. */
  function ExportedFields(logs: seq<ConversationRecord>, show: real -> string): (r: seq<seq<string>>)
    ensures |r| == |logs|
    ensures forall i :: 0 <= i < |logs| ==> r[i] == LogFields(logs[i], show)
  {
    if logs == [] then [] else [LogFields(logs[0], show)] + ExportedFields(logs[1..], show)
  }

  /** `csvHeader + rows.join('\n')`. */
  function CsvOf(logs: seq<ConversationRecord>, show: real -> string): string {
    ExportHeader + Lines(LogRows(logs, show))
  }

  /** `parseInt(limit)` with the default of 1000; `None` for a limit that
      is not a number, with which the query does not run. */
  function ExportLimit(limit: Option<string>): Option<int> {
    if limit.None? then Some(1000) else ParseInt(limit.value)
  }

  /** The export searches no text, so no pattern is ever matched. */
  function NoSearch(pattern: string, text: string): bool { false }

  /** The logs the export fetches: the first page of `limit`, newest first. */
  function ExportPage(records: seq<ConversationRecord>, q: ExportQuery, toDate: string -> Option<int>)
    : (r: Option<seq<ConversationRecord>>)
    ensures r.Some? <==> FiltersOf(q.userId, q.source, q.startDate, q.endDate, None, toDate).Some? && ExportLimit(q.limit).Some?
    ensures r.Some? ==> r.value == SkipLimit(Newest(records, FiltersOf(q.userId, q.source, q.startDate, q.endDate, None, toDate).value, NoSearch), 0, LimitOf(ExportLimit(q.limit).value))
  {
    match FiltersOf(q.userId, q.source, q.startDate, q.endDate, None, toDate)
    case None => None
    case Some(f) =>
      match ExportLimit(q.limit)
      case None => None
      case Some(limit) =>
        match GetConversationLogs(records, f, 1, limit, NoSearch)
        case Failure(_) => None
        case Success(p) => Some(p.logs)
  }

  /** A date that `toISOString` can render. */
  predicate InDateRange(log: ConversationRecord) {
    -MaxTime <= log.createdAt <= MaxTime
  }

  predicate AllInDateRange(logs: seq<ConversationRecord>) {
    forall i :: 0 <= i < |logs| ==> InDateRange(logs[i])
  }

  /** `GET /export/csv`: the header and one line per fetched log, or 500
      when the query cannot run or a date cannot be rendered. */
  function ExportCsv(records: seq<ConversationRecord>, q: ExportQuery, toDate: string -> Option<int>, show: real -> string)
    : (r: Reply<string>)
    ensures r.Refused? ==> r.status == 500 && r.error == ExportError
    ensures r.Ok? <==> ExportPage(records, q, toDate).Some? && AllInDateRange(ExportPage(records, q, toDate).value)
    ensures r.Ok? ==> r.body == CsvOf(ExportPage(records, q, toDate).value, show)
  {
    match ExportPage(records, q, toDate)
    case None => Refused(500, ExportError, None)
    case Some(logs) =>
      if AllInDateRange(logs) then Ok(CsvOf(logs, show))
      else Refused(500, ExportError, Some("Invalid time value"))
  }

  /** Without a `limit` the export holds the thousand newest matching logs. */
  lemma ExportDefaultLimit(records: seq<ConversationRecord>, q: ExportQuery, toDate: string -> Option<int>)
    requires q.limit.None? && FiltersOf(q.userId, q.source, q.startDate, q.endDate, None, toDate).Some?
    ensures var page := ExportPage(records, q, toDate);
      && page.Some? && |page.value| <= 1000
      && page.value == SkipLimit(Newest(records, FiltersOf(q.userId, q.source, q.startDate, q.endDate, None, toDate).value, NoSearch), 0, 1000)
  {
  }

  /** No logs give the header line alone. */
  lemma CsvOfNone(show: real -> string)
    ensures CsvOf([], show) == ExportHeader
  {
    assert Lines(LogRows([], show)) == [];
  }

  /** With logs, the text does not end with a line feed. */
  lemma CsvEndsInDigit(logs: seq<ConversationRecord>, show: real -> string)
    requires logs != []
    ensures var csv := CsvOf(logs, show); |csv| > 0 && IsDigit(csv[|csv| - 1])
  {
    LastRowEndsWithDigit(logs, show);
    EndsInDigitAfter(ExportHeader, Lines(LogRows(logs, show)));
  }

  lemma EndsInDigitAfter(a: string, b: string)
    requires |b| > 0 && IsDigit(b[|b| - 1])
    ensures |a + b| > 0 && IsDigit((a + b)[|a + b| - 1])
  {
    assert (a + b)[|a + b| - 1] == b[|b| - 1];
  }

  /** The last line ends with the last log's response time. */
  lemma LastRowEndsWithDigit(logs: seq<ConversationRecord>, show: real -> string)
    requires logs != []
    ensures |Lines(LogRows(logs, show))| > 0
    ensures IsDigit(Lines(LogRows(logs, show))[|Lines(LogRows(logs, show))| - 1])
  {
    var rows := LogRows(logs, show);
    var last := rows[|rows| - 1];
    LinesEndWithLast(rows);
    RowEndsWithLast(last);
    var rt := Encode(last[6]);
    assert rt == IntToString(logs[|logs| - 1].responseTime);
    assert IsDigit(rt[|rt| - 1]);
  }

  /** The fields a reader can take back unquoted: the user, the source and
      the confidence hold no comma, line feed or quote. */
  predicate PlainFields(log: ConversationRecord, show: real -> string) {
    && NoneOf(log.userId, {',', '\n', '"'})
    && NoneOf(log.source, {',', '\n', '"'})
    && NoneOf(ConfidenceText(log.confidence, show), {',', '\n', '"'})
  }

  /** An integer written out holds digits and a sign only. */
  lemma IntTextPlain(n: int)
    ensures NoneOf(IntToString(n), {',', '\n', '"'})
  {
    var m: nat := if n < 0 then -n else n;
    var s := NatToString(m);
    assert forall i :: 0 <= i < |s| ==> IsDigit(s[i]);
  }

  /** An ISO date holds digits and `-+T:.Z` only. */
  lemma IsoTextPlain(t: int)
    ensures NoneOf(IsoString(t), {',', '\n', '"'})
  {
    IsoStringChars(t);
  }

  /** A log with plain fields is a readable record of seven fields. */
  lemma LogCellsReadable(log: ConversationRecord, show: real -> string)
    requires PlainFields(log, show)
    ensures AllReadable(LogCells(log, show)) && Texts(LogCells(log, show)) == LogFields(log, show)
  {
    IsoTextPlain(log.createdAt);
    IntTextPlain(log.responseTime);
    AllReadableEach(LogCells(log, show));
    LogCellsTexts(log, show);
  }

  /** The texts of the cells of a log are its fields. */
  lemma LogCellsTexts(log: ConversationRecord, show: real -> string)
    ensures Texts(LogCells(log, show)) == LogFields(log, show)
  {
  }

  lemma LogRowsReadable(logs: seq<ConversationRecord>, show: real -> string)
    requires forall i :: 0 <= i < |logs| ==> PlainFields(logs[i], show)
    ensures ReadableRows(LogRows(logs, show))
    ensures TextsOf(LogRows(logs, show)) == ExportedFields(logs, show)
  {
    LogRowsAllReadable(logs, show);
    LogRowsTexts(logs, show);
  }

  /** The texts of the records of the logs are the logs' fields, in order. */
  lemma {:induction false} LogRowsTexts(logs: seq<ConversationRecord>, show: real -> string)
    ensures TextsOf(LogRows(logs, show)) == ExportedFields(logs, show)
    decreases |logs|
  {
    if logs != [] {
      LogRowsTexts(logs[1..], show);
      LogCellsTexts(logs[0], show);
      assert LogRows(logs, show)[1..] == LogRows(logs[1..], show);
    }
  }

  lemma {:induction false} LogRowsAllReadable(logs: seq<ConversationRecord>, show: real -> string)
    requires forall i :: 0 <= i < |logs| ==> PlainFields(logs[i], show)
    ensures ReadableRows(LogRows(logs, show))
    decreases |logs|
  {
    if logs != [] {
      LogRowsAllReadable(logs[1..], show);
      LogCellsReadable(logs[0], show);
      assert LogRows(logs, show)[1..] == LogRows(logs[1..], show);
    }
  }

  /** The export reads back as the header names and then, for every log in
      order, its seven values: the question and the answer come back as
      they were, whatever quotes, commas and line feeds they hold, provided
      the unquoted fields hold none. */
  lemma ExportReadsBack(logs: seq<ConversationRecord>, show: real -> string)
    requires forall i :: 0 <= i < |logs| ==> PlainFields(logs[i], show)
    ensures ReadRecords(CsvOf(logs, show)) == Some([HeaderNames] + ExportedFields(logs, show))
  {
    LogRowsReadable(logs, show);
    HeaderThenAny(LogRows(logs, show), ExportedFields(logs, show));
  }

  /** The header line and any readable records read back as the column
      names and the records' texts. */
  lemma HeaderThenAny(rows: seq<seq<Cell>>, texts: seq<seq<string>>)
    requires ReadableRows(rows) && TextsOf(rows) == texts
    ensures ReadRecords(ExportHeader + Lines(rows)) == Some([HeaderNames] + texts)
  {
    if rows == [] {
      HeaderReadsBack();
      assert ExportHeader + Lines(rows) == ExportHeader;
      assert [HeaderNames] + texts == [HeaderNames];
    } else {
      HeaderThenRows(rows);
    }
  }

  /** The header line alone reads back as the column names. */
  lemma HeaderReadsBack()
    ensures ReadRecords(ExportHeader) == Some([HeaderNames])
  {
    HeaderIsRecord();
    HeaderReadable();
    ReadLastRecord(HeaderCells(), "\n");
  }

  /** The header line and readable records read back as the column names
      and the records' texts. */
  lemma HeaderThenRows(rows: seq<seq<Cell>>)
    requires rows != [] && ReadableRows(rows)
    ensures ReadRecords(ExportHeader + Lines(rows)) == Some([HeaderNames] + TextsOf(rows))
  {
    HeaderIsRecord();
    HeaderReadable();
    RecordThenLines(HeaderCells(), rows);
  }

  /** The user is written unquoted: one holding a comma reads back as two
      fields, and the line has eight. */
  lemma UnquotedCommaSplitsUser(log: ConversationRecord, show: real -> string, a: string, b: string)
    requires log.userId == a + "," + b
    requires NoneOf(a, {',', '\n', '"'}) && NoneOf(b, {',', '\n', '"'})
    requires NoneOf(log.source, {',', '\n', '"'}) && NoneOf(ConfidenceText(log.confidence, show), {',', '\n', '"'})
    ensures var fields := LogFields(log, show);
      ReadRecords(Row(LogCells(log, show))) == Some([[fields[0], a, b] + fields[2..]])
  {
    SplitReadable(log, show, a, b);
    ReadSplitField(LogCells(log, show), a, b);
    LogCellsTexts(log, show);
  }

  /** A record whose second field is `a,b` written unquoted reads back with
      `a` and `b` as two fields. */
  lemma ReadSplitField(cells: seq<Cell>, a: string, b: string)
    requires |cells| >= 3 && cells[1] == Bare(a + "," + b)
    requires AllReadable([cells[0], Bare(a), Bare(b)] + cells[2..])
    ensures ReadRecords(Row(cells)) == Some([[Texts(cells)[0], a, b] + Texts(cells)[2..]])
  {
    var split := [cells[0], Bare(a), Bare(b)] + cells[2..];
    SplitRowSameText(cells, a, b);
    ReadOneRecord(split);
    SplitTexts(cells, a, b);
  }

  lemma SplitTexts(cells: seq<Cell>, a: string, b: string)
    requires |cells| >= 3
    ensures Texts([cells[0], Bare(a), Bare(b)] + cells[2..]) == [Texts(cells)[0], a, b] + Texts(cells)[2..]
  {
    TextsThreeThenRest(cells[0], Bare(a), Bare(b), cells[2..]);
    TextsDrop(cells, 2);
  }

  lemma SplitReadable(log: ConversationRecord, show: real -> string, a: string, b: string)
    requires NoneOf(a, {',', '\n', '"'}) && NoneOf(b, {',', '\n', '"'})
    requires NoneOf(log.source, {',', '\n', '"'}) && NoneOf(ConfidenceText(log.confidence, show), {',', '\n', '"'})
    ensures var cells := LogCells(log, show);
      AllReadable([cells[0], Bare(a), Bare(b)] + cells[2..])
  {
    IsoTextPlain(log.createdAt);
    IntTextPlain(log.responseTime);
    var cells := LogCells(log, show);
    AllReadableEach([cells[0], Bare(a), Bare(b)] + cells[2..]);
  }

  /** Writing the field `a,b` unquoted gives the same text as writing the
      fields `a` and `b`. */
  lemma SplitRowSameText(cells: seq<Cell>, a: string, b: string)
    requires |cells| >= 3 && cells[1] == Bare(a + "," + b)
    ensures Row([cells[0], Bare(a), Bare(b)] + cells[2..]) == Row(cells)
  {
    var rest := cells[2..];
    assert cells == [cells[0]] + ([cells[1]] + rest);
    assert [cells[0], Bare(a), Bare(b)] + rest == [cells[0]] + ([Bare(a), Bare(b)] + rest);
    RowMergeBare(a, b, rest);
    RowCons(cells[0], [cells[1]] + rest);
    RowCons(cells[0], [Bare(a), Bare(b)] + rest);
  }

  /** Two unquoted fields in front of others are written as the one
      unquoted field that joins them with a comma. */
  lemma RowMergeBare(a: string, b: string, rest: seq<Cell>)
    requires rest != []
    ensures Row([Bare(a), Bare(b)] + rest) == Row([Bare(a + "," + b)] + rest)
  {
    RowTwoThenRest(Bare(a), Bare(b), rest);
    RowCons(Bare(a + "," + b), rest);
  }
}

=== FILE: mistral_service.dfy ===
/** The language-model side of answering: the confidence score, the test for
    weather-related questions, the context block built from retrieved
    snippets, and the prompt sent to the chat model. The chat client itself
    is a function parameter. */
module MistralService {
  import opened Wrappers
  import opened Text
  import opened DocumentModel

  /** A retrieved chunk of a stored document. */
  datatype Snippet = Snippet(documentId: nat, chunkIndex: int, similarity: real, tier: Tier, text: string)

  // ---------------------------------------------------------------------------
  // confidence

  const BaseConfidence: real := 0.3
  const SimilarityWeight: real := 0.6
  const TierABonus: real := 0.1
  const ExternalBonus: real := 0.2

  function SumSimilarity(chunks: seq<Snippet>): real
    decreases |chunks|
  {
    if chunks == [] then 0.0 else SumSimilarity(chunks[..|chunks| - 1]) + chunks[|chunks| - 1].similarity
  }

  /** `chunks.filter(c => c.tier === 'A').length`. */
  function CountTierA(chunks: seq<Snippet>): (n: nat)
    ensures n <= |chunks|
    decreases |chunks|
  {
    if chunks == [] then 0
    else CountTierA(chunks[..|chunks| - 1]) + (if chunks[|chunks| - 1].tier == A then 1 else 0)
  }

  function MinReal(a: real, b: real): real { if a < b then a else b }

  /** `calculateConfidenceScore(chunks, externalData)`, on reals. */
  function ConfidenceScore(chunks: seq<Snippet>, hasExternalData: bool): (r: real)
    ensures r <= 1.0
  {
    var fromChunks :=
      if |chunks| > 0 then
        BaseConfidence + (SumSimilarity(chunks) / |chunks| as real) * SimilarityWeight
        + CountTierA(chunks) as real * TierABonus
      else BaseConfidence;
    MinReal(if hasExternalData then fromChunks + ExternalBonus else fromChunks, 1.0)
  }

  /** Without chunks the score is the base, plus the external bonus. */
  lemma ConfidenceWithoutChunks()
    ensures ConfidenceScore([], false) == 0.3
    ensures ConfidenceScore([], true) == 0.5
  {
  }

  /** External data never lowers the score. */
  lemma ExternalDataNeverLowers(chunks: seq<Snippet>)
    ensures ConfidenceScore(chunks, false) <= ConfidenceScore(chunks, true)
  {
  }

  predicate SimilaritiesInUnitRange(chunks: seq<Snippet>) {
    forall k :: 0 <= k < |chunks| ==> 0.0 <= chunks[k].similarity <= 1.0
  }

  lemma {:induction false} SumSimilarityBounds(chunks: seq<Snippet>)
    requires SimilaritiesInUnitRange(chunks)
    ensures 0.0 <= SumSimilarity(chunks) <= |chunks| as real
    decreases |chunks|
  {
    if chunks != [] {
      SumSimilarityBounds(chunks[..|chunks| - 1]);
    }
  }

  /** With similarities in [0, 1] the score lies in [0.3, 1]. */
  lemma ConfidenceInRange(chunks: seq<Snippet>, hasExternalData: bool)
    requires SimilaritiesInUnitRange(chunks)
    ensures 0.3 <= ConfidenceScore(chunks, hasExternalData) <= 1.0
  {
    if |chunks| > 0 {
      SumSimilarityBounds(chunks);
      var n := |chunks| as real;
      assert 0.0 <= SumSimilarity(chunks) / n;
    }
  }

  /** There is no lower clamp: one snippet of similarity -1 gives -0.3, which
      the conversation schema's minimum of 0 then refuses. */
  lemma NoLowerClamp(s: Snippet)
    requires s.similarity == -1.0 && s.tier != A
    ensures ConfidenceScore([s], false) == -0.3
  {
    assert [s][..0] == [];
    assert SumSimilarity([s]) == -1.0;
    assert CountTierA([s]) == 0;
  }

  // ---------------------------------------------------------------------------
  // weather keywords

  /** Air/weather, rain, sun, humidity, temperature, dry soil, flood. */
  const WeatherKeywords: seq<string> := ["อากาศ", "ฝน", "แดด", "ความชื้น", "อุณหภูมิ", "ดินแห้ง", "น้ำท่วม"]

  /** `keywords.some(k => text.includes(k))`. */
  function SomeKeywordIn(text: string, keywords: seq<string>): bool
    decreases |keywords|
  {
    if keywords == [] then false
    else Contains(text, keywords[0]) || SomeKeywordIn(text, keywords[1..])
  }

  /** `needsExternalData(question)`. */
  function NeedsExternalData(question: string): bool {
    SomeKeywordIn(Lower(question), WeatherKeywords)
  }

  lemma {:induction false} SomeKeywordInIff(text: string, keywords: seq<string>)
    ensures SomeKeywordIn(text, keywords) <==> exists k :: 0 <= k < |keywords| && Contains(text, keywords[k])
    decreases |keywords|
  {
    if keywords != [] {
      SomeKeywordInIff(text, keywords[1..]);
      if SomeKeywordIn(text, keywords[1..]) {
        var k :| 0 <= k < |keywords[1..]| && Contains(text, keywords[1..][k]);
        assert keywords[k + 1] == keywords[1..][k];
      }
      if exists k :: 0 <= k < |keywords| && Contains(text, keywords[k]) {
        var k :| 0 <= k < |keywords| && Contains(text, keywords[k]);
        if k > 0 {
          assert keywords[1..][k - 1] == keywords[k];
        }
      }
    }
  }

  /** The question needs weather data exactly when one of the seven keywords
      occurs in its lower-cased text. */
  lemma NeedsExternalDataIff(question: string)
    ensures NeedsExternalData(question) <==>
      exists k :: 0 <= k < |WeatherKeywords| && Contains(Lower(question), WeatherKeywords[k])
  {
    SomeKeywordInIff(Lower(question), WeatherKeywords);
  }

  /** The keywords are Thai, so lower-casing leaves them as they are. */
  lemma KeywordsHaveNoCapitals(k: int)
    requires 0 <= k < |WeatherKeywords|
    ensures Lower(WeatherKeywords[k]) == WeatherKeywords[k]
  {
    var w := WeatherKeywords[k];
    forall i | 0 <= i < |w| ensures !IsAsciiUpper(w[i]) {
      assert w[i] >= '฀';
    }
    LowerOfNoCapitals(w);
  }

  /** A question that mentions a keyword anywhere needs weather data, whatever
      surrounds it. */
  lemma KeywordTriggersWeather(before: string, k: int, after: string)
    requires 0 <= k < |WeatherKeywords|
    ensures NeedsExternalData(before + WeatherKeywords[k] + after)
  {
    var w := WeatherKeywords[k];
    var q := before + w + after;
    ContainsSelf(w);
    ContainsExtend(w, w, before, after);
    LowerKeepsContains(q, w);
    KeywordsHaveNoCapitals(k);
    NeedsExternalDataIff(q);
  }

  /** The test ignores ASCII case. */
  lemma NeedsExternalDataIgnoresCase(question: string)
    ensures NeedsExternalData(Lower(question)) == NeedsExternalData(question)
  {
    LowerIdempotent(question);
  }

  // ---------------------------------------------------------------------------
  // context

  /** `[<tier><i+1>] <text>`. */
  function ContextEntry(chunk: Snippet, index: nat): string {
    "[" + TierName(chunk.tier) + NatToString(index + 1) + "] " + chunk.text
  }

  function ContextEntries(chunks: seq<Snippet>): (r: seq<string>)
    ensures |r| == |chunks|
    ensures forall i :: 0 <= i < |chunks| ==> r[i] == ContextEntry(chunks[i], i)
  {
    seq(|chunks|, i requires 0 <= i < |chunks| => ContextEntry(chunks[i], i))
  }

  /** `prepareContext(chunks)`. */
  function PrepareContext(chunks: seq<Snippet>): (r: string)
    ensures r == [] <==> chunks == []
  {
    if chunks == [] then ""
    else
      var r := Join(ContextEntries(chunks), "\n\n");
      assert r != [] by {
        EntriesJoinNonEmpty(ContextEntries(chunks));
      }
      r
  }

  lemma {:induction false} EntriesJoinNonEmpty(entries: seq<string>)
    requires entries != [] && entries[0] != []
    ensures Join(entries, "\n\n") != []
  {
    if |entries| > 1 {
      assert |Join(entries, "\n\n")| >= |entries[0]|;
    }
  }

  /** One more snippet adds a blank line and its numbered entry at the end,
      so the entries appear in snippet order. */
  lemma PrepareContextSnoc(chunks: seq<Snippet>, c: Snippet)
    requires chunks != []
    ensures PrepareContext(chunks + [c]) == PrepareContext(chunks) + "\n\n" + ContextEntry(c, |chunks|)
  {
    assert ContextEntries(chunks + [c]) == ContextEntries(chunks) + [ContextEntry(c, |chunks|)];
    JoinSnoc(ContextEntries(chunks), ContextEntry(c, |chunks|), "\n\n");
  }

  /** Every snippet's text appears in the context. */
  lemma ContextHoldsEveryText(chunks: seq<Snippet>, i: int)
    requires 0 <= i < |chunks|
    ensures Contains(PrepareContext(chunks), chunks[i].text)
  {
    var entries := ContextEntries(chunks);
    JoinContainsPart(entries, "\n\n", i);
    var prefix := "[" + TierName(chunks[i].tier) + NatToString(i + 1) + "] ";
    ContainsSelf(chunks[i].text);
    ContainsExtend(chunks[i].text, chunks[i].text, prefix, []);
    assert prefix + chunks[i].text + [] == entries[i];
    ContainsInContains(PrepareContext(chunks), entries[i], chunks[i].text);
  }

  // ---------------------------------------------------------------------------
  // prompt and generation

  const QuestionLabel: string := "คำถาม: "
  const KnowledgeHeader: string := "\n\nข้อมูลจากฐานความรู้:\n"
  const ExternalHeader: string := "\n\nข้อมูลเพิ่มเติม (อากาศ/สภาพแวดล้อม):\n"

  /** The user prompt: the question line, then the knowledge-base section when
      the context is non-empty, then the external-data section when there is
      external data (`externalJson` stands for its `JSON.stringify` text). */
  function Prompt(question: string, context: string, externalJson: Option<string>): (p: string)
    ensures QuestionLabel + question <= p
  {
    var withQuestion := QuestionLabel + question;
    var withContext := if context != [] then withQuestion + KnowledgeHeader + context else withQuestion;
    if externalJson.Some? then withContext + ExternalHeader + externalJson.value else withContext
  }

  predicate IsSuffix(s: string, t: string) {
    |s| <= |t| && t[|t| - |s|..] == s
  }

  /** The sections appear only when they have content, and in order: the
      prompt ends with the external section when there is external data,
      preceded by the knowledge section when there is context. */
  lemma PromptSections(question: string, context: string, externalJson: Option<string>)
    ensures context == [] && externalJson.None? ==> Prompt(question, context, externalJson) == QuestionLabel + question
    ensures context != [] && externalJson.None? ==>
      IsSuffix(KnowledgeHeader + context, Prompt(question, context, externalJson))
    ensures context == [] && externalJson.Some? ==>
      Prompt(question, context, externalJson) == QuestionLabel + question + ExternalHeader + externalJson.value
    ensures context != [] && externalJson.Some? ==>
      IsSuffix(KnowledgeHeader + context + ExternalHeader + externalJson.value, Prompt(question, context, externalJson))
  {
    var p := Prompt(question, context, externalJson);
    var q := QuestionLabel + question;
    if context != [] && externalJson.None? {
      assert p == q + (KnowledgeHeader + context);
    }
    if context != [] && externalJson.Some? {
      assert p == q + (KnowledgeHeader + context + ExternalHeader + externalJson.value);
    }
  }

  /** The system prompt: a cassava assistant for Thai farmers that answers
      simply, prefers the documents, and always answers in Thai. */
  const SystemPrompt: string :=
    "คุณคือผู้ช่วยด้านมันสำปะหลังสำหรับเกษตรกรไทย \n"
    + "ตอบแบบเข้าใจง่าย กระชับ และเป็นประโยชน์\n"
    + "อ้างอิงข้อมูลจากเอกสารที่มีอยู่ก่อน ถ้าไม่มีจึงหาข้อมูลจากภายนอก\n"
    + "\n"
    + "หลักการตอบคำถาม:\n"
    + "1. ใช้ข้อมูลจากเอกสารเป็นหลัก\n"
    + "2. ตอบแบบเข้าใจง่าย ไม่ซับซ้อน\n"
    + "3. ให้คำแนะนำที่ practical และใช้ได้จริง\n"
    + "4. หากไม่แน่ใจ ให้แนะนำให้ปรึกษาผู้เชี่ยวชาญเพิ่มเติม\n"
    + "5. ตอบเป็นภาษาไทยเสมอ"

  const ModelName: string := "mistral-large-latest"
  const Temperature: real := 0.7
  const MaxTokens: nat := 800
  /** The one error `generateResponse` throws, whatever went wrong. */
  const GenerationError: string := "Failed to generate AI response"

  datatype Role = SystemRole | UserRole
  datatype ChatMessage = ChatMessage(role: Role, content: string)
  datatype ChatRequest = ChatRequest(model: string, messages: seq<ChatMessage>, temperature: real, maxTokens: nat)
  datatype Usage = Usage(promptTokens: nat, completionTokens: nat, totalTokens: nat)

  /** What the chat client does with a request: it throws, or it answers with
      a list of choices, each with a message content that may be missing. */
  datatype ChatReply = ChatThrew(message: string) | Replied(choices: seq<Option<string>>, usage: Option<Usage>)

  datatype Generation = Generation(response: string, usage: Option<Usage>, model: string)

  /** The request `generateResponse` sends: the system prompt, then the
      user's prompt. */
  function ChatRequestFor(prompt: string): ChatRequest {
    ChatRequest(ModelName, [ChatMessage(SystemRole, SystemPrompt), ChatMessage(UserRole, prompt)], Temperature, MaxTokens)
  }

  /** `generateResponse(question, context, externalData)`: the reply is the
      first choice's content. A thrown call, an empty choice list (reading
      `choices[0].message` throws) and a missing content (reading its length
      throws) all become the same error. */
  function GenerateResponse(question: string, context: string, externalJson: Option<string>,
                            chat: ChatRequest -> ChatReply): (r: Result<Generation, string>)
    ensures var reply := chat(ChatRequestFor(Prompt(question, context, externalJson)));
      && (r.Success? <==> reply.Replied? && |reply.choices| > 0 && reply.choices[0].Some?)
      && (r.Success? ==> r.value == Generation(reply.choices[0].value, reply.usage, ModelName))
      && (r.Failure? ==> r.error == GenerationError)
  {
    var reply := chat(ChatRequestFor(Prompt(question, context, externalJson)));
    if reply.Replied? && |reply.choices| > 0 && reply.choices[0].Some? then
      Success(Generation(reply.choices[0].value, reply.usage, ModelName))
    else Failure(GenerationError)
  }
}

=== FILE: mongoose.dfy ===
/** How Mongoose reports a `save` that fails validation: a `ValidationError`
    whose message names the model, then lists one "path: message" entry per
    failing path, in the order the paths were validated, separated by ", ".
    A path reports the message of its first failing validator, and
    `required` runs first. */
module Mongoose {
  import opened Text

  /** A failing path and the message of its failing validator. */
  datatype PathError = PathError(path: string, message: string)

  /** The default message of a `required` validator. */
  function RequiredMessage(path: string): string {
    "Path `" + path + "` is required."
  }

  /** The default message of an `enum` validator refusing `value`. */
  function EnumMessage(value: string, path: string): string {
    "`" + value + "` is not a valid enum value for path `" + path + "`."
  }

  /** The error of a `required` string path holding `value`, if it fails. */
  function Required(path: string, value: string): (es: seq<PathError>)
    ensures es == [] <==> value != []
    ensures es != [] ==> es == [PathError(path, RequiredMessage(path))]
    ensures forall x :: x in es ==> x.path == path
  {
    if value == [] then [PathError(path, RequiredMessage(path))] else []
  }

  function Entry(e: PathError): string {
    e.path + ": " + e.message
  }

  /** The entries of `es`, separated by ", ". */
  function EntryList(es: seq<PathError>): string
    decreases |es|
  {
    if |es| == 0 then ""
    else if |es| == 1 then Entry(es[0])
    else Entry(es[0]) + ", " + EntryList(es[1..])
  }

  /** "<Model> validation failed: ", the start of every such message. */
  function Heading(model: string): string {
    model + " validation failed: "
  }

  /** The message of the `ValidationError` that `model` reports for the
      failing paths `es`. */
  function ValidationMessage(model: string, es: seq<PathError>): (m: string)
    ensures Heading(model) <= m
  {
    Heading(model) + EntryList(es)
  }

  lemma {:induction false} EntryListContains(es: seq<PathError>, k: int)
    requires 0 <= k < |es|
    ensures Contains(EntryList(es), Entry(es[k]))
    decreases |es|
  {
    ContainsSelf(Entry(es[k]));
    if |es| == 1 {
    } else if k == 0 {
      ContainsExtend(Entry(es[0]), Entry(es[0]), [], ", " + EntryList(es[1..]));
      assert [] + Entry(es[0]) + (", " + EntryList(es[1..])) == EntryList(es);
    } else {
      EntryListContains(es[1..], k - 1);
      ContainsExtend(EntryList(es[1..]), Entry(es[k]), Entry(es[0]) + ", ", []);
      assert Entry(es[0]) + ", " + EntryList(es[1..]) + [] == EntryList(es);
    }
  }

  /** The message names every failing path with its own message. */
  lemma MessageListsEachPath(model: string, es: seq<PathError>, k: int)
    requires 0 <= k < |es|
    ensures Contains(ValidationMessage(model, es), es[k].path + ": " + es[k].message)
  {
    EntryListContains(es, k);
    ContainsExtend(EntryList(es), Entry(es[k]), Heading(model), []);
    assert Heading(model) + EntryList(es) + [] == ValidationMessage(model, es);
  }

  /** With one failing path the message is the heading and that path's
      entry. */
  lemma SinglePathMessage(model: string, e: PathError)
    ensures ValidationMessage(model, [e]) == Heading(model) + e.path + ": " + e.message
  {
  }
}

=== FILE: rag_service.dfy ===
/** The chunker of the RAG service (`splitIntoChunks`): split a document's
    text into sentences on `.`, `!` and `?`, pack the sentences greedily into
    a buffer of at most `chunkSize` characters, seed each new buffer with the
    last `floor(overlap / 10)` words of the one just closed, and drop every
    chunk of 50 characters or fewer.

    `Chunks` is the specification, a left fold (`Pack`) of one packing step
    (`Step`) over the sentences; the method `SplitIntoChunks` is the loop of
    the source, proved equal to it. */
module RagService {
  import opened Text

  const Terminators: set<char> := {'.', '!', '?'}
  const DefaultChunkSize: int := 1000
  const DefaultOverlap: int := 200
  /** Chunks of this length or shorter are dropped. */
  const MinChunkLength: nat := 50

  /** The pieces of `text.split(/[.!?]+/)` that are not blank. Splitting on
      single terminators and then dropping the blank pieces gives the same
      pieces as splitting on runs of terminators. */
  function SentencePieces(text: string): (r: seq<string>)
    ensures forall k :: 0 <= k < |r| ==> Trim(r[k]) != [] && NoneOf(r[k], Terminators)
  {
    NonBlank(SplitOn(text, Terminators))
  }

  /** `pieces.filter(s => s.trim().length > 0)`. */
  function NonBlank(pieces: seq<string>): (r: seq<string>)
    ensures forall k :: 0 <= k < |r| ==> Trim(r[k]) != [] && r[k] in pieces
    decreases |pieces|
  {
    if pieces == [] then []
    else (if Trim(pieces[0]) != [] then [pieces[0]] else []) + NonBlank(pieces[1..])
  }

  /** The sentences as the loop sees them, trimmed. */
  function Sentences(text: string): (r: seq<string>)
    ensures |r| == |SentencePieces(text)|
    ensures forall k :: 0 <= k < |r| ==> r[k] == Trim(SentencePieces(text)[k])
  {
    TrimAll(SentencePieces(text))
  }

  /** Each piece trimmed. */
  function TrimAll(pieces: seq<string>): (r: seq<string>)
    ensures |r| == |pieces| && forall k :: 0 <= k < |r| ==> r[k] == Trim(pieces[k])
  {
    seq(|pieces|, k requires 0 <= k < |pieces| => Trim(pieces[k]))
  }

  /** `xs.slice(start)`: a negative start counts from the end. */
  function SliceFrom<T>(xs: seq<T>, start: int): (r: seq<T>)
    ensures |r| <= |xs| && r == xs[|xs| - |r|..]
  {
    if start < 0 then xs[(if |xs| + start < 0 then 0 else |xs| + start)..]
    else xs[(if start < |xs| then start else |xs|)..]
  }

  /** `words.slice(-Math.floor(overlap / 10))` over the space-separated words
      of the buffer. */
  function OverlapWords(buffer: string, overlap: int): seq<string> {
    SliceFrom(SplitOn(buffer, {' '}), -(overlap / 10))
  }

  /** The overlap is the last `floor(overlap / 10)` words of the buffer, or
      all of them when there are fewer; a count of zero keeps every word,
      because `slice(-0)` is `slice(0)`; a negative count drops that many
      words from the front. */
  lemma OverlapWordsAreLastWords(buffer: string, overlap: int)
    ensures var words := SplitOn(buffer, {' '});
      var r := OverlapWords(buffer, overlap);
      && r == words[|words| - |r|..]
      && (overlap / 10 > 0 ==> |r| == Min(overlap / 10, |words|))
      && (overlap / 10 == 0 ==> r == words)
      && (overlap / 10 < 0 ==> r == words[Min(-(overlap / 10), |words|)..])
  {
  }

  function Min(a: int, b: int): int { if a < b then a else b }

  /** The state of the loop: the chunks closed so far and the open buffer. */
  datatype Packing = Packing(closed: seq<string>, buffer: string)

  /** The loop closes the buffer before a sentence exactly when the buffer is
      non-empty and the sentence would make it overflow. */
  predicate Closes(p: Packing, sentence: string, chunkSize: int) {
    |p.buffer| + |Trim(sentence)| > chunkSize && |p.buffer| > 0
  }

  /** One turn of the loop for one sentence. */
  function Step(p: Packing, sentence: string, chunkSize: int, overlap: int): Packing {
    var trimmed := Trim(sentence);
    if Closes(p, sentence, chunkSize) then
      Packing(p.closed + [Trim(p.buffer)], Join(OverlapWords(p.buffer, overlap), " ") + " " + trimmed)
    else
      Packing(p.closed, p.buffer + (if p.buffer != [] then " " else "") + trimmed)
  }

  /** What one turn does: closed chunks are never revisited and at most one
      is added, exactly when the buffer is closed; the closed chunk is the
      trimmed buffer and the next buffer is the overlap words, a space and
      the sentence; otherwise the sentence is appended whole, after a single
      space unless the buffer is empty. */
  lemma StepShape(p: Packing, sentence: string, chunkSize: int, overlap: int)
    ensures var r := Step(p, sentence, chunkSize, overlap);
      && p.closed <= r.closed
      && (|r.closed| == |p.closed| + 1 <==> Closes(p, sentence, chunkSize))
      && (|r.closed| == |p.closed| || |r.closed| == |p.closed| + 1)
      && (Closes(p, sentence, chunkSize) ==>
            r.closed[|p.closed|] == Trim(p.buffer)
            && r.buffer == Join(OverlapWords(p.buffer, overlap), " ") + " " + Trim(sentence))
      && (!Closes(p, sentence, chunkSize) ==>
            r.buffer == (if p.buffer == [] then Trim(sentence) else p.buffer + " " + Trim(sentence)))
  {
  }

  /** The loop over all sentences, from an empty state. */
  function Pack(sentences: seq<string>, chunkSize: int, overlap: int): Packing
    decreases |sentences|
  {
    if sentences == [] then Packing([], "")
    else Step(Pack(sentences[..|sentences| - 1], chunkSize, overlap), sentences[|sentences| - 1], chunkSize, overlap)
  }

  /** The chunks before the length filter: the closed ones and the trimmed
      final buffer, unless it is blank. */
  function Flush(p: Packing): seq<string> {
    p.closed + (if Trim(p.buffer) != [] then [Trim(p.buffer)] else [])
  }

  /** `chunks.filter(c => c.length > 50)`. */
  function KeepLong(cs: seq<string>): (r: seq<string>)
    ensures forall k :: 0 <= k < |r| ==> |r[k]| > MinChunkLength && r[k] in cs
    ensures forall k :: 0 <= k < |cs| && |cs[k]| > MinChunkLength ==> cs[k] in r
    decreases |cs|
  {
    if cs == [] then []
    else (if |cs[0]| > MinChunkLength then [cs[0]] else []) + KeepLong(cs[1..])
  }

  function PreFilterChunks(text: string, chunkSize: int, overlap: int): seq<string> {
    Flush(Pack(SentencePieces(text), chunkSize, overlap))
  }

  /** The specification of `splitIntoChunks`. */
  function Chunks(text: string, chunkSize: int, overlap: int): seq<string> {
    KeepLong(PreFilterChunks(text, chunkSize, overlap))
  }

  /** `splitIntoChunks(text, chunkSize, overlap)`. */
  method SplitIntoChunks(text: string, chunkSize: int, overlap: int) returns (chunks: seq<string>)
    ensures chunks == Chunks(text, chunkSize, overlap)
    ensures forall k :: 0 <= k < |chunks| ==> IsCleanChunk(chunks[k])
  {
    var sentences := SentencePieces(text);
    var closed, current := PackSentences(sentences, chunkSize, overlap);
    ghost var packed := Packing(closed, current);
    if Trim(current) != "" {
      closed := closed + [Trim(current)];
    }
    assert closed == Flush(packed);
    chunks := KeepLong(closed);
    ChunksAreClean(text, chunkSize, overlap);
  }

  /** The sentence loop of `splitIntoChunks`: the chunks it closes and the
      buffer it leaves open. */
  method PackSentences(sentences: seq<string>, chunkSize: int, overlap: int) returns (closed: seq<string>, current: string)
    ensures Packing(closed, current) == Pack(sentences, chunkSize, overlap)
  {
    closed, current := [], "";
    for i := 0 to |sentences|
      invariant Packing(closed, current) == Pack(sentences[..i], chunkSize, overlap)
    {
      PackSnoc(sentences, i, chunkSize, overlap);
      var trimmed := Trim(sentences[i]);
      if |current| + |trimmed| > chunkSize && |current| > 0 {
        closed := closed + [Trim(current)];
        var words := SplitOn(current, {' '});
        var overlapWords := SliceFrom(words, -(overlap / 10));
        current := Join(overlapWords, " ") + " " + trimmed;
      } else {
        current := current + (if current != "" then " " else "") + trimmed;
      }
    }
    assert sentences[..|sentences|] == sentences;
  }

  /** The loop over one more sentence is one more turn. */
  lemma PackSnoc(ss: seq<string>, i: nat, chunkSize: int, overlap: int)
    requires i < |ss|
    ensures Pack(ss[..i + 1], chunkSize, overlap) == Step(Pack(ss[..i], chunkSize, overlap), ss[i], chunkSize, overlap)
  {
    assert ss[..i + 1][..i] == ss[..i];
  }

  // ---------------------------------------------------------------------------
  // properties

  /** Every closed chunk is trimmed. */
  lemma {:induction false} PackClosedTrimmed(ss: seq<string>, chunkSize: int, overlap: int)
    ensures forall k :: 0 <= k < |Pack(ss, chunkSize, overlap).closed| ==> IsTrimmed(Pack(ss, chunkSize, overlap).closed[k])
    decreases |ss|
  {
    if ss != [] {
      var prefix := ss[..|ss| - 1];
      PackClosedTrimmed(prefix, chunkSize, overlap);
      StepClosedTrimmed(Pack(prefix, chunkSize, overlap), ss[|ss| - 1], chunkSize, overlap);
    }
  }

  /** One turn closes only a trimmed chunk. */
  lemma StepClosedTrimmed(p: Packing, sentence: string, chunkSize: int, overlap: int)
    requires forall k :: 0 <= k < |p.closed| ==> IsTrimmed(p.closed[k])
    ensures var r := Step(p, sentence, chunkSize, overlap);
      forall k :: 0 <= k < |r.closed| ==> IsTrimmed(r.closed[k])
  {
    var r := Step(p, sentence, chunkSize, overlap);
    if Closes(p, sentence, chunkSize) {
      assert r.closed == p.closed + [Trim(p.buffer)];
      AllTrimmedSnoc(p.closed, Trim(p.buffer));
    } else {
      assert r.closed == p.closed;
    }
  }

  lemma AllTrimmedSnoc(cs: seq<string>, c: string)
    requires forall k :: 0 <= k < |cs| ==> IsTrimmed(cs[k])
    requires IsTrimmed(c)
    ensures forall k :: 0 <= k < |cs + [c]| ==> IsTrimmed((cs + [c])[k])
  {
  }

  /** Every returned chunk is trimmed and longer than 50 characters. */
  lemma ChunksAreLongAndTrimmed(text: string, chunkSize: int, overlap: int)
    ensures forall k :: 0 <= k < |Chunks(text, chunkSize, overlap)| ==>
      |Chunks(text, chunkSize, overlap)[k]| > MinChunkLength && IsTrimmed(Chunks(text, chunkSize, overlap)[k])
  {
    var p := Pack(SentencePieces(text), chunkSize, overlap);
    PackClosedTrimmed(SentencePieces(text), chunkSize, overlap);
    var pre := Flush(p);
    if Trim(p.buffer) != [] {
      assert pre == p.closed + [Trim(p.buffer)];
      AllTrimmedSnoc(p.closed, Trim(p.buffer));
    } else {
      assert pre == p.closed;
    }
    KeepLongKeepsTrimmed(pre);
  }

  /** The length filter keeps only chunks it was given. */
  lemma {:induction false} KeepLongKeepsTrimmed(cs: seq<string>)
    requires forall k :: 0 <= k < |cs| ==> IsTrimmed(cs[k])
    ensures forall k :: 0 <= k < |KeepLong(cs)| ==> |KeepLong(cs)[k]| > MinChunkLength && IsTrimmed(KeepLong(cs)[k])
    decreases |cs|
  {
    if cs != [] {
      KeepLongKeepsTrimmed(cs[1..]);
    }
  }

  /** Text made only of white space and terminators has no sentences, so it
      yields no chunks. */
  lemma BlankTextHasNoChunks(text: string, chunkSize: int, overlap: int)
    requires forall i :: 0 <= i < |text| ==> IsWhitespace(text[i]) || text[i] in Terminators
    ensures SentencePieces(text) == []
    ensures Chunks(text, chunkSize, overlap) == []
  {
    var pieces := SplitOn(text, Terminators);
    SplitOnChars(text, Terminators, c => IsWhitespace(c) || c in Terminators);
    forall k | 0 <= k < |pieces| ensures Trim(pieces[k]) == [] {
      assert IsBlank(pieces[k]) by {
        forall i | 0 <= i < |pieces[k]| ensures IsWhitespace(pieces[k][i]) {
          assert NoneOf(pieces[k], Terminators);
        }
      }
      TrimEmptyIffBlank(pieces[k]);
    }
    NonBlankOfBlank(pieces);
  }

  /** Blank pieces are all dropped. */
  lemma {:induction false} NonBlankOfBlank(pieces: seq<string>)
    requires forall k :: 0 <= k < |pieces| ==> Trim(pieces[k]) == []
    ensures NonBlank(pieces) == []
    decreases |pieces|
  {
    if pieces != [] {
      NonBlankOfBlank(pieces[1..]);
    }
  }

  /** The buffer and every closed chunk are free of terminators: only the
      split sentences and words taken from earlier buffers are ever joined. */
  lemma {:induction false} PackHasNoTerminators(ss: seq<string>, chunkSize: int, overlap: int)
    requires forall k :: 0 <= k < |ss| ==> NoneOf(ss[k], Terminators)
    ensures NoneOf(Pack(ss, chunkSize, overlap).buffer, Terminators)
    ensures forall k :: 0 <= k < |Pack(ss, chunkSize, overlap).closed| ==>
      NoneOf(Pack(ss, chunkSize, overlap).closed[k], Terminators)
    decreases |ss|
  {
    if ss != [] {
      var prefix := ss[..|ss| - 1];
      PackHasNoTerminators(prefix, chunkSize, overlap);
      StepHasNoTerminators(Pack(prefix, chunkSize, overlap), ss[|ss| - 1], chunkSize, overlap);
    }
  }

  /** One turn adds no terminator to a state and a sentence free of them. */
  lemma StepHasNoTerminators(p: Packing, s: string, chunkSize: int, overlap: int)
    requires NoneOf(p.buffer, Terminators) && NoneOf(s, Terminators)
    requires forall k :: 0 <= k < |p.closed| ==> NoneOf(p.closed[k], Terminators)
    ensures NoneOf(Step(p, s, chunkSize, overlap).buffer, Terminators)
    ensures forall k :: 0 <= k < |Step(p, s, chunkSize, overlap).closed| ==>
      NoneOf(Step(p, s, chunkSize, overlap).closed[k], Terminators)
  {
    TrimKeepsNoneOf(s, Terminators);
    if Closes(p, s, chunkSize) {
      TrimKeepsNoneOf(p.buffer, Terminators);
      OverlapHasNoTerminators(p.buffer, overlap);
      NoneOfJoined(Join(OverlapWords(p.buffer, overlap), " "), " ", Trim(s));
    } else {
      NoneOfJoined(p.buffer, if p.buffer != [] then " " else "", Trim(s));
    }
  }

  lemma NoneOfJoined(a: string, sep: string, b: string)
    requires NoneOf(a, Terminators) && NoneOf(b, Terminators) && (sep == " " || sep == "")
    ensures NoneOf(a + sep + b, Terminators)
  {
    NoneOfConcat(a, sep, Terminators);
    NoneOfConcat(a + sep, b, Terminators);
  }

  /** The overlap words joined back with spaces hold no terminator when the
      buffer holds none. */
  lemma OverlapHasNoTerminators(buffer: string, overlap: int)
    requires NoneOf(buffer, Terminators)
    ensures NoneOf(Join(OverlapWords(buffer, overlap), " "), Terminators)
  {
    var words := SplitOn(buffer, {' '});
    SplitOnKeepsNoneOf(buffer, {' '}, Terminators);
    var kept := OverlapWords(buffer, overlap);
    forall k | 0 <= k < |kept| ensures NoneOf(kept[k], Terminators) {
      assert kept[k] == words[|words| - |kept| + k];
    }
    JoinKeepsNoneOf(kept, " ", Terminators);
  }

  /** What every returned chunk is: longer than 50 characters, trimmed, and
      free of sentence terminators. */
  predicate IsCleanChunk(c: string) {
    |c| > MinChunkLength && IsTrimmed(c) && NoneOf(c, Terminators)
  }

  lemma ChunksAreClean(text: string, chunkSize: int, overlap: int)
    ensures forall k :: 0 <= k < |Chunks(text, chunkSize, overlap)| ==>
      IsCleanChunk(Chunks(text, chunkSize, overlap)[k])
  {
    ChunksAreLongAndTrimmed(text, chunkSize, overlap);
    ChunksHaveNoTerminators(text, chunkSize, overlap);
  }

  /** No chunk contains '.', '!' or '?'. */
  lemma ChunksHaveNoTerminators(text: string, chunkSize: int, overlap: int)
    ensures forall k :: 0 <= k < |Chunks(text, chunkSize, overlap)| ==>
      NoneOf(Chunks(text, chunkSize, overlap)[k], Terminators)
  {
    var pieces := SentencePieces(text);
    var p := Pack(pieces, chunkSize, overlap);
    PackHasNoTerminators(pieces, chunkSize, overlap);
    var pre := Flush(p);
    if Trim(p.buffer) != [] {
      TrimKeepsNoneOf(p.buffer, Terminators);
      assert pre == p.closed + [Trim(p.buffer)];
      NoTerminatorsSnoc(p.closed, Trim(p.buffer));
    } else {
      assert pre == p.closed;
    }
    KeepLongKeepsNoTerminators(pre);
  }

  lemma NoTerminatorsSnoc(cs: seq<string>, c: string)
    requires forall k :: 0 <= k < |cs| ==> NoneOf(cs[k], Terminators)
    requires NoneOf(c, Terminators)
    ensures forall k :: 0 <= k < |cs + [c]| ==> NoneOf((cs + [c])[k], Terminators)
  {
  }

  lemma {:induction false} KeepLongKeepsNoTerminators(cs: seq<string>)
    requires forall k :: 0 <= k < |cs| ==> NoneOf(cs[k], Terminators)
    ensures forall k :: 0 <= k < |KeepLong(cs)| ==> NoneOf(KeepLong(cs)[k], Terminators)
    decreases |cs|
  {
    if cs != [] {
      KeepLongKeepsNoTerminators(cs[1..]);
    }
  }

  /** Some chunk of `cs` contains `t`. */
  predicate ContainedIn(cs: seq<string>, t: string) {
    exists k :: 0 <= k < |cs| && Contains(cs[k], t)
  }

  /** Every sentence seen so far lies, whole, in a closed chunk or in the
      buffer. */
  lemma {:induction false} PackKeepsSentences(ss: seq<string>, chunkSize: int, overlap: int)
    requires forall k :: 0 <= k < |ss| ==> Trim(ss[k]) != []
    ensures forall j :: 0 <= j < |ss| ==>
      ContainedIn(Pack(ss, chunkSize, overlap).closed, Trim(ss[j]))
      || Contains(Pack(ss, chunkSize, overlap).buffer, Trim(ss[j]))
    decreases |ss|
  {
    if ss != [] {
      var prefix := ss[..|ss| - 1];
      var p := Pack(prefix, chunkSize, overlap);
      var s := ss[|ss| - 1];
      var r := Pack(ss, chunkSize, overlap);
      assert r == Step(p, s, chunkSize, overlap);
      PackKeepsSentences(prefix, chunkSize, overlap);
      forall j | 0 <= j < |ss|
        ensures ContainedIn(r.closed, Trim(ss[j])) || Contains(r.buffer, Trim(ss[j]))
      {
        if j == |ss| - 1 {
          StepHoldsSentence(p, s, chunkSize, overlap);
        } else {
          assert prefix[j] == ss[j];
          StepKeepsSentence(p, s, chunkSize, overlap, Trim(ss[j]));
        }
      }
    }
  }

  /** After a turn the buffer holds the sentence just packed. */
  lemma StepHoldsSentence(p: Packing, sentence: string, chunkSize: int, overlap: int)
    ensures Contains(Step(p, sentence, chunkSize, overlap).buffer, Trim(sentence))
  {
    var t := Trim(sentence);
    var r := Step(p, sentence, chunkSize, overlap);
    if Closes(p, sentence, chunkSize) {
      var carried := Join(OverlapWords(p.buffer, overlap), " ") + " ";
      assert r.buffer == carried + t;
      ContainsAtEnd(carried, t);
    } else {
      var sep := if p.buffer != [] then " " else "";
      assert r.buffer == p.buffer + sep + t;
      ContainsAtEnd(p.buffer + sep, t);
    }
  }

  lemma ContainsAtEnd(s: string, t: string)
    ensures Contains(s + t, t)
  {
    assert (s + t)[|s|..|s| + |t|] == t;
    assert OccursAt(s + t, t, |s|);
  }

  /** A turn loses no sentence: one in a closed chunk stays there, and one in
      the buffer moves into the chunk the turn closes or stays in the
      buffer. */
  lemma StepKeepsSentence(p: Packing, sentence: string, chunkSize: int, overlap: int, u: string)
    requires u != [] && IsTrimmed(u)
    requires ContainedIn(p.closed, u) || Contains(p.buffer, u)
    ensures var r := Step(p, sentence, chunkSize, overlap);
      ContainedIn(r.closed, u) || Contains(r.buffer, u)
  {
    var r := Step(p, sentence, chunkSize, overlap);
    if Closes(p, sentence, chunkSize) {
      assert r.closed == p.closed + [Trim(p.buffer)];
      if ContainedIn(p.closed, u) {
        ContainedInSnoc(p.closed, Trim(p.buffer), u);
      } else {
        ContainsTrim(p.buffer, u);
        ContainedInLast(p.closed, Trim(p.buffer), u);
      }
    } else {
      assert r.closed == p.closed;
      if !ContainedIn(p.closed, u) {
        var sep := if p.buffer != [] then " " else "";
        assert r.buffer == [] + p.buffer + (sep + Trim(sentence));
        ContainsExtend(p.buffer, u, [], sep + Trim(sentence));
      }
    }
  }

  lemma ContainedInSnoc(cs: seq<string>, c: string, u: string)
    requires ContainedIn(cs, u)
    ensures ContainedIn(cs + [c], u)
  {
    var k :| 0 <= k < |cs| && Contains(cs[k], u);
    assert (cs + [c])[k] == cs[k];
  }

  lemma ContainedInLast(cs: seq<string>, c: string, u: string)
    requires Contains(c, u)
    ensures ContainedIn(cs + [c], u)
  {
    assert (cs + [c])[|cs|] == c;
  }

  /** A sentence is never cut: each one, however long, lies whole inside
      some chunk before the length filter. */
  lemma SentenceNeverCut(text: string, chunkSize: int, overlap: int)
    ensures forall j :: 0 <= j < |Sentences(text)| ==>
      ContainedIn(PreFilterChunks(text, chunkSize, overlap), Sentences(text)[j])
  {
    var ss := SentencePieces(text);
    var p := Pack(ss, chunkSize, overlap);
    var out := Flush(p);
    PackKeepsSentences(ss, chunkSize, overlap);
    forall j | 0 <= j < |Sentences(text)| ensures ContainedIn(out, Sentences(text)[j]) {
      var u := Trim(ss[j]);
      assert Sentences(text)[j] == u;
      if ContainedIn(p.closed, u) {
        var k :| 0 <= k < |p.closed| && Contains(p.closed[k], u);
        assert out[k] == p.closed[k];
      } else {
        ContainsTrim(p.buffer, u);
        assert out[|p.closed|] == Trim(p.buffer);
      }
    }
  }

  /** With `0 <= overlap < 10` the count `floor(overlap / 10)` is zero and
      `slice(-0)` keeps every word, so a closed buffer is carried over whole
      into the next one. */
  lemma ZeroOverlapCarriesWholeBuffer(p: Packing, sentence: string, chunkSize: int, overlap: int)
    requires 0 <= overlap < 10 && Closes(p, sentence, chunkSize)
    ensures Step(p, sentence, chunkSize, overlap).buffer == p.buffer + " " + Trim(sentence)
  {
    JoinSplit(p.buffer, ' ');
  }
}

=== FILE: tally.dfy ===
/** Counting, grouping and ordering over in-memory collections: the meaning
    of the database's `$group`, `$sum`, `$sort` and `countDocuments` stages
    when they run over a sequence of records. */
module Tally {

  // ---------------------------------------------------------------------------
  // counting

  /** How many elements satisfy `p`. */
  function Count<T>(xs: seq<T>, p: T -> bool): (n: nat)
    ensures n <= |xs|
    decreases |xs|
  {
    if xs == [] then 0 else Count(xs[..|xs| - 1], p) + (if p(xs[|xs| - 1]) then 1 else 0)
  }

  lemma CountSnoc<T>(xs: seq<T>, x: T, p: T -> bool)
    ensures Count(xs + [x], p) == Count(xs, p) + (if p(x) then 1 else 0)
  {
    assert (xs + [x])[..|xs|] == xs;
  }

  /** Counting with a predicate that implies another never counts more. */
  lemma {:induction false} CountMonotone<T>(xs: seq<T>, p: T -> bool, q: T -> bool)
    requires forall x :: p(x) ==> q(x)
    ensures Count(xs, p) <= Count(xs, q)
    decreases |xs|
  {
    if xs != [] {
      CountMonotone(xs[..|xs| - 1], p, q);
    }
  }

  /** When every element satisfies `p`, all are counted. */
  lemma {:induction false} CountAll<T>(xs: seq<T>, p: T -> bool)
    requires forall i :: 0 <= i < |xs| ==> p(xs[i])
    ensures Count(xs, p) == |xs|
    decreases |xs|
  {
    if xs != [] {
      CountAll(xs[..|xs| - 1], p);
    }
  }

  /** Two predicates that never hold together count no more than the
      elements. */
  lemma {:induction false} CountDisjoint<T>(xs: seq<T>, p: T -> bool, q: T -> bool)
    requires forall i :: 0 <= i < |xs| ==> !(p(xs[i]) && q(xs[i]))
    ensures Count(xs, p) + Count(xs, q) <= |xs|
    decreases |xs|
  {
    if xs != [] {
      CountDisjoint(xs[..|xs| - 1], p, q);
    }
  }

  /** The elements that satisfy `p`, in order. */
  function Filter<T>(xs: seq<T>, p: T -> bool): (r: seq<T>)
    ensures |r| == Count(xs, p)
    ensures forall i :: 0 <= i < |r| ==> p(r[i])
    ensures multiset(r) <= multiset(xs)
    decreases |xs|
  {
    if xs == [] then []
    else
      var rest := Filter(xs[..|xs| - 1], p);
      assert xs == xs[..|xs| - 1] + [xs[|xs| - 1]];
      if p(xs[|xs| - 1]) then rest + [xs[|xs| - 1]] else rest
  }

  /** Every element of `xs` that satisfies `p` is kept. */
  lemma {:induction false} FilterKeeps<T>(xs: seq<T>, p: T -> bool, i: int)
    requires 0 <= i < |xs| && p(xs[i])
    ensures xs[i] in Filter(xs, p)
    decreases |xs|
  {
    if i < |xs| - 1 {
      FilterKeeps(xs[..|xs| - 1], p, i);
    }
  }

  /** The sum of `f` over the elements. */
  function SumOf<T>(xs: seq<T>, f: T -> int): int
    decreases |xs|
  {
    if xs == [] then 0 else SumOf(xs[..|xs| - 1], f) + f(xs[|xs| - 1])
  }

  lemma {:induction false} SumOfRemove<T>(ys: seq<T>, j: nat, f: T -> int)
    requires j < |ys|
    ensures SumOf(ys, f) == SumOf(ys[..j] + ys[j + 1..], f) + f(ys[j])
    decreases |ys|
  {
    if j < |ys| - 1 {
      var init := ys[..|ys| - 1];
      SumOfRemove(init, j, f);
      assert init[..j] + init[j + 1..] == (ys[..j] + ys[j + 1..])[..|ys| - 2];
    } else {
      assert ys[..j] + ys[j + 1..] == ys[..|ys| - 1];
    }
  }

  /** The sum does not depend on the order of the elements. */
  lemma {:induction false} SumOfPermutation<T>(xs: seq<T>, ys: seq<T>, f: T -> int)
    requires multiset(xs) == multiset(ys)
    ensures SumOf(xs, f) == SumOf(ys, f)
    decreases |xs|
  {
    if xs != [] {
      var init := xs[..|xs| - 1];
      var last := xs[|xs| - 1];
      assert last in multiset(ys);
      var j :| 0 <= j < |ys| && ys[j] == last;
      var rest := ys[..j] + ys[j + 1..];
      assert ys == ys[..j] + [last] + ys[j + 1..];
      assert xs == init + [last];
      assert multiset(rest) == multiset(ys) - multiset{last};
      assert multiset(init) == multiset(xs) - multiset{last};
      SumOfPermutation(init, rest, f);
      SumOfRemove(ys, j, f);
    }
  }

  // ---------------------------------------------------------------------------
  // occurrences and distinct values

  /** How many times `v` occurs. */
  function Occurrences<T(==)>(xs: seq<T>, v: T): nat {
    multiset(xs)[v]
  }

  /** The distinct values of `xs`, each at its first occurrence. */
  function Distinct<T(==)>(xs: seq<T>): (r: seq<T>)
    ensures forall i, j :: 0 <= i < j < |r| ==> r[i] != r[j]
    ensures forall i :: 0 <= i < |r| ==> r[i] in xs
    ensures forall i :: 0 <= i < |xs| ==> xs[i] in r
    decreases |xs|
  {
    if xs == [] then []
    else
      var rest := Distinct(xs[..|xs| - 1]);
      assert xs == xs[..|xs| - 1] + [xs[|xs| - 1]];
      if xs[|xs| - 1] in rest then rest else rest + [xs[|xs| - 1]]
  }

  /** The occurrences of the distinct values add up to the length. */
  lemma {:induction false} DistinctOccurrencesSum<T>(xs: seq<T>)
    ensures SumOccurrences(Distinct(xs), xs) == |xs|
    decreases |xs|
  {
    if xs != [] {
      var init := xs[..|xs| - 1];
      var x := xs[|xs| - 1];
      var rest := Distinct(init);
      assert xs == init + [x];
      DistinctOccurrencesSum(init);
      SumOccurrencesSnoc(rest, init, x);
      if x !in rest {
        SumOccurrencesAppend(rest, x, xs);
        assert Occurrences(xs, x) == 1 by {
          assert x !in init;
          assert multiset(xs) == multiset(init) + multiset{x};
        }
      }
    }
  }

  /** The total number of occurrences of the values `vs` in `xs`. */
  function SumOccurrences<T(==)>(vs: seq<T>, xs: seq<T>): nat
    decreases |vs|
  {
    if vs == [] then 0 else SumOccurrences(vs[..|vs| - 1], xs) + Occurrences(xs, vs[|vs| - 1])
  }

  /** One more element `x` adds one to the total when `x` is among the values
      and nothing otherwise. */
  lemma {:induction false} SumOccurrencesSnoc<T>(vs: seq<T>, xs: seq<T>, x: T)
    requires forall i, j :: 0 <= i < j < |vs| ==> vs[i] != vs[j]
    ensures SumOccurrences(vs, xs + [x]) == SumOccurrences(vs, xs) + (if x in vs then 1 else 0)
    decreases |vs|
  {
    if vs != [] {
      var init := vs[..|vs| - 1];
      var last := vs[|vs| - 1];
      SumOccurrencesSnoc(init, xs, x);
      assert multiset(xs + [x]) == multiset(xs) + multiset{x};
      if x == last {
        assert x !in init by {
          forall i | 0 <= i < |init| ensures init[i] != x {
            assert vs[i] != vs[|vs| - 1];
          }
        }
      }
      assert x in vs <==> x in init || x == last;
    }
  }

  lemma SumOccurrencesAppend<T>(vs: seq<T>, v: T, xs: seq<T>)
    ensures SumOccurrences(vs + [v], xs) == SumOccurrences(vs, xs) + Occurrences(xs, v)
  {
    assert (vs + [v])[..|vs|] == vs;
  }

  /** The map's value at each of `ks` (0 where absent), added up. */
  function SumAt<K(==)>(m: map<K, nat>, ks: seq<K>): nat {
    if ks == [] then 0
    else SumAt(m, ks[..|ks| - 1]) + (if ks[|ks| - 1] in m then m[ks[|ks| - 1]] else 0)
  }

  lemma {:induction false} SumAtGroups<K>(m: map<K, nat>, ds: seq<K>, keys: seq<K>)
    requires forall i :: 0 <= i < |ds| ==> ds[i] in m && m[ds[i]] == Occurrences(keys, ds[i])
    ensures SumAt(m, ds) == SumOccurrences(ds, keys)
    decreases |ds|
  {
    if ds != [] {
      SumAtGroups(m, ds[..|ds| - 1], keys);
    }
  }

  // ---------------------------------------------------------------------------
  // ordering

  /** Non-increasing by `key`. */
  predicate SortedDesc<T>(xs: seq<T>, key: T -> int) {
    forall i, j :: 0 <= i < j < |xs| ==> key(xs[i]) >= key(xs[j])
  }

  /** Insertion of `x` before the first element with a smaller key. */
  function InsertDesc<T(==)>(x: T, sorted: seq<T>, key: T -> int): (r: seq<T>)
    ensures multiset(r) == multiset(sorted) + multiset{x}
    ensures |r| == |sorted| + 1
    decreases |sorted|
  {
    if sorted == [] || key(x) > key(sorted[0]) then [x] + sorted
    else
      assert sorted == [sorted[0]] + sorted[1..];
      [sorted[0]] + InsertDesc(x, sorted[1..], key)
  }

  lemma {:induction false} InsertDescMembers<T>(x: T, sorted: seq<T>, key: T -> int)
    ensures forall j :: 0 <= j < |InsertDesc(x, sorted, key)| ==>
      InsertDesc(x, sorted, key)[j] == x || InsertDesc(x, sorted, key)[j] in sorted
    decreases |sorted|
  {
    if !(sorted == [] || key(x) > key(sorted[0])) {
      InsertDescMembers(x, sorted[1..], key);
      assert forall y :: y in sorted[1..] ==> y in sorted;
    }
  }

  lemma {:induction false} InsertDescSorted<T>(x: T, sorted: seq<T>, key: T -> int)
    requires SortedDesc(sorted, key)
    ensures SortedDesc(InsertDesc(x, sorted, key), key)
    decreases |sorted|
  {
    if !(sorted == [] || key(x) > key(sorted[0])) {
      var head := sorted[0];
      var tail := sorted[1..];
      InsertDescSorted(x, tail, key);
      InsertDescMembers(x, tail, key);
      var rest := InsertDesc(x, tail, key);
      forall j | 0 <= j < |rest| ensures key(head) >= key(rest[j]) {
        if rest[j] != x {
          var k :| 0 <= k < |tail| && tail[k] == rest[j];
          assert tail[k] == sorted[k + 1];
        }
      }
      assert InsertDesc(x, sorted, key) == [head] + rest;
    }
  }

  /** The database's `$sort` on a key, descending: a permutation of the input
      ordered by the key. */
  function SortDesc<T(==)>(xs: seq<T>, key: T -> int): (r: seq<T>)
    ensures multiset(r) == multiset(xs)
    ensures |r| == |xs|
    ensures SortedDesc(r, key)
    decreases |xs|
  {
    if xs == [] then []
    else
      assert xs == xs[..|xs| - 1] + [xs[|xs| - 1]];
      var sorted := SortDesc(xs[..|xs| - 1], key);
      InsertDescSorted(xs[|xs| - 1], sorted, key);
      InsertDesc(xs[|xs| - 1], sorted, key)
  }

  /** A property of every element survives a permutation. */
  lemma PermutationKeeps<T>(xs: seq<T>, ys: seq<T>, p: T -> bool)
    requires multiset(xs) == multiset(ys)
    requires forall j :: 0 <= j < |ys| ==> p(ys[j])
    ensures forall i :: 0 <= i < |xs| ==> p(xs[i])
  {
    forall i | 0 <= i < |xs| ensures p(xs[i]) {
      assert xs[i] in multiset(ys);
      var j :| 0 <= j < |ys| && ys[j] == xs[i];
    }
  }

  /** No element occurs twice. */
  predicate NoDuplicates<T(==)>(xs: seq<T>) {
    forall i, j :: 0 <= i < j < |xs| ==> xs[i] != xs[j]
  }

  lemma OccursTwice<T>(xs: seq<T>, i: nat, j: nat)
    requires i < j < |xs| && xs[i] == xs[j]
    ensures multiset(xs)[xs[i]] >= 2
  {
    assert xs == xs[..j] + [xs[j]] + xs[j + 1..];
    assert xs[..j][i] == xs[i];
    assert xs[i] in multiset(xs[..j]);
  }

  lemma OccursOnce<T>(xs: seq<T>, k: nat)
    requires NoDuplicates(xs) && k < |xs|
    ensures multiset(xs)[xs[k]] == 1
  {
    var x := xs[k];
    assert xs == xs[..k] + [x] + xs[k + 1..];
    assert x !in xs[..k] by {
      forall i | 0 <= i < k ensures xs[..k][i] != x {
        assert xs[i] != xs[k];
      }
    }
  }

  /** A prefix of a sequence without duplicates has none. */
  lemma PrefixNoDuplicates<T>(xs: seq<T>, n: nat)
    requires NoDuplicates(xs) && n <= |xs|
    ensures NoDuplicates(xs[..n])
  {
    forall i, j | 0 <= i < j < n ensures xs[..n][i] != xs[..n][j] {
      assert xs[i] != xs[j];
    }
  }

  /** A permutation of a sequence without duplicates has none. */
  lemma PermutationNoDuplicates<T>(xs: seq<T>, ys: seq<T>)
    requires multiset(xs) == multiset(ys) && NoDuplicates(ys)
    ensures NoDuplicates(xs)
  {
    forall i, j | 0 <= i < j < |xs| ensures xs[i] != xs[j] {
      if xs[i] == xs[j] {
        OccursTwice(xs, i, j);
        assert xs[i] in multiset(ys);
        var k :| 0 <= k < |ys| && ys[k] == xs[i];
        OccursOnce(ys, k);
      }
    }
  }

  /** `.skip(n)` followed by `.limit(m)`, where a limit of zero means no
      limit. */
  function SkipLimit<T>(xs: seq<T>, skip: nat, limit: nat): (r: seq<T>)
    ensures limit > 0 ==> |r| <= limit
    ensures skip >= |xs| ==> r == []
    ensures skip < |xs| ==> r <= xs[skip..]
    ensures skip < |xs| && (limit == 0 || |xs| - skip <= limit) ==> r == xs[skip..]
  {
    var rest := if skip < |xs| then xs[skip..] else [];
    if limit == 0 || |rest| <= limit then rest else rest[..limit]
  }

  /** A page of a sorted sequence is sorted, holds only elements of the
      sequence, and keeps every property all of them have. */
  lemma SkipLimitSorted<T>(xs: seq<T>, skip: nat, limit: nat, key: T -> int, p: T -> bool)
    requires SortedDesc(xs, key)
    requires forall i :: 0 <= i < |xs| ==> p(xs[i])
    ensures SortedDesc(SkipLimit(xs, skip, limit), key)
    ensures multiset(SkipLimit(xs, skip, limit)) <= multiset(xs)
    ensures forall i :: 0 <= i < |SkipLimit(xs, skip, limit)| ==> p(SkipLimit(xs, skip, limit)[i])
  {
    var r := SkipLimit(xs, skip, limit);
    var lo := if skip < |xs| then skip else |xs|;
    assert r == xs[lo..lo + |r|];
    assert xs == xs[..lo] + r + xs[lo + |r|..];
    assert multiset(xs) == multiset(xs[..lo]) + multiset(r) + multiset(xs[lo + |r|..]);
    forall i | 0 <= i < |r| ensures p(r[i]) {
      assert r[i] == xs[lo + i];
    }
  }

  /** The first `limit` elements in descending order keep every property
      all elements have. */
  lemma SortedPageKeeps<T>(xs: seq<T>, key: T -> int, limit: nat, p: T -> bool)
    requires forall i :: 0 <= i < |xs| ==> p(xs[i])
    ensures forall i :: 0 <= i < |SkipLimit(SortDesc(xs, key), 0, limit)| ==> p(SkipLimit(SortDesc(xs, key), 0, limit)[i])
  {
    var sorted := SortDesc(xs, key);
    PermutationKeeps(sorted, xs, p);
    SkipLimitSorted(sorted, 0, limit, key, p);
  }

  /** An element of a sorted sequence left off its first page fills no
      page that is not full, and its key is at most the page's last. */
  lemma OffFirstPage<T>(xs: seq<T>, x: T, limit: nat, key: T -> int)
    requires SortedDesc(xs, key) && limit > 0
    requires x in xs && x !in SkipLimit(xs, 0, limit)
    ensures |SkipLimit(xs, 0, limit)| == limit
    ensures key(x) <= key(SkipLimit(xs, 0, limit)[limit - 1])
  {
    var j :| 0 <= j < |xs| && xs[j] == x;
    if j < limit {
      SkipLimitHolds(xs, 0, limit, j);
    }
    assert SkipLimit(xs, 0, limit) == xs[..limit];
  }

  /** The `limit` elements of `xs` that match `p` with the highest keys,
      highest first: `filter`, `sort` descending, then `limit`, where 0
      means no limit. Leaving a match out means the page is full and the
      match ranks no higher than the page's last element. */
  function TopMatches<T(==)>(xs: seq<T>, p: T -> bool, key: T -> int, limit: nat): (r: seq<T>)
    ensures SortedDesc(r, key)
    ensures forall i :: 0 <= i < |r| ==> r[i] in xs && p(r[i])
    ensures multiset(r) <= multiset(xs)
    ensures |r| == if limit == 0 || Count(xs, p) <= limit then Count(xs, p) else limit
    ensures forall x :: x in xs && p(x) && x !in r ==> limit > 0 && |r| == limit && key(x) <= key(r[|r| - 1])
  {
    TopMatchesFromXs(xs, p, key, limit);
    FirstPageKeepsTop(xs, p, key, limit);
    SkipLimit(SortDesc(Filter(xs, p), key), 0, limit)
  }

  /** The first page of the sorted matches is sorted and holds matches of
      `xs`, none more often than in `xs`. */
  lemma TopMatchesFromXs<T>(xs: seq<T>, p: T -> bool, key: T -> int, limit: nat)
    ensures var page := SkipLimit(SortDesc(Filter(xs, p), key), 0, limit);
      && SortedDesc(page, key)
      && (forall i :: 0 <= i < |page| ==> page[i] in xs && p(page[i]))
      && multiset(page) <= multiset(xs)
  {
    var kept := Filter(xs, p);
    var sorted := SortDesc(kept, key);
    var keeps := (x: T) => x in xs && p(x);
    forall i | 0 <= i < |kept| ensures keeps(kept[i]) {
      assert kept[i] in multiset(xs);
    }
    PermutationKeeps(sorted, kept, keeps);
    SkipLimitSorted(sorted, 0, limit, key, keeps);
  }

  /** The first page of the sorted matches leaves a match out only when the
      page is full and the match ranks no higher than its last element. */
  lemma FirstPageKeepsTop<T>(xs: seq<T>, p: T -> bool, key: T -> int, limit: nat)
    ensures var page := SkipLimit(SortDesc(Filter(xs, p), key), 0, limit);
      forall x :: x in xs && p(x) && x !in page ==> limit > 0 && |page| == limit && key(x) <= key(page[limit - 1])
  {
    var sorted := SortDesc(Filter(xs, p), key);
    var page := SkipLimit(sorted, 0, limit);
    forall x | x in xs && p(x) && x !in page
      ensures limit > 0 && |page| == limit && key(x) <= key(page[limit - 1])
    {
      var k :| 0 <= k < |xs| && xs[k] == x;
      FilterKeeps(xs, p, k);
      assert x in multiset(sorted);
      assert limit > 0;
      OffFirstPage(sorted, x, limit, key);
    }
  }

  /** An element at position `k` is on the page that skips at most `k` and
      keeps more than `k - skip`. */
  lemma SkipLimitHolds<T>(xs: seq<T>, skip: nat, limit: nat, k: nat)
    requires skip <= k < |xs| && k < skip + limit
    ensures xs[k] in SkipLimit(xs, skip, limit)
  {
    var r := SkipLimit(xs, skip, limit);
    assert r[k - skip] == xs[k];
  }
}

=== FILE: text.dfy ===
/** String helpers with the meaning of the JavaScript built-ins the backend
    uses: `trim`, `split` on one character, `join`, `includes`, ASCII
    `toLowerCase`, and decimal rendering and parsing of numbers. A JavaScript
    string is modelled as a sequence of code points. */
module Text {
  import opened Wrappers

  /** The characters `String.prototype.trim` removes: white space and line
      terminators. */
  predicate IsWhitespace(c: char) {
    || c == ' ' || ('\t' <= c <= '\r') || c == '\U{00A0}' || c == '\U{1680}'
    || ('\U{2000}' <= c <= '\U{200A}') || c == '\U{2028}' || c == '\U{2029}'
    || c == '\U{202F}' || c == '\U{205F}' || c == '\U{3000}' || c == '\U{FEFF}'
  }

  /** No white space at either end. */
  predicate IsTrimmed(s: string) {
    s == [] || (!IsWhitespace(s[0]) && !IsWhitespace(s[|s| - 1]))
  }

  /** Only white space. */
  predicate IsBlank(s: string) {
    forall i :: 0 <= i < |s| ==> IsWhitespace(s[i])
  }

  /** `s` holds none of the characters in `cs`. */
  predicate NoneOf(s: string, cs: set<char>) {
    forall i :: 0 <= i < |s| ==> s[i] !in cs
  }

  function TrimStart(s: string): (r: string)
    ensures |r| <= |s| && r == s[|s| - |r|..]
    ensures r == [] || !IsWhitespace(r[0])
    decreases |s|
  {
    if s != [] && IsWhitespace(s[0]) then TrimStart(s[1..]) else s
  }

  function TrimEnd(s: string): (r: string)
    ensures |r| <= |s| && r == s[..|r|]
    ensures r == [] || !IsWhitespace(r[|r| - 1])
    decreases |s|
  {
    if s != [] && IsWhitespace(s[|s| - 1]) then TrimEnd(s[..|s| - 1]) else s
  }

  /** `String.prototype.trim`. */
  function Trim(s: string): (r: string)
    ensures IsTrimmed(r) && |r| <= |s|
  {
    TrimEnd(TrimStart(s))
  }

  /** Only white space is skipped at the start. */
  lemma {:induction false} TrimStartSkipsWhitespace(s: string)
    ensures forall k :: 0 <= k < |s| - |TrimStart(s)| ==> IsWhitespace(s[k])
    decreases |s|
  {
    if s != [] && IsWhitespace(s[0]) {
      TrimStartSkipsWhitespace(s[1..]);
      forall k | 1 <= k < |s| - |TrimStart(s)| ensures IsWhitespace(s[k]) {
        assert s[k] == s[1..][k - 1];
      }
    }
  }

  /** Only white space is skipped at the end. */
  lemma {:induction false} TrimEndSkipsWhitespace(s: string)
    ensures forall k :: |TrimEnd(s)| <= k < |s| ==> IsWhitespace(s[k])
    decreases |s|
  {
    if s != [] && IsWhitespace(s[|s| - 1]) {
      TrimEndSkipsWhitespace(s[..|s| - 1]);
    }
  }

  /** The trimmed string is the slice of `s` between its leading and its
      trailing white space. */
  lemma TrimIsSlice(s: string) returns (a: nat)
    ensures a + |Trim(s)| <= |s| && Trim(s) == s[a..a + |Trim(s)|]
    ensures forall k :: 0 <= k < a ==> IsWhitespace(s[k])
    ensures forall k :: a + |Trim(s)| <= k < |s| ==> IsWhitespace(s[k])
  {
    var ts := TrimStart(s);
    var r := TrimEnd(ts);
    TrimStartSkipsWhitespace(s);
    TrimEndSkipsWhitespace(ts);
    a := |s| - |ts|;
    assert Trim(s) == r;
    assert ts == s[a..] && r == ts[..|r|];
    PrefixOfSuffix(s, a, ts, r);
  }

  /** A prefix `r` of the suffix `ts` of `s` from `a` is the slice of `s`
      from `a`; what follows `r` in `ts` follows it in `s`. */
  lemma PrefixOfSuffix(s: string, a: nat, ts: string, r: string)
    requires a <= |s| && ts == s[a..] && |r| <= |ts| && r == ts[..|r|]
    requires forall k :: |r| <= k < |ts| ==> IsWhitespace(ts[k])
    ensures a + |r| <= |s| && r == s[a..a + |r|]
    ensures forall k :: a + |r| <= k < |s| ==> IsWhitespace(s[k])
  {
    forall k | a + |r| <= k < |s| ensures IsWhitespace(s[k]) {
      assert s[k] == ts[k - a];
    }
  }

  /** Trimming is idempotent, and a trimmed string is its own trim. */
  lemma TrimOfTrimmed(s: string)
    requires IsTrimmed(s)
    ensures Trim(s) == s
  {
  }

  /** The trim is empty exactly when the string is blank. */
  lemma {:induction false} TrimEmptyIffBlank(s: string)
    ensures Trim(s) == [] <==> IsBlank(s)
  {
    var a := TrimIsSlice(s);
    if Trim(s) != [] {
      assert !IsWhitespace(s[a]);
    }
  }

  /** Trimming removes characters and adds none. */
  lemma TrimKeepsNoneOf(s: string, cs: set<char>)
    requires NoneOf(s, cs)
    ensures NoneOf(Trim(s), cs)
  {
    var a := TrimIsSlice(s);
    var r := Trim(s);
    forall i | 0 <= i < |r| ensures r[i] !in cs {
      assert r[i] == s[a + i];
    }
  }

  lemma NoneOfConcat(a: string, b: string, cs: set<char>)
    requires NoneOf(a, cs) && NoneOf(b, cs)
    ensures NoneOf(a + b, cs)
  {
  }

  // ---------------------------------------------------------------------------
  // split and join

  /** `s.split(c)` for a one-character separator, generalised to a set of
      single-character separators: every separator character ends one piece
      and starts the next, so there is always at least one piece. */
  function SplitOn(s: string, seps: set<char>): (r: seq<string>)
    ensures |r| >= 1
    ensures forall k :: 0 <= k < |r| ==> NoneOf(r[k], seps)
    decreases |s|
  {
    if s == [] then [[]]
    else
      var rest := SplitOn(s[1..], seps);
      if s[0] in seps then [[]] + rest
      else [[s[0]] + rest[0]] + rest[1..]
  }

  /** `parts.join(sep)`. */
  function Join(parts: seq<string>, sep: string): string
    decreases |parts|
  {
    if |parts| == 0 then ""
    else if |parts| == 1 then parts[0]
    else parts[0] + sep + Join(parts[1..], sep)
  }

  /** Joining the pieces of a split on one character with that character
      gives the string back. */
  lemma {:induction false} JoinSplit(s: string, c: char)
    ensures Join(SplitOn(s, {c}), [c]) == s
    decreases |s|
  {
    if s != [] {
      var rest := SplitOn(s[1..], {c});
      JoinSplit(s[1..], c);
      if s[0] == c {
        assert SplitOn(s, {c}) == [[]] + rest;
        assert ([[]] + rest)[1..] == rest;
      } else {
        var r := SplitOn(s, {c});
        assert r == [[s[0]] + rest[0]] + rest[1..];
        if |rest| == 1 {
          assert r == [[s[0]] + rest[0]];
        } else {
          assert r[1..] == rest[1..];
          assert Join(rest, [c]) == rest[0] + [c] + Join(rest[1..], [c]);
        }
      }
    }
  }

  /** Joining one more part adds the separator and the part at the end. */
  lemma {:induction false} JoinSnoc(parts: seq<string>, x: string, sep: string)
    requires parts != []
    ensures Join(parts + [x], sep) == Join(parts, sep) + sep + x
    decreases |parts|
  {
    if |parts| == 1 {
      assert parts + [x] == [parts[0], x];
      assert [parts[0], x][1..] == [x];
    } else {
      assert (parts + [x])[1..] == parts[1..] + [x];
      JoinSnoc(parts[1..], x, sep);
    }
  }

  /** Every part occurs in the joined string. */
  lemma {:induction false} JoinContainsPart(parts: seq<string>, sep: string, k: int)
    requires 0 <= k < |parts|
    ensures Contains(Join(parts, sep), parts[k])
    decreases |parts|
  {
    if |parts| == 1 {
      ContainsSelf(parts[0]);
    } else if k == 0 {
      ContainsSelf(parts[0]);
      ContainsExtend(parts[0], parts[0], [], sep + Join(parts[1..], sep));
      assert [] + parts[0] + (sep + Join(parts[1..], sep)) == Join(parts, sep);
    } else {
      JoinContainsPart(parts[1..], sep, k - 1);
      ContainsExtend(Join(parts[1..], sep), parts[k], parts[0] + sep, []);
      assert parts[0] + sep + Join(parts[1..], sep) + [] == Join(parts, sep);
    }
  }

  /** Every character of every piece is a character of the split string: a
      property `P` of all characters of `s` holds of all characters of the
      pieces. */
  lemma {:induction false} SplitOnChars(s: string, seps: set<char>, P: char -> bool)
    requires forall i :: 0 <= i < |s| ==> P(s[i])
    ensures forall k, i :: 0 <= k < |SplitOn(s, seps)| && 0 <= i < |SplitOn(s, seps)[k]| ==> P(SplitOn(s, seps)[k][i])
    decreases |s|
  {
    if s != [] {
      SplitOnChars(s[1..], seps, P);
    }
  }

  /** Every piece of a split holds no character the split string lacks. */
  lemma {:induction false} SplitOnKeepsNoneOf(s: string, seps: set<char>, cs: set<char>)
    requires NoneOf(s, cs)
    ensures forall k :: 0 <= k < |SplitOn(s, seps)| ==> NoneOf(SplitOn(s, seps)[k], cs)
    decreases |s|
  {
    if s != [] {
      SplitOnKeepsNoneOf(s[1..], seps, cs);
    }
  }

  lemma {:induction false} JoinKeepsNoneOf(parts: seq<string>, sep: string, cs: set<char>)
    requires forall k :: 0 <= k < |parts| ==> NoneOf(parts[k], cs)
    requires NoneOf(sep, cs)
    ensures NoneOf(Join(parts, sep), cs)
    decreases |parts|
  {
    if |parts| > 1 {
      JoinKeepsNoneOf(parts[1..], sep, cs);
    }
  }

  // ---------------------------------------------------------------------------
  // substrings

  predicate OccursAt(s: string, t: string, i: int) {
    0 <= i && i + |t| <= |s| && s[i..i + |t|] == t
  }

  /** `s.includes(t)`. */
  predicate Contains(s: string, t: string) {
    exists i | 0 <= i <= |s| - |t| :: OccursAt(s, t, i)
  }

  lemma ContainsSelf(t: string)
    ensures Contains(t, t)
  {
    assert OccursAt(t, t, 0);
  }

  lemma ContainsExtend(s: string, t: string, before: string, after: string)
    requires Contains(s, t)
    ensures Contains(before + s + after, t)
  {
    var i :| 0 <= i <= |s| - |t| && OccursAt(s, t, i);
    var u := before + s + after;
    assert u[|before| + i..|before| + i + |t|] == s[i..i + |t|];
    assert OccursAt(u, t, |before| + i);
  }

  /** A substring of a substring is a substring. */
  lemma ContainsInContains(s: string, t: string, u: string)
    requires Contains(s, t) && Contains(t, u)
    ensures Contains(s, u)
  {
    var i :| 0 <= i <= |s| - |t| && OccursAt(s, t, i);
    var j :| 0 <= j <= |t| - |u| && OccursAt(t, u, j);
    var w := s[i + j..i + j + |u|];
    forall k | 0 <= k < |u| ensures w[k] == u[k] {
      assert s[i..i + |t|][j + k] == w[k];
      assert t[j..j + |u|][k] == u[k];
    }
    assert OccursAt(s, u, i + j);
  }

  /** A substring that starts and ends with a non-white-space character
      survives trimming. */
  lemma ContainsTrim(s: string, t: string)
    requires Contains(s, t) && t != [] && IsTrimmed(t)
    ensures Contains(Trim(s), t)
  {
    var a := TrimIsSlice(s);
    ContainedInSlice(s, t, a, Trim(s));
  }

  lemma ContainedInSlice(s: string, t: string, a: nat, r: string)
    requires Contains(s, t) && t != [] && IsTrimmed(t)
    requires a + |r| <= |s| && r == s[a..a + |r|]
    requires forall k :: 0 <= k < a ==> IsWhitespace(s[k])
    requires forall k :: a + |r| <= k < |s| ==> IsWhitespace(s[k])
    ensures Contains(r, t)
  {
    var i :| 0 <= i <= |s| - |t| && OccursAt(s, t, i);
    ContainedInCore(s, t, i, a, r);
  }

  /** Text that starts and ends with a non-white-space character and occurs
      in `s` occurs in the part of `s` between white space at either end. */
  lemma ContainedInCore(s: string, t: string, i: int, a: nat, r: string)
    requires OccursAt(s, t, i) && t != [] && IsTrimmed(t)
    requires a + |r| <= |s| && r == s[a..a + |r|]
    requires forall k :: 0 <= k < a ==> IsWhitespace(s[k])
    requires forall k :: a + |r| <= k < |s| ==> IsWhitespace(s[k])
    ensures Contains(r, t)
  {
    OccurrenceInside(s, t, i, a, a + |r|);
    OccursInSlice(s, t, i, a, a + |r|);
    assert 0 <= i - a <= |r| - |t| && OccursAt(r, t, i - a);
  }

  /** An occurrence of text that starts and ends with a non-white-space
      character lies between white space at the start and at the end. */
  lemma OccurrenceInside(s: string, t: string, i: int, a: int, b: int)
    requires OccursAt(s, t, i) && t != [] && IsTrimmed(t)
    requires 0 <= a <= b <= |s|
    requires forall k :: 0 <= k < a ==> IsWhitespace(s[k])
    requires forall k :: b <= k < |s| ==> IsWhitespace(s[k])
    ensures a <= i && i + |t| <= b
  {
    var j := i + |t| - 1;
    assert s[i] == t[0] by { assert s[i..i + |t|][0] == s[i]; }
    assert s[j] == t[|t| - 1] by { assert s[i..i + |t|][|t| - 1] == s[j]; }
  }

  lemma OccursInSlice(s: string, t: string, i: int, a: int, b: int)
    requires OccursAt(s, t, i) && 0 <= a <= i && i + |t| <= b <= |s|
    ensures OccursAt(s[a..b], t, i - a)
  {
    var u := s[a..b];
    forall k | 0 <= k < |t| ensures u[i - a + k] == t[k] {
      assert s[i..i + |t|][k] == s[i + k];
    }
    assert u[i - a..i - a + |t|] == t;
  }

  // ---------------------------------------------------------------------------
  // case

  predicate IsAsciiUpper(c: char) { 'A' <= c <= 'Z' }

  function LowerChar(c: char): char {
    if IsAsciiUpper(c) then (c as int + 32) as char else c
  }

  /** `toLowerCase`, for the ASCII letters. */
  function Lower(s: string): (r: string)
    ensures |r| == |s|
    ensures forall i :: 0 <= i < |s| ==> r[i] == LowerChar(s[i])
  {
    seq(|s|, i requires 0 <= i < |s| => LowerChar(s[i]))
  }

  lemma LowerConcat(a: string, b: string)
    ensures Lower(a + b) == Lower(a) + Lower(b)
  {
  }

  lemma LowerIdempotent(s: string)
    ensures Lower(Lower(s)) == Lower(s)
  {
  }

  /** Lower-casing keeps every occurrence, lower-cased. */
  lemma LowerKeepsContains(s: string, t: string)
    requires Contains(s, t)
    ensures Contains(Lower(s), Lower(t))
  {
    var i :| 0 <= i <= |s| - |t| && OccursAt(s, t, i);
    forall k | 0 <= k < |t| ensures Lower(s)[i + k] == Lower(t)[k] {
      assert s[i..i + |t|][k] == s[i + k];
    }
    assert Lower(s)[i..i + |t|] == Lower(t);
    assert OccursAt(Lower(s), Lower(t), i);
  }

  /** A string without ASCII capitals is its own lower case. */
  lemma LowerOfNoCapitals(s: string)
    requires forall i :: 0 <= i < |s| ==> !IsAsciiUpper(s[i])
    ensures Lower(s) == s
  {
  }

  // ---------------------------------------------------------------------------
  // numbers

  predicate IsDigit(c: char) { '0' <= c <= '9' }

  function DigitChar(d: nat): char
    requires d < 10
  {
    ('0' as int + d) as char
  }

  function DigitValue(c: char): nat
    requires IsDigit(c)
  {
    c as int - '0' as int
  }

  /** `String(n)` for a non-negative integer. */
  function NatToString(n: nat): (r: string)
    ensures |r| >= 1
    ensures forall i :: 0 <= i < |r| ==> IsDigit(r[i])
    decreases n
  {
    if n < 10 then [DigitChar(n)] else NatToString(n / 10) + [DigitChar(n % 10)]
  }

  /** `String(n)` for any integer. */
  function IntToString(n: int): string {
    if n < 0 then "-" + NatToString(-n) else NatToString(n)
  }

  /** The value of a string of decimal digits. */
  function DigitsValue(s: string): nat
    requires forall i :: 0 <= i < |s| ==> IsDigit(s[i])
    decreases |s|
  {
    if s == [] then 0 else DigitsValue(s[..|s| - 1]) * 10 + DigitValue(s[|s| - 1])
  }

  lemma {:induction false} DigitsValueOfNatToString(n: nat)
    ensures DigitsValue(NatToString(n)) == n
    decreases n
  {
    if n >= 10 {
      DigitsValueOfNatToString(n / 10);
      var s := NatToString(n);
      assert s[..|s| - 1] == NatToString(n / 10);
    }
  }

  /** The longest prefix of decimal digits. */
  function LeadingDigits(s: string): (r: string)
    ensures r <= s
    ensures forall i :: 0 <= i < |r| ==> IsDigit(r[i])
    ensures |r| < |s| ==> !IsDigit(s[|r|])
    decreases |s|
  {
    if s != [] && IsDigit(s[0]) then [s[0]] + LeadingDigits(s[1..]) else []
  }

  /** A digit of base sixteen, in either case. */
  predicate IsHexDigit(c: char) {
    IsDigit(c) || 'a' <= c <= 'f' || 'A' <= c <= 'F'
  }

  function HexDigitValue(c: char): (v: nat)
    requires IsHexDigit(c)
    ensures v < 16
  {
    if IsDigit(c) then c as int - '0' as int
    else if 'a' <= c <= 'f' then c as int - 'a' as int + 10
    else c as int - 'A' as int + 10
  }

  /** The value of a string of hexadecimal digits. */
  function HexDigitsValue(s: string): nat
    requires forall i :: 0 <= i < |s| ==> IsHexDigit(s[i])
    decreases |s|
  {
    if s == [] then 0 else HexDigitsValue(s[..|s| - 1]) * 16 + HexDigitValue(s[|s| - 1])
  }

  /** The longest prefix of hexadecimal digits. */
  function LeadingHexDigits(s: string): (r: string)
    ensures r <= s
    ensures forall i :: 0 <= i < |r| ==> IsHexDigit(r[i])
    ensures |r| < |s| ==> !IsHexDigit(s[|r|])
    decreases |s|
  {
    if s != [] && IsHexDigit(s[0]) then [s[0]] + LeadingHexDigits(s[1..]) else []
  }

  /** `parseInt(s)` without a radix: leading white space, an optional sign,
      then the longest run of digits, read in base sixteen after a `0x` or
      `0X` prefix and in base ten otherwise; `None` stands for `NaN`. */
  function ParseInt(s: string): Option<int> {
    ParseSigned(TrimStart(s))
  }

  /** An optional sign, then the number's magnitude. */
  function ParseSigned(t: string): Option<int> {
    if t != [] && t[0] == '-' then
      match ParseMagnitude(t[1..])
      case None => None
      case Some(v) => Some(-(v as int))
    else if t != [] && t[0] == '+' then ParseMagnitude(t[1..])
    else ParseMagnitude(t)
  }

  /** The text after the sign opens with the prefix that selects base
      sixteen. */
  predicate HexPrefixed(body: string) {
    |body| >= 2 && body[0] == '0' && (body[1] == 'x' || body[1] == 'X')
  }

  /** The value of the digits after the sign: hexadecimal after the prefix,
      decimal otherwise. */
  function ParseMagnitude(body: string): Option<nat> {
    if HexPrefixed(body) then
      var digits := LeadingHexDigits(body[2..]);
      if digits == [] then None else Some(HexDigitsValue(digits))
    else ParseDigits(body)
  }

  /** The value of the longest run of digits at the start, if there is one. */
  function ParseDigits(body: string): Option<nat> {
    var digits := LeadingDigits(body);
    if digits == [] then None else Some(DigitsValue(digits))
  }

  /** A run of decimal digits never carries the hexadecimal prefix, so it
      is read in base ten. */
  lemma DecimalMagnitude(digits: string)
    requires digits != [] && forall i :: 0 <= i < |digits| ==> IsDigit(digits[i])
    ensures ParseMagnitude(digits) == Some(DigitsValue(digits))
  {
    assert !HexPrefixed(digits) by {
      if |digits| >= 2 {
        assert IsDigit(digits[1]);
      }
    }
    ParseDigitsOfDigits(digits);
  }

  lemma LeadingHexDigitsOfHexDigits(s: string)
    requires forall i :: 0 <= i < |s| ==> IsHexDigit(s[i])
    ensures LeadingHexDigits(s) == s
  {
  }

  /** `parseInt` reads `0x` or `0X` and a run of hexadecimal digits as the
      value of those digits in base sixteen (`ParseIntOfMinus` adds the
      sign). */
  lemma ParseIntOfHex(digits: string)
    requires digits != [] && forall i :: 0 <= i < |digits| ==> IsHexDigit(digits[i])
    ensures ParseInt("0x" + digits) == Some(HexDigitsValue(digits) as int)
    ensures ParseInt("0X" + digits) == Some(HexDigitsValue(digits) as int)
  {
    ParseIntOfPrefixedHex("0x", digits);
    ParseIntOfPrefixedHex("0X", digits);
  }

  lemma ParseIntOfPrefixedHex(prefix: string, digits: string)
    requires prefix == "0x" || prefix == "0X"
    requires digits != [] && forall i :: 0 <= i < |digits| ==> IsHexDigit(digits[i])
    ensures ParseInt(prefix + digits) == Some(HexDigitsValue(digits) as int)
  {
    assert (prefix + digits)[0] == '0';
    NoLeadingSpace(prefix + digits);
    HexMagnitude(prefix, digits);
  }

  /** After a minus sign `parseInt` reads the magnitude and negates it. */
  lemma ParseIntOfMinus(t: string)
    ensures ParseInt("-" + t) == match ParseMagnitude(t) case None => None case Some(v) => Some(-(v as int))
  {
    AfterSign(t);
    assert ("-" + t)[0] == '-';
    NoLeadingSpace("-" + t);
  }

  lemma ParseIntOfNegated(t: string, v: nat)
    requires ParseMagnitude(t) == Some(v)
    ensures ParseInt("-" + t) == Some(-(v as int))
  {
    ParseIntOfMinus(t);
  }

  /** A prefixed run of hexadecimal digits is read in base sixteen. */
  lemma HexMagnitude(prefix: string, digits: string)
    requires prefix == "0x" || prefix == "0X"
    requires forall i :: 0 <= i < |digits| ==> IsHexDigit(digits[i])
    requires digits != []
    ensures ParseMagnitude(prefix + digits) == Some(HexDigitsValue(digits))
    ensures ParseSigned(prefix + digits) == Some(HexDigitsValue(digits) as int)
  {
    var body := prefix + digits;
    assert HexPrefixed(body);
    assert body[2..] == digits;
    LeadingHexDigitsOfHexDigits(digits);
  }

  /** The prefix with no hexadecimal digit after it is `NaN`, even where a
      decimal reading would see the `0`. */
  lemma HexPrefixWithoutDigits(rest: string)
    requires rest == [] || !IsHexDigit(rest[0])
    ensures ParseMagnitude("0x" + rest) == None
    ensures ParseMagnitude("0X" + rest) == None
  {
    assert ("0x" + rest)[2..] == rest;
    assert ("0X" + rest)[2..] == rest;
  }

  lemma LeadingDigitsOfDigits(s: string)
    requires forall i :: 0 <= i < |s| ==> IsDigit(s[i])
    ensures LeadingDigits(s) == s
  {
  }

  /** `parseInt` reads a run of digits, with or without a minus sign, as
      its decimal value. */
  lemma ParseIntOfDigits(digits: string)
    requires digits != [] && forall i :: 0 <= i < |digits| ==> IsDigit(digits[i])
    ensures ParseInt(digits) == Some(DigitsValue(digits) as int)
    ensures ParseInt("-" + digits) == Some(-(DigitsValue(digits) as int))
  {
    ParseIntOfPlainDigits(digits);
    ParseIntOfNegatedDigits(digits);
  }

  lemma ParseIntOfPlainDigits(digits: string)
    requires digits != [] && forall i :: 0 <= i < |digits| ==> IsDigit(digits[i])
    ensures ParseInt(digits) == Some(DigitsValue(digits) as int)
  {
    NoLeadingSpace(digits);
    ParseSignedPlain(digits);
  }

  lemma {:induction false} ParseIntOfNegatedDigits(digits: string)
    requires digits != [] && forall i :: 0 <= i < |digits| ==> IsDigit(digits[i])
    ensures ParseInt("-" + digits) == Some(-(DigitsValue(digits) as int))
  {
    DecimalMagnitude(digits);
    ParseIntOfNegated(digits, DigitsValue(digits));
  }

  /** Text that starts with a digit or a minus sign has no white space to
      skip. */
  lemma NoLeadingSpace(s: string)
    requires s != [] && (IsDigit(s[0]) || s[0] == '-')
    ensures TrimStart(s) == s
  {
  }

  lemma ParseSignedPlain(digits: string)
    requires digits != [] && forall i :: 0 <= i < |digits| ==> IsDigit(digits[i])
    ensures ParseSigned(digits) == Some(DigitsValue(digits) as int)
  {
    DecimalMagnitude(digits);
    assert digits[0] != '-' && digits[0] != '+' by { assert IsDigit(digits[0]); }
  }

  lemma ParseDigitsOfDigits(digits: string)
    requires digits != [] && forall i :: 0 <= i < |digits| ==> IsDigit(digits[i])
    ensures ParseDigits(digits) == Some(DigitsValue(digits))
  {
    LeadingDigitsOfDigits(digits);
  }

  /** A minus sign is followed by the text after it. */
  lemma AfterSign(digits: string)
    ensures var m := "-" + digits; m != [] && m[0] == '-' && m[1..] == digits
  {
  }

  /** `parseInt(String(n)) == n`. */
  lemma ParseIntOfIntToString(n: int)
    ensures ParseInt(IntToString(n)) == Some(n)
  {
    var m: nat := if n < 0 then -n else n;
    DigitsValueOfNatToString(m);
    ParseIntOfDigits(NatToString(m));
  }

  /** `parseInt(x) || fallback`: a parameter that is left out, is not a
      number or reads as zero gives the fallback. */
  function IntOr(x: Option<string>, fallback: int): (n: int)
    ensures fallback != 0 ==> n != 0
    ensures n != fallback ==> x.Some? && ParseInt(x.value) == Some(n)
  {
    if x.None? then fallback
    else match ParseInt(x.value)
      case None => fallback
      case Some(v) => if v == 0 then fallback else v
  }

  /** A number written out in the query is read as itself, except zero,
      which falls back like a missing parameter. */
  lemma IntOrReads(v: int, fallback: int)
    ensures IntOr(Some(IntToString(v)), fallback) == (if v == 0 then fallback else v)
  {
    ParseIntOfIntToString(v);
  }

  /** A hexadecimal parameter is read in base sixteen, and falls back only
      when its value is zero. */
  lemma IntOrReadsHex(digits: string, fallback: int)
    requires digits != [] && forall i :: 0 <= i < |digits| ==> IsHexDigit(digits[i])
    ensures IntOr(Some("0x" + digits), fallback) == (if HexDigitsValue(digits) == 0 then fallback else HexDigitsValue(digits))
  {
    ParseIntOfHex(digits);
  }

  /** A string parameter that is present and not empty: the truthy ones. */
  predicate Given(x: Option<string>) {
    x.Some? && x.value != ""
  }
}

=== FILE: upload_route.dfy ===
/** The document routes: upload (`POST /`), listing (`GET /`), statistics
    per tier (`GET /stats`) and deletion (`DELETE /:id`). */
module UploadRoute {
  import opened Wrappers
  import opened Text
  import opened Tally
  import opened DocumentModel
  import opened DocumentService
  import opened Http

  const NoFileUploaded: string := "No file uploaded"
  const InvalidFileType: string := "Invalid file type"
  const FileTooLarge: string := "File too large"
  const UploadFailed: string := "การอัปโหลดล้มเหลว"
  const UploadStarted: string := "เริ่มการประมวลผลไฟล์เรียบร้อยแล้ว"
  /** The message of the URIError `decodeURIComponent` throws. */
  const UriMalformed: string := "URI malformed"
  const DocumentNotFound: string := "Document not found"
  const DeleteFailed: string := "Failed to delete document"
  const Deleted: string := "Document deleted successfully"

  /** The upload size limit when `MAX_FILE_SIZE` gives none: 50 MiB. */
  const DefaultMaxFileSize: int := 50 * 1024 * 1024

  // ---------------------------------------------------------------------------
  // the upload middleware

  /** The types the file filter lets through. */
  const AllowedTypes: seq<string> := [PdfMime, DocxMime, MswordMime]

  predicate Accepts(mimetype: string) {
    mimetype in AllowedTypes
  }

  /** Images are refused at the door, although text extraction could read
      them by OCR. */
  lemma ImagesRejected(mimetype: string)
    requires IsImageMime(mimetype)
    ensures !Accepts(mimetype)
  {
    assert mimetype[0] == 'i';
    assert PdfMime[0] == 'a' && DocxMime[0] == 'a' && MswordMime[0] == 'a';
  }

  /** `parseInt(process.env.MAX_FILE_SIZE) || 50 * 1024 * 1024`. */
  function MaxFileSize(setting: Option<string>): (n: int)
    ensures n != 0
    ensures setting.None? ==> n == DefaultMaxFileSize
  {
    IntOr(setting, DefaultMaxFileSize)
  }

  /** A setting is read by `parseInt`; one that is not a number or reads as
      zero leaves the default. */
  lemma MaxFileSizeReads(setting: string)
    ensures match ParseInt(setting)
      case Some(v) => MaxFileSize(Some(setting)) == if v == 0 then DefaultMaxFileSize else v
      case None => MaxFileSize(Some(setting)) == DefaultMaxFileSize
  {
  }

  // ---------------------------------------------------------------------------
  // titles

  /** The length of the run at the end of `name` that holds no '.' and
      no '/'. */
  function TrailingRun(name: string): (n: nat)
    ensures n <= |name|
    ensures forall i :: |name| - n <= i < |name| ==> name[i] != '.' && name[i] != '/'
    ensures n < |name| ==> name[|name| - n - 1] == '.' || name[|name| - n - 1] == '/'
    decreases |name|
  {
    if name == [] || name[|name| - 1] == '.' || name[|name| - 1] == '/' then 0
    else TrailingRun(name[..|name| - 1]) + 1
  }

  /** A file extension as `/\.[^/.]+$/` sees it after the dot: not empty,
      without '.' or '/'. */
  predicate IsExtension(ext: string) {
    ext != [] && forall i :: 0 <= i < |ext| ==> ext[i] != '.' && ext[i] != '/'
  }

  /** `name.replace(/\.[^/.]+$/, '')`: the name without its last extension. */
  function StripExtension(name: string): (title: string)
    ensures title <= name
  {
    var n := TrailingRun(name);
    if 0 < n < |name| && name[|name| - n - 1] == '.' then name[..|name| - n - 1] else name
  }

  lemma {:induction false} TrailingRunAfter(prefix: string, ext: string)
    requires forall i :: 0 <= i < |ext| ==> ext[i] != '.' && ext[i] != '/'
    requires prefix != [] && (prefix[|prefix| - 1] == '.' || prefix[|prefix| - 1] == '/')
    ensures TrailingRun(prefix + ext) == |ext|
    decreases |ext|
  {
    if ext == [] {
      assert prefix + ext == prefix;
    } else {
      var init := ext[..|ext| - 1];
      assert (prefix + ext)[..|prefix + ext| - 1] == prefix + init;
      TrailingRunAfter(prefix, init);
    }
  }

  /** A name that ends in an extension loses exactly the dot and the
      extension. */
  lemma StripsExtension(title: string, ext: string)
    requires IsExtension(ext)
    ensures StripExtension(title + "." + ext) == title
  {
    TrailingRunAfter(title + ".", ext);
    assert title + "." + ext == (title + ".") + ext;
  }

  /** The title is the name itself, or the name is the title, a dot and an
      extension. */
  lemma StripExtensionMeaning(name: string)
    ensures var title := StripExtension(name);
      title == name || (|title| < |name| && name == title + "." + name[|title| + 1..] && IsExtension(name[|title| + 1..]))
  {
    var title := StripExtension(name);
    if title != name {
      var ext := name[|title| + 1..];
      assert name == title + [name[|title|]] + ext;
      forall i | 0 <= i < |ext| ensures ext[i] != '.' && ext[i] != '/' {
        assert ext[i] == name[|title| + 1 + i];
      }
    }
  }

  // ---------------------------------------------------------------------------
  // POST /

  /** The form fields: the file under `document` once the middleware stored
      it, and the text fields `tier` and `skipOCR`. */
  datatype UploadRequest = UploadRequest(file: Option<UploadedFile>, tier: Option<string>, skipOcr: Option<string>)

  datatype UploadBody = UploadBody(
    message: string,
    documentId: nat,
    filename: string,
    title: string,
    tier: string,
    status: string,
    textLength: nat,
    chunksCount: nat,
    createdAt: int,
    mimeType: string)

  /** The document the upload saved, if any, and the reply. */
  datatype UploadOutcome = UploadOutcome(saved: Option<Document>, reply: Reply<UploadBody>)

  /** `req.body.skipOCR === 'true'`. */
  function SkipOcr(field: Option<string>): bool {
    field == Some("true")
  }

  /** The reply for the saved document `d`, where `name` is the original
      name as `decodeURIComponent` gives it. */
  function UploadBodyOf(d: Document, file: UploadedFile, name: string): UploadBody {
    UploadBody(UploadStarted, d.id, name, StripExtension(name), TierName(d.tier),
               StatusName(d.metadata.processingStatus), |d.content|, |d.chunks|, d.createdAt, file.mimetype)
  }

  /** `POST /` as the `nextId`-th document at time `now`, where `maxSize` is
      the `MAX_FILE_SIZE` setting, `x` the foreign calls on the file and
      `uriDecode` is `decodeURIComponent`, `None` where it throws. The
      middleware checks the type first, then names the stored file, which
      decodes the original name, and only then streams it against the size
      limit; each of these failures reaches the application's error handler,
      which answers 500 with the error's message. A missing file gives 400;
      an extraction or validation error gives 500 with the route's own
      error and the message. The reply names the file as `decodeURIComponent` decodes
      it, while the stored document keeps the name `x.recodeName` gives. */
  function Upload(nextId: nat, req: UploadRequest, maxSize: Option<string>, x: Extractors, uriDecode: string -> Option<string>, now: int)
    : (o: UploadOutcome)
    ensures o.reply.Refused? && o.reply.status == 400 <==> req.file.None?
    ensures o.reply.Refused? && o.reply.status != 400 ==> o.reply.status == 500
    ensures req.file.Some? && !Accepts(req.file.value.mimetype) ==> o.reply == Refused(500, InvalidFileType, None)
    ensures req.file.Some? && Accepts(req.file.value.mimetype) && uriDecode(req.file.value.originalName).None? ==>
      o == UploadOutcome(None, Refused(500, UriMalformed, None))
    ensures o.saved.Some? <==> o.reply.Ok?
    ensures o.reply.Ok? ==>
      var file := req.file.value;
      var body := o.reply.body;
      && Accepts(file.mimetype) && file.size <= MaxFileSize(maxSize)
      && o.saved.value.id == body.documentId == nextId
      && uriDecode(file.originalName) == Some(body.filename)
      && o.saved.value.originalName == x.recodeName(file.originalName)
      && body.title <= body.filename
      && body.tier == TierOrDefault(req.tier)
      && body.status == "processing"
      && body.textLength > 0 && body.chunksCount == 0
  {
    match req.file
    case None => UploadOutcome(None, Refused(400, NoFileUploaded, None))
    case Some(file) =>
      if !Accepts(file.mimetype) then UploadOutcome(None, Refused(500, InvalidFileType, None))
      else if uriDecode(file.originalName).None? then UploadOutcome(None, Refused(500, UriMalformed, None))
      else if file.size > MaxFileSize(maxSize) then UploadOutcome(None, Refused(500, FileTooLarge, None))
      else
        var name := uriDecode(file.originalName).value;
        match NewDocument(nextId, file, Some(TierOrDefault(req.tier)), SkipOcr(req.skipOcr), x, now)
        case Failure(e) => UploadOutcome(None, Refused(500, UploadFailed, Some(e)))
        case Success(d) =>
          ParseTierName(d.tier);
          UploadOutcome(Some(d), Ok(UploadBodyOf(d, file, name)))
  }

  /** OCR is skipped only for the exact text 'true': any other value of
      `skipOCR` uploads as if the field were left out. */
  lemma SkipOcrOnlyForTrue(nextId: nat, req: UploadRequest, maxSize: Option<string>, x: Extractors, uriDecode: string -> Option<string>, now: int)
    requires req.skipOcr != Some("true")
    ensures Upload(nextId, req, maxSize, x, uriDecode, now) == Upload(nextId, req.(skipOcr := None), maxSize, x, uriDecode, now)
  {
  }

  /** An empty tier uploads as tier B, like a missing one. */
  lemma EmptyTierIsB(nextId: nat, req: UploadRequest, maxSize: Option<string>, x: Extractors, uriDecode: string -> Option<string>, now: int)
    ensures Upload(nextId, req.(tier := Some("")), maxSize, x, uriDecode, now) == Upload(nextId, req.(tier := None), maxSize, x, uriDecode, now)
    ensures Upload(nextId, req.(tier := Some("B")), maxSize, x, uriDecode, now) == Upload(nextId, req.(tier := None), maxSize, x, uriDecode, now)
  {
  }

  /** `POST /` on the stored documents. */
  method UploadDocument(store: DocumentStore, req: UploadRequest, maxSize: Option<string>, x: Extractors,
                        uriDecode: string -> Option<string>, now: int)
    returns (r: Reply<UploadBody>)
    requires store.Valid()
    modifies store
    ensures store.Valid()
    ensures var o := Upload(old(store.nextId), req, maxSize, x, uriDecode, now);
      && r == o.reply
      && store.docs == old(store.docs) + (if o.saved.Some? then [o.saved.value] else [])
  {
    if req.file.None? {
      return Refused(400, NoFileUploaded, None);
    }
    var file := req.file.value;
    if !Accepts(file.mimetype) {
      return Refused(500, InvalidFileType, None);
    }
    var name := uriDecode(file.originalName);
    if name.None? {
      return Refused(500, UriMalformed, None);
    }
    if file.size > MaxFileSize(maxSize) {
      return Refused(500, FileTooLarge, None);
    }
    var saved := store.ProcessUploadedFile(file, Some(TierOrDefault(req.tier)), SkipOcr(req.skipOcr), x, now);
    if saved.Failure? {
      return Refused(500, UploadFailed, Some(saved.error));
    }
    r := Ok(UploadBodyOf(saved.value, file, name.value));
  }

  // ---------------------------------------------------------------------------
  // GET /

  /** The query of `GET /`; `None` is a parameter left out. */
  datatype ListQuery = ListQuery(tier: Option<string>, limit: Option<string>)

  datatype DocumentEntry = DocumentEntry(
    documentId: nat,
    filename: string,
    title: string,
    tier: string,
    status: string,
    chunksCount: nat,
    createdAt: int,
    mimeType: string)

  /** `doc.originalName || doc.filename`. */
  function DisplayName(d: Document): (name: string)
    ensures name == d.originalName || (d.originalName == "" && name == d.filename)
  {
    if d.originalName != "" then d.originalName else d.filename
  }

  function EntryOf(d: Document): DocumentEntry {
    DocumentEntry(d.id, DisplayName(d), StripExtension(DisplayName(d)), TierName(d.tier),
                  StatusName(d.metadata.processingStatus), |d.chunks|, d.createdAt, d.metadata.mimeType)
  }

  /** A falsy `tier` lists every tier. */
  predicate Listed(d: Document, tier: Option<string>) {
    !Given(tier) || TierName(d.tier) == tier.value
  }

  function Uploaded(d: Document): int { d.createdAt }

  /** `parseInt(limit) || 0`, where 0 means no limit; the database reads a
      negative limit as its absolute value. */
  function ListLimit(limit: Option<string>): (n: nat)
    ensures limit.None? ==> n == 0
  {
    var v := IntOr(limit, 0);
    if v < 0 then -v else v
  }

  /** A given limit is read by `parseInt` and taken by its absolute value;
      one that is not a number means no limit. */
  lemma ListLimitReads(limit: string)
    ensures match ParseInt(limit)
      case Some(v) => ListLimit(Some(limit)) == if v < 0 then -v else v
      case None => ListLimit(Some(limit)) == 0
  {
  }

  /** The documents of the listing, newest first: those of the tier asked
      for, at most `limit` of them. */
  function ListedDocuments(docs: seq<Document>, q: ListQuery): (r: seq<Document>)
    ensures SortedDesc(r, Uploaded)
    ensures forall i :: 0 <= i < |r| ==> r[i] in docs && Listed(r[i], q.tier)
    ensures multiset(r) <= multiset(docs)
    ensures var n := Count(docs, (d: Document) => Listed(d, q.tier));
      |r| == if ListLimit(q.limit) == 0 || n <= ListLimit(q.limit) then n else ListLimit(q.limit)
    ensures forall d :: d in docs && Listed(d, q.tier) && d !in r ==>
      ListLimit(q.limit) > 0 && |r| == ListLimit(q.limit) && Uploaded(d) <= Uploaded(r[|r| - 1])
  {
    TopMatches(docs, (d: Document) => Listed(d, q.tier), Uploaded, ListLimit(q.limit))
  }

  /** `GET /`: one entry per listed document, in the same order. */
  function ListDocuments(docs: seq<Document>, q: ListQuery): (r: seq<DocumentEntry>)
    ensures |r| == |ListedDocuments(docs, q)|
    ensures forall i :: 0 <= i < |r| ==> r[i] == EntryOf(ListedDocuments(docs, q)[i])
  {
    var listed := ListedDocuments(docs, q);
    seq(|listed|, i requires 0 <= i < |listed| => EntryOf(listed[i]))
  }

  /** The entries are newest first, each of the tier asked for, and each
      title a prefix of its file name. Without a limit every document of
      the tier is listed. */
  lemma ListingMeaning(docs: seq<Document>, q: ListQuery)
    ensures var r := ListDocuments(docs, q);
      && (forall i, j :: 0 <= i < j < |r| ==> r[i].createdAt >= r[j].createdAt)
      && (forall i :: 0 <= i < |r| ==> r[i].title <= r[i].filename)
      && (Given(q.tier) ==> forall i :: 0 <= i < |r| ==> r[i].tier == q.tier.value)
    ensures ListLimit(q.limit) == 0 ==> forall d :: d in docs && Listed(d, q.tier) ==> EntryOf(d) in ListDocuments(docs, q)
  {
    ListingNewestFirst(docs, q);
    if ListLimit(q.limit) == 0 {
      ListingComplete(docs, q);
    }
  }

  lemma ListingNewestFirst(docs: seq<Document>, q: ListQuery)
    ensures var r := ListDocuments(docs, q);
      forall i, j :: 0 <= i < j < |r| ==> r[i].createdAt >= r[j].createdAt
  {
    var listed := ListedDocuments(docs, q);
    var r := ListDocuments(docs, q);
    forall i, j | 0 <= i < j < |r| ensures r[i].createdAt >= r[j].createdAt {
      assert Uploaded(listed[i]) >= Uploaded(listed[j]);
    }
  }

  lemma ListingComplete(docs: seq<Document>, q: ListQuery)
    requires ListLimit(q.limit) == 0
    ensures forall d :: d in docs && Listed(d, q.tier) ==> EntryOf(d) in ListDocuments(docs, q)
  {
    var listed := ListedDocuments(docs, q);
    forall d | d in docs && Listed(d, q.tier) ensures EntryOf(d) in ListDocuments(docs, q) {
      var j :| 0 <= j < |listed| && listed[j] == d;
      assert ListDocuments(docs, q)[j] == EntryOf(d);
    }
  }


  // ---------------------------------------------------------------------------
  // GET /stats

  /** A row of the statistics: one tier, its number of documents, their
      total file size, their total number of chunks, and how many are in
      each processing status. */
  datatype TierStat = TierStat(tier: string, count: nat, totalSize: int, chunksCount: int, processingStatus: map<string, nat>)

  /** `$ifNull: ['$metadata.fileSize', 0]`. */
  function FileSize(d: Document): (n: int)
    ensures d.metadata.fileSize.None? ==> n == 0
    ensures d.metadata.fileSize.Some? ==> n == d.metadata.fileSize.value
  {
    d.metadata.fileSize.GetOr(0)
  }

  function ChunkCount(d: Document): int { |d.chunks| }

  function TierOf(d: Document): Tier { d.tier }

  function Tiers(docs: seq<Document>): (r: seq<Tier>)
    ensures |r| == |docs|
    ensures forall i :: 0 <= i < |docs| ==> r[i] == docs[i].tier
  {
    seq(|docs|, i requires 0 <= i < |docs| => docs[i].tier)
  }

  function Statuses(docs: seq<Document>): (r: seq<string>)
    ensures |r| == |docs|
    ensures forall i :: 0 <= i < |docs| ==> r[i] == StatusName(docs[i].metadata.processingStatus)
  {
    seq(|docs|, i requires 0 <= i < |docs| => StatusName(docs[i].metadata.processingStatus))
  }

  /** The documents of one tier, in order. */
  function InTier(docs: seq<Document>, t: Tier): seq<Document> {
    Filter(docs, (d: Document) => d.tier == t)
  }

  /** The object the `reduce` over the statuses builds: each status mapped
      to how often it occurs so far. */
  function Histogram(statuses: seq<string>): map<string, nat>
    decreases |statuses|
  {
    if statuses == [] then map[]
    else
      var h := Histogram(statuses[..|statuses| - 1]);
      var s := statuses[|statuses| - 1];
      h[s := (if s in h then h[s] else 0) + 1]
  }

  /** The histogram has exactly the statuses that occur, each with its
      number of occurrences. */
  lemma {:induction false} HistogramCounts(statuses: seq<string>)
    ensures forall s :: s in Histogram(statuses) <==> s in statuses
    ensures forall s :: s in Histogram(statuses) ==> Histogram(statuses)[s] == Occurrences(statuses, s)
    decreases |statuses|
  {
    if statuses != [] {
      var init := statuses[..|statuses| - 1];
      var last := statuses[|statuses| - 1];
      HistogramCounts(init);
      assert statuses == init + [last];
      assert multiset(statuses) == multiset(init) + multiset{last};
      forall s ensures s in statuses <==> s in init || s == last {
      }
    }
  }

  /** The histogram's counts add up to the number of statuses. */
  lemma HistogramSum(statuses: seq<string>)
    ensures SumAt(Histogram(statuses), Distinct(statuses)) == |statuses|
  {
    HistogramCounts(statuses);
    var ds := Distinct(statuses);
    SumAtGroups(Histogram(statuses), ds, statuses);
    DistinctOccurrencesSum(statuses);
  }

  /** The `reduce` over the statuses. */
  method CountStatuses(statuses: seq<string>) returns (acc: map<string, nat>)
    ensures acc == Histogram(statuses)
  {
    acc := map[];
    for i := 0 to |statuses|
      invariant acc == Histogram(statuses[..i])
    {
      assert statuses[..i + 1][..i] == statuses[..i];
      var s := statuses[i];
      acc := acc[s := (if s in acc then acc[s] else 0) + 1];
    }
    assert statuses[..|statuses|] == statuses;
  }

  /** The row of tier `t`. */
  function TierStatOf(docs: seq<Document>, t: Tier): TierStat {
    var g := InTier(docs, t);
    TierStat(TierName(t), |g|, SumOf(g, FileSize), SumOf(g, ChunkCount), Histogram(Statuses(g)))
  }

  /** A row counts the documents of its tier, and its status histogram
      accounts for each of them once. */
  lemma TierStatMeaning(docs: seq<Document>, t: Tier)
    ensures var st := TierStatOf(docs, t);
      && st.count == Count(docs, (d: Document) => d.tier == t)
      && SumAt(st.processingStatus, Distinct(Statuses(InTier(docs, t)))) == st.count
  {
    HistogramSum(Statuses(InTier(docs, t)));
  }

  /** A tier whose documents carry no size has total size 0. */
  lemma {:induction false} MissingSizesAddNothing(docs: seq<Document>)
    requires forall i :: 0 <= i < |docs| ==> docs[i].metadata.fileSize.None?
    ensures SumOf(docs, FileSize) == 0
    decreases |docs|
  {
    if docs != [] {
      MissingSizesAddNothing(docs[..|docs| - 1]);
    }
  }

  /** The rows of the tiers `ts`, in order. */
  function StatRows(docs: seq<Document>, ts: seq<Tier>): (rows: seq<TierStat>)
    ensures |rows| == |ts|
    ensures forall k :: 0 <= k < |ts| ==> rows[k] == TierStatOf(docs, ts[k])
    decreases |ts|
  {
    if ts == [] then [] else StatRows(docs, ts[..|ts| - 1]) + [TierStatOf(docs, ts[|ts| - 1])]
  }

  lemma StatRowsSnoc(docs: seq<Document>, ts: seq<Tier>, i: nat)
    requires i < |ts|
    ensures StatRows(docs, ts[..i + 1]) == StatRows(docs, ts[..i]) + [TierStatOf(docs, ts[i])]
  {
    assert ts[..i + 1][..i] == ts[..i];
  }

  /** `GET /stats`: one row per tier that has documents, in the order the
      tiers first occur. */
  method DocumentStats(docs: seq<Document>) returns (stats: seq<TierStat>)
    ensures stats == StatRows(docs, Distinct(Tiers(docs)))
  {
    var ts := Distinct(Tiers(docs));
    stats := [];
    for i := 0 to |ts|
      invariant stats == StatRows(docs, ts[..i])
    {
      var g := InTier(docs, ts[i]);
      var histogram := CountStatuses(Statuses(g));
      var row := TierStat(TierName(ts[i]), |g|, SumOf(g, FileSize), SumOf(g, ChunkCount), histogram);
      StatRowsSnoc(docs, ts, i);
      stats := stats + [row];
    }
    assert ts[..|ts|] == ts;
  }

  /** Every document is in the row of its own tier, and the rows are for
      distinct tiers, each with at least one document. */
  lemma StatsCoverEachTier(docs: seq<Document>)
    ensures var ts := Distinct(Tiers(docs));
      && (forall i, j :: 0 <= i < j < |ts| ==> TierStatOf(docs, ts[i]).tier != TierStatOf(docs, ts[j]).tier)
      && (forall k :: 0 <= k < |docs| ==> docs[k].tier in ts)
      && (forall i :: 0 <= i < |ts| ==> TierStatOf(docs, ts[i]).count > 0)
  {
    StatTiersDistinct(docs);
    EveryTierListed(docs);
    ListedTiersCounted(docs);
  }

  lemma StatTiersDistinct(docs: seq<Document>)
    ensures var ts := Distinct(Tiers(docs));
      forall i, j :: 0 <= i < j < |ts| ==> TierStatOf(docs, ts[i]).tier != TierStatOf(docs, ts[j]).tier
  {
    var ts := Distinct(Tiers(docs));
    forall i, j | 0 <= i < j < |ts| ensures TierStatOf(docs, ts[i]).tier != TierStatOf(docs, ts[j]).tier {
      ParseTierName(ts[i]);
      ParseTierName(ts[j]);
    }
  }

  lemma EveryTierListed(docs: seq<Document>)
    ensures forall k :: 0 <= k < |docs| ==> docs[k].tier in Distinct(Tiers(docs))
  {
    forall k | 0 <= k < |docs| ensures docs[k].tier in Distinct(Tiers(docs)) {
      assert Tiers(docs)[k] == docs[k].tier;
    }
  }

  lemma ListedTiersCounted(docs: seq<Document>)
    ensures var ts := Distinct(Tiers(docs));
      forall i :: 0 <= i < |ts| ==> TierStatOf(docs, ts[i]).count > 0
  {
    var ts := Distinct(Tiers(docs));
    forall i | 0 <= i < |ts| ensures TierStatOf(docs, ts[i]).count > 0 {
      var k :| 0 <= k < |Tiers(docs)| && Tiers(docs)[k] == ts[i];
      FilterKeeps(docs, (d: Document) => d.tier == ts[i], k);
    }
  }

  // ---------------------------------------------------------------------------
  // DELETE /:id

  /** `DELETE /:id` on the stored documents; `idOf` stands for the cast of
      the path parameter to a document id (`None` when it is not one, which
      the database refuses). */
  method DeleteDocument(store: DocumentStore, id: string, idOf: string -> Option<nat>) returns (r: Reply<string>)
    requires store.Valid()
    modifies store
    ensures store.Valid()
    ensures r.Refused? && r.status == 404 <==> idOf(id).Some? && FindIn(old(store.docs), idOf(id).value).None?
    ensures r.Refused? && r.status != 404 <==> idOf(id).None?
    ensures r.Refused? ==> store.docs == old(store.docs)
    ensures r.Refused? && r.status == 404 ==> r.error == DocumentNotFound
    ensures r.Refused? && r.status != 404 ==> r.status == 500 && r.error == DeleteFailed
    ensures r.Ok? ==> r.body == Deleted && store.docs == Without(old(store.docs), idOf(id).value)
    ensures r.Ok? ==> |store.docs| == |old(store.docs)| - 1
  {
    var key := idOf(id);
    if key.None? {
      return Refused(500, DeleteFailed, None);
    }
    var found := store.FindById(key.value);
    if found.None? {
      return Refused(404, DocumentNotFound, None);
    }
    WithoutRemovesOne(store.docs, key.value);
    var removed := store.Delete(key.value);
    r := Ok(Deleted);
  }
}

=== FILE: user_model.dfy ===
/** The `User` schema: a LINE user and the statistics the conversation ledger
    keeps for them. */
module UserModel {
  import opened Wrappers

  const DefaultLanguage: string := "th"

  datatype UserRecord = UserRecord(
    lineUserId: string,
    displayName: Option<string>,
    language: string,
    totalQuestions: int,
    lastActive: Option<int>,
    isActive: bool)

  /** A user created with only its `lineUserId`, every default applied. */
  function NewUser(lineUserId: string): (u: UserRecord)
    ensures u.lineUserId == lineUserId
    ensures u.totalQuestions == 0 && u.language == "th" && u.isActive && u.lastActive.None?
  {
    UserRecord(lineUserId, None, DefaultLanguage, 0, None, true)
  }

  /** `$inc: { totalQuestions: 1 }` with `$set: { lastActive: now }`. */
  function Touch(u: UserRecord, now: int): (r: UserRecord)
    ensures r.totalQuestions == u.totalQuestions + 1 && r.lastActive == Some(now)
    ensures r.lineUserId == u.lineUserId && r.language == u.language
    ensures r.isActive == u.isActive && r.displayName == u.displayName
  {
    u.(totalQuestions := u.totalQuestions + 1, lastActive := Some(now))
  }

  /** The first upsert-increment of a new user leaves a count of one. */
  lemma FirstTouchCountsOne(lineUserId: string, now: int)
    ensures Touch(NewUser(lineUserId), now).totalQuestions == 1
  {
  }

  /** `lineUserId` is required and unique: the users are keyed by it and each
      record carries its own key. */
  predicate UsersKeyed(users: map<string, UserRecord>) {
    forall id :: id in users ==> id != [] && users[id].lineUserId == id
  }
}

=== FILE: weather_service.dfy ===
/** The weather service: the current conditions the answering pipeline may
    attach to a prompt, and the farming advice rules derived from them. */
module WeatherService {
  import opened Text

  /** The current conditions as `getCurrentWeather` returns them. Numbers are
      reals; the clock-formatted fields are opaque strings. */
  datatype WeatherData = WeatherData(
    location: string,
    temperature: real,
    humidity: real,
    description: string,
    windSpeed: real,
    pressure: real,
    visibility: real,
    sunrise: string,
    sunset: string,
    timestamp: string)

  /** The one error `getCurrentWeather` throws, whatever went wrong. */
  const WeatherError: string := "Failed to fetch weather information"

  datatype Advice = Advice(irrigation: string, protection: string, harvesting: string, general: string)

  const WaterMore: string := "ควรรดน้ำเพิ่มเติม เนื่องจากความชื้นต่ำ"
  const WaterLess: string := "ลดการรดน้ำ เนื่องจากความชื้นสูง อาจเกิดโรคราได้"
  const GiveShade: string := "อุณหภูมิสูง ควรให้ร่มเงาและรักษาความชื้นในดิน"
  const ProtectFromCold: string := "อุณหภูมิต่ำ ควรปกป้องต้นมันสำปะหลังจากความหนาว"
  const MindDrainage: string := "มีฝนตก ระวังการระบายน้ำให้ดี เพื่อป้องกันรากเน่า"
  const GoodForGrowth: string := "อากาศแจ่มใส เหมาะสำหรับการเจริญเติบโต"
  /** "rain" and "sun" as they appear in Thai weather descriptions. */
  const Rain: string := "ฝน"
  const Sun: string := "แดด"

  /** Irrigation advice from the relative humidity (percent). */
  function IrrigationAdvice(humidity: real): (r: string)
    ensures humidity < 60.0 <==> r == WaterMore
    ensures humidity > 80.0 <==> r == WaterLess
    ensures 60.0 <= humidity <= 80.0 <==> r == ""
  {
    if humidity < 60.0 then WaterMore
    else if humidity > 80.0 then WaterLess
    else ""
  }

  /** Protection advice from the temperature (degrees Celsius). */
  function ProtectionAdvice(temperature: real): (r: string)
    ensures temperature > 35.0 <==> r == GiveShade
    ensures temperature < 18.0 <==> r == ProtectFromCold
    ensures 18.0 <= temperature <= 35.0 <==> r == ""
  {
    if temperature > 35.0 then GiveShade
    else if temperature < 18.0 then ProtectFromCold
    else ""
  }

  /** General advice from the description: rain is checked before sun. */
  function GeneralAdvice(description: string): (r: string)
    ensures Contains(description, Rain) <==> r == MindDrainage
    ensures !Contains(description, Rain) && Contains(description, Sun) <==> r == GoodForGrowth
    ensures !Contains(description, Rain) && !Contains(description, Sun) <==> r == ""
  {
    if Contains(description, Rain) then MindDrainage
    else if Contains(description, Sun) then GoodForGrowth
    else ""
  }

  /** `generateFarmingAdvice(weatherData)`. */
  function FarmingAdvice(w: WeatherData): (a: Advice)
    ensures a.harvesting == ""
    ensures a.irrigation == IrrigationAdvice(w.humidity)
    ensures a.protection == ProtectionAdvice(w.temperature)
    ensures a.general == GeneralAdvice(w.description)
  {
    Advice(IrrigationAdvice(w.humidity), ProtectionAdvice(w.temperature), "", GeneralAdvice(w.description))
  }

  /** Each advice field depends only on its own input: two reports that agree
      on humidity get the same irrigation advice, and so on. */
  lemma AdviceFieldsAreIndependent(v: WeatherData, w: WeatherData)
    ensures v.humidity == w.humidity ==> FarmingAdvice(v).irrigation == FarmingAdvice(w).irrigation
    ensures v.temperature == w.temperature ==> FarmingAdvice(v).protection == FarmingAdvice(w).protection
    ensures v.description == w.description ==> FarmingAdvice(v).general == FarmingAdvice(w).general
    ensures FarmingAdvice(v).harvesting == FarmingAdvice(w).harvesting
  {
  }

  /** A description mentioning both rain and sun gets the rain advice. */
  lemma RainBeforeSun(before: string, middle: string, after: string)
    ensures GeneralAdvice(before + Rain + middle + Sun + after) == MindDrainage
  {
    ContainsSelf(Rain);
    ContainsExtend(Rain, Rain, before, middle + Sun + after);
    assert before + Rain + (middle + Sun + after) == before + Rain + middle + Sun + after;
  }
}

=== FILE: webhook_route.dfy ===
/** The LINE webhook (`POST /`) and its simulation (`POST /test`). Every
    text message among the events is answered and saved; the reply list
    holds one reply per text message, in event order. */
module WebhookRoute {
  import opened Wrappers
  import opened Text
  import opened AgentService
  import opened LogService
  import opened Http

  const InvalidPayload: string := "Invalid webhook payload format"
  const ReplyApology: string := "ขออภัย เกิดข้อผิดพลาดในการประมวลผล กรุณาลองใหม่อีกครั้ง"
  const InternalError: string := "Internal server error"
  const MessageRequired: string := "Message is required"
  const TestUser: string := "test-user"
  /** What reading a key of a missing `message` or `source` object throws. */
  const NoMessage: string := "Cannot read properties of undefined (reading 'type')"
  const NoSource: string := "Cannot read properties of undefined (reading 'userId')"

  /** Only `platform` is kept: `replyToken` and `testMode` are not fields of
      the schema. */
  const LineMetadata: MetadataInput := MetadataInput(Some("LINE"), None, None)
  const TestMetadata: MetadataInput := MetadataInput(Some("TEST"), None, None)

  // ---------------------------------------------------------------------------
  // POST /

  /** A LINE event; `None` is a key left out (or `null`). */
  datatype Message = Message(kind: Option<string>, text: Option<string>)
  datatype EventSource = EventSource(userId: Option<string>)
  datatype Event = Event(kind: Option<string>, message: Option<Message>, source: Option<EventSource>, replyToken: Option<string>)

  /** A reply: the event's token and one message of type 'text'. */
  datatype LineReply = LineReply(replyToken: Option<string>, text: string)

  datatype WebhookBody = WebhookBody(responses: seq<LineReply>, processedEvents: nat)

  /** What an event turns into: nothing, a reply, or an exception that ends
      the whole request. */
  datatype Step = Skipped | Replied(reply: LineReply) | Crashed(message: string)

  /** The event is a text message: `type === 'message'` and
      `message.type === 'text'`. */
  predicate IsText(e: Event) {
    e.kind == Some("message") && e.message.Some? && e.message.value.kind == Some("text")
  }

  /** Reading the event does not throw: a message event has a `message`, and
      a text message has a `source`. */
  predicate WellFormed(e: Event) {
    && (e.kind == Some("message") ==> e.message.Some?)
    && (IsText(e) ==> e.source.Some?)
  }

  function QuestionOf(e: Event): Option<string> {
    if e.message.Some? then e.message.value.text else None
  }

  /** What the batch of events sees for its `i`-th event: the agent answers
      it as call `first + i`, and it is saved at `clock(i)` after
      `elapsed(i)` milliseconds (counted from the start of the request). */
  datatype WebhookEnv = WebhookEnv(world: World, first: nat, clock: nat -> int, elapsed: nat -> int, statsWritten: nat -> bool)

  /** The `i`-th event from state `s`, where `answered` is what
      `processQuestion` gave for its text. A missing user id is the empty
      string, which the required check refuses. */
  function EventStep(s: LedgerState, e: Event, answered: Result<Answer, string>, env: WebhookEnv, i: nat): (LedgerState, Step) {
    if e.kind != Some("message") then (s, Skipped)
    else if e.message.None? then (s, Crashed(NoMessage))
    else if e.message.value.kind != Some("text") then (s, Skipped)
    else if e.source.None? then (s, Crashed(NoSource))
    else
      var question := e.message.value.text;
      if question.None? || answered.Failure? then (s, Replied(LineReply(e.replyToken, ReplyApology)))
      else
        var a := answered.value;
        var req := AnswerRecord(e.source.value.userId.GetOr(""), question.value, a, env.elapsed(i), LineMetadata);
        var saved := Save(s, req, env.clock(i), env.statsWritten(i));
        if saved.result.Failure? then (s, Replied(LineReply(e.replyToken, ReplyApology)))
        else (saved.state, Replied(LineReply(e.replyToken, a.answer)))
  }

  /** The text event's answer can be logged: the agent answered it and the
      schema accepts the record built from that answer. */
  predicate Logs(e: Event, answered: Result<Answer, string>) {
    && answered.Success? && QuestionOf(e).Some? && e.source.Some?
    && Loggable(e.source.value.userId.GetOr(""), QuestionOf(e).value, answered.value)
  }

  /** The reply answers its text event: it carries the event's token, and
      its text is the agent's answer when answering and logging succeed,
      and the apology exactly when either of them fails. */
  predicate RepliesTo(r: LineReply, e: Event, answered: Result<Answer, string>) {
    && r.replyToken == e.replyToken
    && r.text == (if Logs(e, answered) then answered.value.answer else ReplyApology)
  }

  /** A saved record from the webhook: platform 'LINE' and a label the
      schema accepts. */
  predicate LineRecord(r: ConversationLogModel.ConversationRecord) {
    r.metadata.platform == "LINE" && (r.source == "RAG" || r.source == "External")
  }

  /** An event is skipped exactly when it is well formed and not a text
      message; a well-formed text message gets a reply that answers it and
      adds at most one record, a 'LINE' one, after the others, and a record
      is added exactly when the answer is sent; a malformed event throws
      and changes nothing. */
  lemma EventStepMeaning(s: LedgerState, e: Event, answered: Result<Answer, string>, env: WebhookEnv, i: nat)
    ensures var step := EventStep(s, e, answered, env, i);
      && (step.1.Skipped? <==> WellFormed(e) && !IsText(e))
      && (step.1.Crashed? <==> !WellFormed(e))
      && (step.1.Replied? ==> RepliesTo(step.1.reply, e, answered))
      && (step.1.Replied? ==> (|step.0.records| == |s.records| + 1 <==> Logs(e, answered)))
      && (!step.1.Replied? || !Logs(e, answered) ==> step.0 == s)
      && (step.1.Replied? ==> |s.records| <= |step.0.records| <= |s.records| + 1)
      && step.0.records[..|s.records|] == s.records
      && (forall k :: |s.records| <= k < |step.0.records| ==> LineRecord(step.0.records[k]))
  {
    if WellFormed(e) && IsText(e) && QuestionOf(e).Some? && answered.Success? {
      LineSave(s, e.source.value.userId.GetOr(""), QuestionOf(e).value, answered.value, env.elapsed(i), env.clock(i), env.statsWritten(i));
      SaveAnswerIff(s, e.source.value.userId.GetOr(""), QuestionOf(e).value, answered.value, env.elapsed(i), LineMetadata, env.clock(i), env.statsWritten(i));
    }
  }

  /** The record a logged text event adds holds its user, its question and
      the answer sent back. */
  lemma EventStepRecord(s: LedgerState, e: Event, answered: Result<Answer, string>, env: WebhookEnv, i: nat)
    requires WellFormed(e) && IsText(e) && Logs(e, answered)
    ensures var step := EventStep(s, e, answered, env, i);
      && step.1.Replied?
      && |step.0.records| == |s.records| + 1
      && step.0.records[|s.records|].userId == e.source.value.userId.GetOr("")
      && step.0.records[|s.records|].question == QuestionOf(e).value
      && step.0.records[|s.records|].answer == step.1.reply.text
  {
    SaveAnswerIff(s, e.source.value.userId.GetOr(""), QuestionOf(e).value, answered.value, env.elapsed(i), LineMetadata, env.clock(i), env.statsWritten(i));
  }

  /** Saving an answer from LINE adds at most one record, a 'LINE' one,
      after the others. */
  lemma LineSave(s: LedgerState, userId: string, question: string, a: Answer, elapsed: int, now: int, statsWritten: bool)
    ensures var o := Save(s, AnswerRecord(userId, question, a, elapsed, LineMetadata), now, statsWritten);
      && |s.records| <= |o.state.records| <= |s.records| + 1
      && o.state.records[..|s.records|] == s.records
      && (forall k :: |s.records| <= k < |o.state.records| ==> LineRecord(o.state.records[k]))
  {
    SavedAnswerLabel(s, userId, question, a, elapsed, LineMetadata, now, statsWritten);
  }

  /** What the agent answers to the text of each event, in order. */
  function Answers(events: seq<Event>, env: WebhookEnv): (answers: seq<Result<Answer, string>>)
    ensures |answers| == |events|
    ensures forall k :: 0 <= k < |events| ==> (answers[k].Failure? <==> QuestionOf(events[k]).None?)
  {
    seq(|events|, k requires 0 <= k < |events| => ProcessQuestion(QuestionOf(events[k]), env.world, env.first + k))
  }

  /** The `k`-th answer is the agent's call `first + k` on the `k`-th text. */
  lemma AnswerAt(events: seq<Event>, env: WebhookEnv, k: nat)
    requires k < |events|
    ensures Answers(events, env)[k] == ProcessQuestion(QuestionOf(events[k]), env.world, env.first + k)
  {
  }

  /** The events one after the other, with their answers: the state after
      them and the replies, or the message of the exception that stopped
      the loop. */
  function RunEvents(s: LedgerState, events: seq<Event>, answers: seq<Result<Answer, string>>, env: WebhookEnv)
    : (run: (LedgerState, Result<seq<LineReply>, string>))
    requires |answers| == |events|
    decreases |events|
  {
    if events == [] then (s, Success([]))
    else
      var k := |events| - 1;
      var before := RunEvents(s, events[..k], answers[..k], env);
      if before.1.Failure? then before
      else
        var step := EventStep(before.0, events[k], answers[k], env, k);
        match step.1
        case Skipped => (step.0, before.1)
        case Replied(r) => (step.0, Success(before.1.value + [r]))
        case Crashed(m) => (step.0, Failure(m))
  }

  /** The text messages among the events, each with its answer. */
  function TextEvents(events: seq<Event>, answers: seq<Result<Answer, string>>): (texts: seq<(Event, Result<Answer, string>)>)
    requires |answers| == |events|
    ensures |texts| <= |events|
    decreases |events|
  {
    if events == [] then []
    else
      var k := |events| - 1;
      TextEvents(events[..k], answers[..k]) + (if IsText(events[k]) then [(events[k], answers[k])] else [])
  }

  /** The run over one more event is the run so far and the step for it. */
  lemma RunEventsSnoc(s: LedgerState, events: seq<Event>, answers: seq<Result<Answer, string>>, i: nat, env: WebhookEnv)
    requires |answers| == |events|
    requires i < |events|
    ensures var before := RunEvents(s, events[..i], answers[..i], env);
      var step := EventStep(before.0, events[i], answers[i], env, i);
      RunEvents(s, events[..i + 1], answers[..i + 1], env) ==
        if before.1.Failure? then before
        else match step.1
          case Skipped => (step.0, before.1)
          case Replied(r) => (step.0, Success(before.1.value + [r]))
          case Crashed(m) => (step.0, Failure(m))
  {
    assert events[..i + 1][..i] == events[..i];
    assert answers[..i + 1][..i] == answers[..i];
  }

  /** With every event well formed, the loop runs to the end and replies
      once per text message, in order, each reply answering its event. */
  lemma {:induction false} RunEventsReplies(s: LedgerState, events: seq<Event>, answers: seq<Result<Answer, string>>, env: WebhookEnv)
    requires |answers| == |events|
    requires forall i :: 0 <= i < |events| ==> WellFormed(events[i])
    ensures var run := RunEvents(s, events, answers, env);
      var texts := TextEvents(events, answers);
      && run.1.Success?
      && |run.1.value| == |texts|
      && forall j :: 0 <= j < |texts| ==> RepliesTo(run.1.value[j], texts[j].0, texts[j].1)
    decreases |events|
  {
    if events != [] {
      var k := |events| - 1;
      assert forall i :: 0 <= i < k ==> events[..k][i] == events[i];
      RunEventsReplies(s, events[..k], answers[..k], env);
      var before := RunEvents(s, events[..k], answers[..k], env);
      var step := EventStep(before.0, events[k], answers[k], env, k);
      EventStepMeaning(before.0, events[k], answers[k], env, k);
      var texts0 := TextEvents(events[..k], answers[..k]);
      var texts := TextEvents(events, answers);
      if IsText(events[k]) {
        assert texts == texts0 + [(events[k], answers[k])];
      } else {
        assert texts == texts0;
      }
    }
  }

  /** Once an event throws, the request fails, whatever follows. */
  lemma {:induction false} RunEventsCrashes(s: LedgerState, events: seq<Event>, answers: seq<Result<Answer, string>>, env: WebhookEnv, i: nat)
    requires |answers| == |events|
    requires i < |events| && !WellFormed(events[i])
    ensures RunEvents(s, events, answers, env).1.Failure?
    decreases |events|
  {
    var k := |events| - 1;
    var before := RunEvents(s, events[..k], answers[..k], env);
    if i < k {
      assert events[..k][i] == events[i];
      RunEventsCrashes(s, events[..k], answers[..k], env, i);
    } else if before.1.Success? {
      EventStepMeaning(before.0, events[k], answers[k], env, k);
    }
  }

  /** The ledger keeps its records and gains only 'LINE' records, at most
      one per text message. */
  lemma {:induction false} RunEventsRecords(s: LedgerState, events: seq<Event>, answers: seq<Result<Answer, string>>, env: WebhookEnv)
    requires |answers| == |events|
    ensures var run := RunEvents(s, events, answers, env);
      && |s.records| <= |run.0.records| <= |s.records| + |TextEvents(events, answers)|
      && run.0.records[..|s.records|] == s.records
      && forall k :: |s.records| <= k < |run.0.records| ==> LineRecord(run.0.records[k])
    decreases |events|
  {
    if events != [] {
      var k := |events| - 1;
      RunEventsRecords(s, events[..k], answers[..k], env);
      var before := RunEvents(s, events[..k], answers[..k], env);
      if before.1.Success? {
        var step := EventStep(before.0, events[k], answers[k], env, k);
        EventStepMeaning(before.0, events[k], answers[k], env, k);
        assert step.0.records[..|before.0.records|] == before.0.records;
        assert step.0.records[..|s.records|] == before.0.records[..|s.records|];
        forall j | |s.records| <= j < |step.0.records| ensures LineRecord(step.0.records[j]) {
          if j < |before.0.records| {
            assert step.0.records[j] == before.0.records[j];
          }
        }
        if step.1.Replied? {
          assert IsText(events[k]);
        } else {
          assert step.0 == before.0;
        }
      }
    }
  }

  /** `POST /`: `None` is an `events` that is missing, falsy or not an
      array. */
  function Webhook(s: LedgerState, events: Option<seq<Event>>, env: WebhookEnv): (h: Handled<LedgerState, WebhookBody>)
    ensures h.reply.Refused? && h.reply.status == 400 <==> events.None?
    ensures events.None? ==> h.state == s && h.reply.error == InvalidPayload
    ensures h.reply.Refused? && h.reply.status != 400 ==> h.reply.status == 500 && h.reply.error == InternalError
    ensures h.reply.Ok? ==> events.Some? && h.reply.body.processedEvents == |events.value|
  {
    if events.None? then Handled(s, Refused(400, InvalidPayload, None))
    else
      var run := RunEvents(s, events.value, Answers(events.value, env), env);
      match run.1
      case Failure(m) => Handled(run.0, Refused(500, InternalError, Some(m)))
      case Success(responses) => Handled(run.0, Ok(WebhookBody(responses, |events.value|)))
  }

  /** Well-formed events are all handled: one reply per text message, in
      event order, each with its event's token and the answer or the
      apology. */
  lemma WebhookReplies(s: LedgerState, events: seq<Event>, env: WebhookEnv)
    requires forall i :: 0 <= i < |events| ==> WellFormed(events[i])
    ensures var h := Webhook(s, Some(events), env);
      var texts := TextEvents(events, Answers(events, env));
      && h.reply.Ok?
      && |h.reply.body.responses| == |texts|
      && forall j :: 0 <= j < |texts| ==> RepliesTo(h.reply.body.responses[j], texts[j].0, texts[j].1)
  {
    RunEventsReplies(s, events, Answers(events, env), env);
  }

  /** A message event without `message`, or a text message without
      `source`, makes the request fail with 500, even after earlier events
      were saved. */
  lemma WebhookCrashes(s: LedgerState, events: seq<Event>, env: WebhookEnv, i: nat)
    requires i < |events| && !WellFormed(events[i])
    ensures var h := Webhook(s, Some(events), env);
      h.reply.Refused? && h.reply.status == 500
  {
    RunEventsCrashes(s, events, Answers(events, env), env, i);
  }

  /** Whatever the reply, the ledger keeps its records and gains only
      'LINE' records labelled 'RAG' or 'External', at most one per text
      message. */
  lemma WebhookRecords(s: LedgerState, events: seq<Event>, env: WebhookEnv)
    ensures var h := Webhook(s, Some(events), env);
      var texts := TextEvents(events, Answers(events, env));
      && |s.records| <= |h.state.records| <= |s.records| + |texts|
      && h.state.records[..|s.records|] == s.records
      && forall k :: |s.records| <= k < |h.state.records| ==> LineRecord(h.state.records[k])
  {
    RunEventsRecords(s, events, Answers(events, env), env);
  }

  /** The `i`-th event on the stored ledger. */
  method OnEvent(ledger: Ledger, e: Event, env: WebhookEnv, i: nat) returns (step: Step)
    requires ledger.Valid()
    modifies ledger
    ensures ledger.Valid()
    ensures (ledger.State(), step) == EventStep(old(ledger.State()), e, ProcessQuestion(QuestionOf(e), env.world, env.first + i), env, i)
  {
    if e.kind != Some("message") {
      return Skipped;
    }
    if e.message.None? {
      return Crashed(NoMessage);
    }
    if e.message.value.kind != Some("text") {
      return Skipped;
    }
    if e.source.None? {
      return Crashed(NoSource);
    }
    var question := e.message.value.text;
    var answered := ProcessQuestion(question, env.world, env.first + i);
    if answered.Failure? {
      return Replied(LineReply(e.replyToken, ReplyApology));
    }
    var a := answered.value;
    var saved := ledger.SaveConversation(AnswerRecord(e.source.value.userId.GetOr(""), question.value, a, env.elapsed(i), LineMetadata),
                                         env.clock(i), env.statsWritten(i));
    if saved.Failure? {
      return Replied(LineReply(e.replyToken, ReplyApology));
    }
    step := Replied(LineReply(e.replyToken, a.answer));
  }

  /** `POST /` on the stored ledger. */
  method HandleWebhook(ledger: Ledger, events: Option<seq<Event>>, env: WebhookEnv) returns (r: Reply<WebhookBody>)
    requires ledger.Valid()
    modifies ledger
    ensures ledger.Valid()
    ensures Handled(ledger.State(), r) == Webhook(old(ledger.State()), events, env)
  {
    if events.None? {
      return Refused(400, InvalidPayload, None);
    }
    var es := events.value;
    ghost var s0 := ledger.State();
    ghost var answers := Answers(es, env);
    var responses: seq<LineReply> := [];
    for i := 0 to |es|
      invariant ledger.Valid()
      invariant (ledger.State(), Success(responses)) == RunEvents(s0, es[..i], answers[..i], env)
    {
      RunEventsSnoc(s0, es, answers, i, env);
      AnswerAt(es, env, i);
      var step := OnEvent(ledger, es[i], env, i);
      match step
      case Skipped =>
      case Replied(reply) =>
        responses := responses + [reply];
      case Crashed(m) =>
        assert RunEvents(s0, es[..i + 1], answers[..i + 1], env) == (ledger.State(), Failure(m));
        RunEventsStaysFailed(s0, es, answers, env, i + 1);
        return Refused(500, InternalError, Some(m));
    }
    assert es[..|es|] == es;
    assert answers[..|es|] == answers;
    r := Ok(WebhookBody(responses, |es|));
  }

  /** A run that has failed on a prefix ends as that failure: later events
      are never read. */
  lemma {:induction false} RunEventsStaysFailed(s: LedgerState, events: seq<Event>, answers: seq<Result<Answer, string>>, env: WebhookEnv, i: nat)
    requires |answers| == |events|
    requires i <= |events|
    requires RunEvents(s, events[..i], answers[..i], env).1.Failure?
    ensures RunEvents(s, events, answers, env) == RunEvents(s, events[..i], answers[..i], env)
    decreases |events| - i
  {
    if i == |events| {
      assert events[..i] == events;
      assert answers[..i] == answers;
    } else {
      RunEventsSnoc(s, events, answers, i, env);
      RunEventsStaysFailed(s, events, answers, env, i + 1);
    }
  }

  // ---------------------------------------------------------------------------
  // POST /test

  /** The body of `POST /test`; `None` is a key left out. */
  datatype TestRequest = TestRequest(message: Option<string>, userId: Option<string>)

  datatype TestBody = TestBody(question: string, answer: string, source: string, confidence: real, responseTime: string, userId: string)

  /** `POST /test` as the `n`-th question the agent answers, saved at `now`
      after `elapsed` milliseconds. A falsy message is refused; the user
      defaults to 'test-user' only when left out. */
  function WebhookTest(s: LedgerState, req: TestRequest, world: World, n: nat, now: int, elapsed: int, statsWritten: bool)
    : (h: Handled<LedgerState, TestBody>)
    ensures h.reply.Refused? && h.reply.status == 400 <==> req.message.None? || req.message.value == ""
    ensures h.reply.Refused? ==> h.state == s
    ensures h.reply.Refused? && h.reply.status == 400 ==> h.reply.error == MessageRequired
    ensures h.reply.Refused? && h.reply.status != 400 ==> h.reply.status == 500 && h.reply.error == InternalError
    ensures h.reply.Ok? ==>
      && h.reply.body.userId == req.userId.GetOr(TestUser)
      && |h.state.records| == |s.records| + 1
      && h.state.records[..|s.records|] == s.records
      && var rec := h.state.records[|s.records|];
      && rec.question == req.message.value == h.reply.body.question
      && rec.userId == h.reply.body.userId
      && rec.answer == h.reply.body.answer
      && rec.source == h.reply.body.source
      && rec.metadata.platform == "TEST"
    ensures req.message.Some? && req.message.value != "" ==>
      (h.reply.Ok? <==> Loggable(req.userId.GetOr(TestUser), req.message.value, ProcessQuestion(req.message, world, n).value))
    ensures h.reply.Ok? ==>
      && req.message.Some?
      && h.reply.body.answer == ProcessQuestion(req.message, world, n).value.answer
      && h.reply.body.source == LabelName(ProcessQuestion(req.message, world, n).value.source)
      && h.reply.body.confidence == ProcessQuestion(req.message, world, n).value.confidence
  {
    if req.message.None? || req.message.value == "" then Handled(s, Refused(400, MessageRequired, None))
    else
      var m := req.message.value;
      var user := req.userId.GetOr(TestUser);
      var a := ProcessQuestion(Some(m), world, n).value;
      SaveAnswerIff(s, user, m, a, elapsed, TestMetadata, now, statsWritten);
      var saved := Save(s, AnswerRecord(user, m, a, elapsed, TestMetadata), now, statsWritten);
      match saved.result
      case Failure(e) => Handled(s, Refused(500, InternalError, Some(e)))
      case Success(_) => Handled(saved.state, Ok(TestBody(m, a.answer, LabelName(a.source), a.confidence, IntToString(elapsed) + "ms", user)))
  }

  /** An explicit empty user id is not replaced by the default, so the
      save is refused and the caller gets 500. */
  lemma EmptyTestUserFails(s: LedgerState, message: string, world: World, n: nat, now: int, elapsed: int, statsWritten: bool)
    requires message != ""
    ensures var h := WebhookTest(s, TestRequest(Some(message), Some("")), world, n, now, elapsed, statsWritten);
      h.reply.Refused? && h.reply.status == 500 && h.state == s
  {
  }

  /** `POST /test` on the stored ledger. */
  method TestWebhook(ledger: Ledger, req: TestRequest, world: World, n: nat, now: int, elapsed: int, statsWritten: bool)
    returns (r: Reply<TestBody>)
    requires ledger.Valid()
    modifies ledger
    ensures ledger.Valid()
    ensures Handled(ledger.State(), r) == WebhookTest(old(ledger.State()), req, world, n, now, elapsed, statsWritten)
  {
    if req.message.None? || req.message.value == "" {
      return Refused(400, MessageRequired, None);
    }
    var m := req.message.value;
    var user := req.userId.GetOr(TestUser);
    var a := ProcessQuestion(Some(m), world, n).value;
    var saved := ledger.SaveConversation(AnswerRecord(user, m, a, elapsed, TestMetadata), now, statsWritten);
    if saved.Failure? {
      return Refused(500, InternalError, Some(saved.error));
    }
    r := Ok(TestBody(m, a.answer, LabelName(a.source), a.confidence, IntToString(elapsed) + "ms", user));
  }
}

=== FILE: wrappers.dfy ===
/** Option and Result values used wherever the source has `null`, `undefined`
    or a thrown error. */
module Wrappers {

  datatype Option<+T> = None | Some(value: T) {
    function GetOr(default: T): T {
      match this
      case Some(v) => v
      case None => default
    }
  }

  datatype Result<+R, +E> = Success(value: R) | Failure(error: E)
}
